=== FILE: README.md ===
# Room, game and map core of the strategy-game server, in Dafny

This project models the deterministic core of a multiplayer web game. The game has a Node/Express and MongoDB
server, Socket.IO channels and a React client. The model covers these parts:

- **The room store** (`src/models/roomModel.js`).
  - Rooms are a sequence of records, and every database call is one atomic step.
  - It covers creating, joining (by invite code), leaving, paging and the current-room look-up.
  - Each user is in at most one room and no room exceeds its capacity. Any sequence of create, join and leave calls
    keeps these invariants.
- **Invite codes.** These are three random bytes in upper-case hexadecimal. They decode back to the bytes and are
  exactly six characters from 0-9A-F.
- **The HTTP guard layer** (`src/routes/roomRoutes.js`, `src/controllers/roomController.js`).
  - This is the status each request ends with and the store calls it makes.
  - Store calls whose bodies the repository does not contain are tags with their outcome (threw / returned a value)
    as a parameter.
  - It also covers the paging defaults, the self-kick guard, the bot wording and the reply projection.
- **Bots** (`src/gameServer/gameModels/botModel.js`): the `bot_<n>` / `Bot <n>` identity.
- **The socket channel registry** (`src/services/socketHandlers.js`).
  - It consists of the two maps, room → sockets and socket → room, kept by `join:room`, `leave:room` and
    `disconnect`.
  - It also covers the argument check of `game:start`.
- **Tic-tac-toe** (`src/models/gameModel.js`): the new game, the eight-line winner check and the move.
- **The server map** (`src/gameServer/gameModels/mapModel.js`):
  - cell keys;
  - map size;
  - spawn zones;
  - the house-position rule;
  - house spawning;
  - `updateCell`, `getTile` and `getMapState`.
- **The client map generators.**
  - `Frontend/src/gamePages/Game.jsx` is the routed page and `Frontend/src/pages/Game.jsx` the unrouted one.
  - They cover the terrain adjacency rules, the neighbour check, the terrain layer with its fall-back to grass,
    object spawning, spawn corners and house placement.
- **The game configuration page** (`Frontend/src/pages/GameConfig.jsx`):
  - the table look-ups and the used options;
  - the colour guard and the colour-button rule;
  - the ready guard, the original room id and the colour pool for a bot.

JavaScript behaviour is written out explicitly:

- **Ids.** Human ids are stored as ObjectIds and bot ids as strings. `===` between an ObjectId and a string is false.
- **Number parsing.** The model follows `parseInt` and `Number`, including the `|| default` idiom.
- **Strings and truthiness.** `split` and ASCII `toUpperCase` are modelled, as are truthiness and `filter(Boolean)`.
- **Missing values.** `null` and `undefined` are told apart where the source does.
- **Random draws.** Every random draw is a parameter:
  - the invite-code bytes;
  - the bot number and avatar;
  - terrain draws;
  - object draws;
  - candidate house cells.

## Model

| member | source | states |
|---|---|---|
| InviteCodes.InviteCodeShape | src/models/roomModel.js:26 | every invite code is exactly six characters from 0-9 and A-F |
| InviteCodes.DecodeInviteCodeRoundTrip | src/models/roomModel.js:26 | decoding an invite code gives back the three random bytes it was made from |
| InviteCodes.InviteCodeOfDecoded | src/models/roomModel.js:26 | conversely every upper-case six-digit hex code is the invite code of the bytes it decodes to |
| InviteCodes.DecodeInviteCode | src/models/roomModel.js:26 | only a six-character text can decode |
| RoomStore.RoomOf | src/models/roomModel.js:10-19 | the membership query (host or player) finds the first matching room, and finds none exactly when no room has the user |
| RoomStore.WaitingRoomWithCode | src/models/roomModel.js:65-72 | the join query finds the first waiting room with the code, and none exactly when no waiting room has it |
| RoomStore.CreateRoom | src/models/roomModel.js:6-47 | refuses with "already in a room" exactly when the user is host or player somewhere; otherwise a missing user profile (where `host.username` throws) and an `_id` already in the store (where `insertOne` fails) are the only other errors; in every other case it succeeds, appending one waiting room with the creator as host and sole player, role host, capacity 4 whatever was requested, and an upper-case hex code |
| RoomStore.JoinRoom | src/models/roomModel.js:49-102 | each error exactly in its case, in the source's order: a user already in a room; no waiting room with the upper-cased code; a full room; a missing user profile (where `user.username` throws). Succeeds exactly when none applies, appending exactly one player entry to that room only |
| RoomStore.Without | src/models/roomModel.js:135-149 | `$pull` removes every entry of the user and keeps all others |
| RoomStore.LeaveRoom | src/models/roomModel.js:104-151 | an error exactly when the user is in no room; the host leaving deletes the room, anyone else has only their entry pulled, and `isHost` says which |
| RoomStore.InsertByNewest | src/models/roomModel.js:156-161 | inserting into a newest-first list keeps it sorted and is a permutation with the new room added |
| RoomStore.SortByNewest | src/models/roomModel.js:156-161 | the `createdAt` descending sort is sorted and a permutation of its input |
| RoomStore.WaitingRooms | src/models/roomModel.js:156-165 | exactly the waiting rooms of the store |
| RoomStore.TotalPages | src/models/roomModel.js:171 | `Math.ceil(total / limit)`: for any non-zero limit the least page count `c` with `c * limit` reaching the total (for a negative limit a count of zero or below); `Infinity` / `NaN` for limit 0 |
| RoomStore.GetRooms | src/models/roomModel.js:153-173 | a page of waiting rooms only, newest first, at most `limit` long, with the total of waiting rooms and the page count; a negative skip is an error |
| RoomStore.RoomOnItsPage | src/models/roomModel.js:156-171 | with a positive limit, the waiting room of rank k is on page k div limit + 1, at position k mod limit, and that page is within the page count |
| RoomStore.GetCurrentRoom | src/models/roomModel.js:175-183 | a room the user is host or player of, or null exactly when there is none |
| RoomStore.CurrentRoomIsTheRoom | src/models/roomModel.js:175-183 | in a valid store the current room is the one room the user belongs to |
| RoomStore.CreatePreservesValid | src/models/roomModel.js:10-43 | a successful create keeps one room per user, capacity, a seated host and unique room ids |
| RoomStore.JoinPreservesValid | src/models/roomModel.js:53-98 | a successful join keeps every store invariant, capacity included |
| RoomStore.RemoveRoomPreservesValid | src/models/roomModel.js:122-132 | deleting one room keeps every store invariant |
| RoomStore.PullPlayerPreservesValid | src/models/roomModel.js:135-149 | pulling a non-host player keeps every store invariant |
| RoomStore.LeavePreservesValid | src/models/roomModel.js:104-151 | a successful leave keeps every store invariant |
| RoomStore.ApplyPreservesValid | src/models/roomModel.js:6-151 | one create, join or leave call, successful or not, keeps every store invariant |
| RoomStore.RunPreservesValid | src/models/roomModel.js:6-151 | any sequence of create, join and leave calls keeps each user in at most one room and each room within capacity |
| Bots.CreateBot | src/gameServer/gameModels/botModel.js:5-25 | fails exactly when there is no user to take an avatar from; the bot has `isBot`, the avatar of the drawn user, the fresh id and the clock, an id `bot_<n>` and name `Bot <n>` with `<n>` the drawn number below 1000 in decimal, which reads back as that number |
| RoomController.NumberOr | src/controllers/roomController.js:85-86 | `parseInt(q) \|\| d` is never 0 and is the default when the parameter is missing |
| RoomController.NumberOrReadsDecimal | src/controllers/roomController.js:85-86 | a decimal page or limit reads as itself, and 0 falls back to the default |
| RoomController.ViewRoom | src/controllers/roomController.js:92-104 | the reply keeps the players' count and order, each with its id turned into text |
| RoomController.MemberVisibleInView | src/controllers/roomController.js:13-25 | a member of a room is found in the reply by the text of their id |
| RoomController.ListRooms | src/controllers/roomController.js:83-117 | only waiting rooms are listed, never more than there are; with no parameters it is page 1 of at most 10 |
| RoomController.CurrentRoom | src/controllers/roomController.js:119-153 | `room: null` exactly when the user is in no room, otherwise the projection of one of their rooms |
| RoomController.KickMember | src/controllers/roomController.js:155-201 | kicking oneself is 400 without reaching the store; success exactly when the store returned a room, with the bot wording exactly when the target id starts with `bot_`; the reply room carries only the id, name, code, host id as text and the players with their ids as text |
| RoomController.ViewKickedRoom | src/controllers/roomController.js:185-194 | the kick projection: id, name, invite code, host id as text, and every player in order with the id as text |
| RoomController.KickedViewAgreesWithView | src/controllers/roomController.js:92-104 | the kick reply shows the same values as the list reply for the fields both send |
| RoomController.KickingABotSaysBot | src/controllers/roomController.js:179-181 | kicking a bot made by `createBot` is always worded as a bot removal |
| RoomRoutes.JoinRoute | src/routes/roomRoutes.js:47-76 | 400 with no store call exactly when neither invite code nor room id is given; the invite code wins over the room id, and succeeds exactly when `JoinRoom` does, storing its result; a join by id answers 200 exactly when the call returns a room, and leaves the store as that call left it; events only on success |
| RoomRoutes.JoinRoutePreservesValid | src/routes/roomRoutes.js:47-76 | the join route keeps every store invariant, provided a join by id leaves a valid store |
| RoomRoutes.JoinByCodePreservesValid | src/routes/roomRoutes.js:52-54 | a join by invite code keeps every store invariant, whatever a join by id would do |
| RoomRoutes.DeleteRoute | src/routes/roomRoutes.js:163-193 | 404 for a missing room, 403 for a caller who is not the host (ids compared as text); only the host reaches `deleteRoom` |
| RoomRoutes.LeaveRouteAsWritten | src/routes/roomRoutes.js:328-368 | the leave route with the strict host test as written: 404 for a missing room, then delete or remove by that test |
| RoomRoutes.LeaveRoute | src/routes/roomRoutes.js:328-368 | the leave route with the host test of line 174: the host deletes the room, anyone else is removed and the room kept |
| RoomRoutes.LeaveWith | src/routes/roomRoutes.js:338-361 | the branch taken once the host test is decided: which call is made and which events follow |
| RoomRoutes.LeaveAsWrittenMissesStoredHost | src/routes/roomRoutes.js:339 | when the stored host id is an ObjectId, the written route removes the host as a player, where the corrected one deletes the room |
| RoomRoutes.CreatedRoomHostCannotDeleteByLeaving | src/routes/roomRoutes.js:339 | for any room made by `createRoom`, the written leave route never deletes it on the host's leave |
| RoomRoutes.FindStrict | src/routes/roomRoutes.js:92 | the `/kick` search as written finds only a player whose stored id is strictly equal to the target text |
| RoomRoutes.FindByText | src/routes/roomRoutes.js:92 | the corrected search finds a player exactly when the text of some stored id equals the target |
| RoomRoutes.KickWith | src/routes/roomRoutes.js:82-115 | 404 for a missing room or target before any kick; `kickMember` is called exactly when both exist |
| RoomRoutes.KickRouteAsWritten | src/routes/roomRoutes.js:82-115 | the kick route with the strict search |
| RoomRoutes.KickRoute | src/routes/roomRoutes.js:82-115 | the kick route with the search by text |
| RoomRoutes.KickAsWrittenMissesHumans | src/routes/roomRoutes.js:92 | a human player stored with an ObjectId id is answered 404 by the written route and kicked by the corrected one |
| RoomRoutes.JoinedPlayerNotKickable | src/routes/roomRoutes.js:92 | in a store of human players, the player who just joined through `joinRoom` is never found by the written search |
| RoomRoutes.StopGameRoute | src/routes/roomRoutes.js:371-416 | 404, then 403 for a non-host, before `resetRoom`; a falsy reset is 400; events only on success |
| RoomRoutes.ReadyRoute | src/routes/roomRoutes.js:240-307 | 400 exactly when `setPlayerReady` reports failure; `room:all_ready` is emitted exactly on a successful all-ready result |
| RoomRoutes.ConfigRoute | src/routes/roomRoutes.js:215-237 | 400 exactly when the update reports failure; success re-reads and broadcasts the room |
| RoomRoutes.StartRoute | src/routes/roomRoutes.js:196-212 | 200 exactly when `startGame` returns true, 400 exactly when it returns false |
| ChannelRegistry.RemoveFrom | src/services/socketHandlers.js:91-96 | takes the socket out of one room and drops the room once empty; other rooms untouched |
| ChannelRegistry.AddTo | src/services/socketHandlers.js:59-66 | adds the socket to one room, creating its set; other rooms untouched |
| ChannelRegistry.Join | src/services/socketHandlers.js:36-74 | an empty id does nothing; otherwise the socket is recorded in and listed by the new room, and every other room loses at most this socket |
| ChannelRegistry.LeaveAsWritten | src/services/socketHandlers.js:77-103 | the written leave handler drops the socket's record whatever room it names, takes it out of the left room only, and leaves every other socket's record as it was |
| ChannelRegistry.Leave | src/services/socketHandlers.js:77-103 | the corrected handler takes the socket out of the left room and forgets its record only when that record names the same room |
| ChannelRegistry.Disconnect | src/services/socketHandlers.js:141-156 | the socket leaves its recorded room and its record is gone |
| ChannelRegistry.JoinKeepsConsistent | src/services/socketHandlers.js:36-74 | join keeps the two maps consistent and no set empty, and changes nothing about other sockets |
| ChannelRegistry.LeaveKeepsConsistent | src/services/socketHandlers.js:77-103 | the corrected leave keeps the maps consistent and changes nothing about other sockets |
| ChannelRegistry.DisconnectKeepsConsistent | src/services/socketHandlers.js:141-156 | disconnect keeps the maps consistent, changes nothing about other sockets and leaves the socket in no room |
| ChannelRegistry.HandleAllKeepsConsistent | src/services/socketHandlers.js:36-156 | any sequence of join, leave and disconnect events keeps the maps consistent |
| ChannelRegistry.LeaveAsWrittenKeepsNoEmptyRooms | src/services/socketHandlers.js:88-96 | the written leave handler never leaves an empty set behind |
| ChannelRegistry.JoinOthersListed | src/services/socketHandlers.js:36-74 | join changes nothing about any other socket, in any registry |
| ChannelRegistry.JoinKeepsNoEmptyRooms | src/services/socketHandlers.js:43-66 | join never leaves an empty set behind, in any registry |
| ChannelRegistry.DisconnectKeepsNoEmptyRooms | src/services/socketHandlers.js:141-152 | disconnect never leaves an empty set behind, in any registry |
| ChannelRegistry.LeaveAsWrittenKeepsRecordsListed | src/services/socketHandlers.js:87-96 | after the written leave every remaining record still names a room that lists its socket |
| ChannelRegistry.HandleAsWrittenStep | src/services/socketHandlers.js:36-156 | each handler as written keeps no set empty and every record listed, and changes only the acting socket's entries |
| ChannelRegistry.HandleAllAsWrittenKeepsInvariant | src/services/socketHandlers.js:36-156 | any sequence of events under the written handlers keeps no set empty and every record listed |
| ChannelRegistry.HandleAllAsWrittenLeavesOthers | src/services/socketHandlers.js:36-156 | a socket no event names keeps its record and its listings through any sequence of written handlers |
| ChannelRegistry.StaleSocketAfterLeavingOtherRoom | src/services/socketHandlers.js:88 | join A, leave B, disconnect: the written handler leaves the socket listed in A for good; the corrected one does not |
| ChannelRegistry.GameStart | src/services/socketHandlers.js:106-138 | the game starts exactly when a non-empty room id and a non-empty game configuration id are given, and then reports the room's client count |
| TicTacToe.StartNew | src/models/gameModel.js:34-51 | an active game with nine empty cells, no players, no current player and no winner |
| TicTacToe.LineMark | src/models/gameModel.js:97-102 | a line gives a mark exactly when its three cells hold the same truthy mark |
| TicTacToe.WinnerFromIsFirst | src/models/gameModel.js:97-102 | the first winning line from a given one on, in listed order |
| TicTacToe.CheckWinner | src/models/gameModel.js:90-105 | null exactly when no line of the eight wins; otherwise the mark of the first winning line in listed order |
| TicTacToe.NewGameHasNoWinner | src/models/gameModel.js:36-43 | a new board has no winner |
| TicTacToe.NextPlayer | src/models/gameModel.js:74 | the second player after the first, the first player otherwise; `undefined` with no players, and `undefined` when the only player has just moved |
| TicTacToe.MakeMove | src/models/gameModel.js:54-87 | an unknown game or a taken or off-board cell fails with nothing written; on success only that cell changes, to the mover, and the game is finished exactly when the new board has a winner, which is stored |
| TicTacToe.OnlyTheMoverCanWin | src/models/gameModel.js:65-78 | a move on a board without a winner can only make the mover the winner |
| TicTacToe.MoveKeepsTakenCells | src/models/gameModel.js:60-66 | a successful move never changes a taken cell |
| Terrains.FromNameOfName | src/gameServer/gameModels/mapModel.js:41-47 | every terrain is read back from its name |
| HouseRules.HouseType | src/gameServer/gameModels/mapModel.js:207 | the house type of player i is one of `HOUSE_TYPES`, cycling |
| HouseRules.PlayerNameInjective | src/gameServer/gameModels/mapModel.js:205 | distinct player indices give distinct `player<i+1>` ids |
| HouseRules.PlayerOneIsFirst | src/gameServer/gameModels/mapModel.js:221 | `player1` is the id of index 0 only |
| HouseRules.NewHouse | src/gameServer/gameModels/mapModel.js:217-222 | a new house has its player's type, level 0, its player's id, and is the current player's exactly for index 0 |
| HouseRules.DrawLandsInZone | src/gameServer/gameModels/mapModel.js:212-213 | a draw in a non-empty zone lands inside the zone |
| ServerMap.ParseKey | src/gameServer/gameModels/mapModel.js:80-83 | a key without a comma has no column |
| ServerMap.ParseCreatedKey | src/gameServer/gameModels/mapModel.js:75-83 | parsing a created key gives back both coordinates, negative ones included |
| ServerMap.CreateKeyInjective | src/gameServer/gameModels/mapModel.js:75-77 | different cells have different keys |
| ServerMap.CalculateMapSize | src/gameServer/gameModels/mapModel.js:86-93 | 30 columns and a multiple of 5 rows, 20 for two players or fewer |
| ServerMap.MapSizeGrowth | src/gameServer/gameModels/mapModel.js:86-93 | each player beyond the second adds exactly five rows |
| ServerMap.GetSpawnZones | src/gameServer/gameModels/mapModel.js:172-198 | up to four players get the four corners; more get one band each, band `i` running from row `h * i` to row `h * (i + 1)` with `h = rows / n`; all zones lie within the map and are pairwise disjoint |
| ServerMap.ValidHousePositionMeansDistance | src/gameServer/gameModels/mapModel.js:149-169 | a cell is valid exactly when its terrain is grass or land and no other player's house is within squared distance 64 |
| ServerMap.FirstValid | src/gameServer/gameModels/mapModel.js:211-228 | the drawn cell at the first index whose cell is valid (every earlier draw is invalid), or none exactly when no drawn cell is valid |
| ServerMap.FarFromOtherHouse | src/gameServer/gameModels/mapModel.js:158-166 | a valid cell is at least 8 from every other player's house and so has another key |
| ServerMap.SpawnHouses | src/gameServer/gameModels/mapModel.js:201-231 | one entry per player: the house goes on the first of that player's draws valid on the map as it stands at their turn (none when no draw is); the resulting map is those placements in turn; each house is of type `HOUSE_TYPES[i mod 3]` on grass or land, clear of every other player's house that was on the map before, and the houses placed in the call by different players are at least 8 apart; the object there is removed and nothing else changes |
| ServerMap.PlacedInOwnZone | src/gameServer/gameModels/mapModel.js:202-213 | with draws taken from the spawn zones, every house lands in its owner's zone |
| ServerMap.ApplyField | src/gameServer/gameModels/mapModel.js:318-330 | a given value is set, `null` deletes, an absent field keeps; other keys untouched |
| ServerMap.UpdateCell | src/gameServer/gameModels/mapModel.js:310-334 | only the one cell changes: a truthy terrain replaces the old one, objects and houses follow the set/delete/keep rule |
| ServerMap.GetTile | src/gameServer/gameModels/mapModel.js:300-307 | the stored terrain or grass, never empty, with the stored object and house |
| ServerMap.GetMapState | src/gameServer/gameModels/mapModel.js:260-297 | a rows × cols grid |
| ServerMap.MapStateAgreesWithTiles | src/gameServer/gameModels/mapModel.js:260-307 | the whole-map view and the single-tile view agree on every cell |
| ServerMap.UpdateCellThenGetTile | src/gameServer/gameModels/mapModel.js:300-334 | after an update the updated tile shows it and every other tile is unchanged |
| TerrainGen.MapRows | Frontend/src/gamePages/Game.jsx:9-16 | at least 20 rows, exactly 20 for two players or fewer (likewise Frontend/src/pages/Game.jsx:9-16) |
| TerrainGen.MapRowsGrowth | Frontend/src/pages/Game.jsx:9-16 | each extra player adds 5 rows on the routed page and 10 on the unrouted one |
| TerrainGen.RulesSymmetric | Frontend/src/gamePages/Game.jsx:59-65 | adjacency is symmetric over the generated terrains (likewise Frontend/src/pages/Game.jsx:58-63) |
| TerrainGen.MountainNeverGenerated | Frontend/src/gamePages/Game.jsx:22-28 | mountain is never drawn (likewise Frontend/src/pages/Game.jsx:22-27) |
| TerrainGen.CheckNeighboursMeans | Frontend/src/gamePages/Game.jsx:235-241 | the neighbour loop passes exactly when every listed neighbour is outside, unfilled or allowed |
| TerrainGen.IsValidTerrainMeans | Frontend/src/gamePages/Game.jsx:227-244 | a terrain is valid exactly when each of the four orthogonal neighbours is outside, unfilled or allowed (likewise Frontend/src/pages/Game.jsx:122-139) |
| TerrainGen.Settle | Frontend/src/gamePages/Game.jsx:257-264 | the cell gets a drawn terrain that the neighbour check accepts, or grass |
| TerrainGen.SettleIsPick | Frontend/src/gamePages/Game.jsx:251-267 | while the grid fills in row-major order, only the cells above and to the left can object |
| TerrainGen.GenerateTerrain | Frontend/src/gamePages/Game.jsx:251-267 | every cell of the rows × cols grid is filled with the first of its 20 draws that the filled cells above and to the left accept, or grass (likewise Frontend/src/pages/Game.jsx:146-164) |
| TerrainGen.GeneratedCellsRespectRules | Frontend/src/gamePages/Game.jsx:257-264 | a generated cell is either grass or a draw its upper and left neighbours allow |
| TerrainGen.GrassFallbackIsUnchecked | Frontend/src/gamePages/Game.jsx:264 | the grass fall-back is not checked: below lava it puts grass, which the rules forbid there |
| TerrainGen.PossibleObjects | Frontend/src/gamePages/Game.jsx:68-72 | exactly the object kinds whose rule lists the terrain |
| TerrainGen.ObjectFrom | Frontend/src/gamePages/Game.jsx:200-222 | a spawned object is one of the remaining candidate kinds, with a count in 1..3 |
| TerrainGen.ObjectFromIsFirst | Frontend/src/gamePages/Game.jsx:202-219 | the loop returns nothing exactly when no remaining candidate fires (spawn roll succeeds and count roll lands in the table), and otherwise the first candidate that fires, with the count of its table row |
| TerrainGen.GetRandomObject | Frontend/src/gamePages/Game.jsx:193-224 | `null` exactly when no allowed candidate fires (so always on a terrain no rule lists); otherwise the first allowed kind, in key order, whose rolls fire, with count 1..3 from its table row (likewise Frontend/src/pages/Game.jsx:88-119) |
| TerrainGen.ObjectsOnlyOnGrassAndRock | Frontend/src/pages/Game.jsx:66-70 | land, lake, lava and mountain never carry an object |
| ClientHouses.SetCell | Frontend/src/gamePages/Game.jsx:159-169 | writing a cell changes that cell only |
| ClientHouses.SpawnZones | Frontend/src/gamePages/Game.jsx:83-105 | four zones, each within the map |
| ClientHouses.SpawnZonesApart | Frontend/src/gamePages/Game.jsx:83-105 | on a map at least 4 cells each way the corners are non-empty and pairwise disjoint |
| ClientHouses.DrawnCellOnGrid | Frontend/src/gamePages/Game.jsx:143-150 | any cell drawn for a zone lies on the grid |
| ClientHouses.IsValidHousePosition | Frontend/src/gamePages/Game.jsx:112-131 | true exactly when the cell is grass or land and no other player's house is closer than 8 |
| ClientHouses.Place | Frontend/src/gamePages/Game.jsx:159-169 | placing a house keeps the grid's shape |
| ClientHouses.FirstValid | Frontend/src/gamePages/Game.jsx:155-172 | the drawn cell at the first index whose cell is valid (every earlier draw is off the grid or not a valid spot), or none exactly when no drawn cell is valid; the loop's answer is the recursive reference `FirstValidSpot` |
| ClientHouses.SpawnHouses | Frontend/src/gamePages/Game.jsx:134-175 | one entry per player: the house goes on the first of that player's draws that is a valid spot on the grid as it stands at their turn (none when no draw is); each house is of its type, on grass or land, with the object cleared to count 0; houses of different players at least 8 apart; terrain and all other cells unchanged |
| ClientHouses.PlacedInOwnCorner | Frontend/src/gamePages/Game.jsx:143-172 | on a map at least 4 cells each way every house lands in its owner's corner |
| GameConfig.GetCivilization | Frontend/src/pages/GameConfig.jsx:43-45 | the entry with that id, or null exactly when no entry has it |
| GameConfig.GetColor | Frontend/src/pages/GameConfig.jsx:47-49 | the entry with that id, or null exactly when no entry has it |
| GameConfig.LookupByOwnId | Frontend/src/pages/GameConfig.jsx:8-49 | in the built-in tables each entry is found by its own id |
| GameConfig.GetUsedOptions | Frontend/src/pages/GameConfig.jsx:51-64 | two empty lists without a room |
| GameConfig.UsedOptionsMeans | Frontend/src/pages/GameConfig.jsx:54-63 | a colour or civilisation is listed as used exactly when it is non-empty and another player holds it |
| GameConfig.HandleColorChange | Frontend/src/pages/GameConfig.jsx:401-424 | refused exactly when another player holds the colour; otherwise the request goes to the current room and carries the colour, and the selected civilisation, or `null` when none is selected |
| GameConfig.ColorButtonDisabled | Frontend/src/pages/GameConfig.jsx:552-561 | disabled exactly when the user is ready, or another player holds the colour and it is not the current selection |
| GameConfig.EnabledButtonPassesGuard | Frontend/src/pages/GameConfig.jsx:403-410 | clicking an enabled button for a new colour always sends the request |
| GameConfig.HandleReadyClick | Frontend/src/pages/GameConfig.jsx:426-441 | refused unless both a civilisation and a colour are selected |
| GameConfig.OriginalRoomId | Frontend/src/pages/GameConfig.jsx:78 | the longest prefix without `_`, followed in the route id by `_` or its end |
| GameConfig.OriginalRoomIdOfSuffixed | Frontend/src/pages/GameConfig.jsx:78 | a room id with a `_`-suffix gives back the room id; an id without `_` is kept whole |
| GameConfig.AvailableColors | Frontend/src/pages/GameConfig.jsx:330-334 | exactly the table colours no player in the room holds |
| GameConfig.AutoSelectForBot | Frontend/src/pages/GameConfig.jsx:325-357 | no room does nothing; fails exactly when no colour is free or there is no civilisation; otherwise the request goes to the given room and gives the bot a table colour no player holds and a listed civilisation |
| Text.ParseIntOfNatToString | src/controllers/roomController.js:85-86 | `parseInt` reads back every decimal rendering of a non-negative integer |
| Text.ToNumberOfIntToString | src/gameServer/gameModels/mapModel.js:80-83 | `Number` reads back every rendering of an integer |
| Text.SplitTwo | src/gameServer/gameModels/mapModel.js:81 | splitting two separator-free parts joined by the separator gives the two parts |
| Seqs.FilterConcat | Frontend/src/pages/GameConfig.jsx:54-63 | filtering distributes over concatenation |

## Left out

- **Undefined store operations.** The routes call store operations whose bodies are not part of this model:
  - `getRoomById`, `deleteRoom`, `removePlayer`, `kickMember`, `joinRoomById`;
  - `resetRoom`, `setPlayerReady`, `updatePlayerConfig`, `startGame`, `addBot`, `cancelPlayerReady`.

  Each is a call tag whose outcome is a parameter; nothing is assumed about what they store, except that a `joinRoomById` that throws writes nothing.
- RoomRoutes.JoinRoute: does not promise that a failed join by id writes nothing. `joinRoomById` has no definition, so the store it leaves when it returns is a parameter; a call that throws is taken to leave the store as it was.
- **Database and concurrency.** MongoDB connection handling and asynchrony are left out. The window between `findOne` and `updateOne` is not modelled either: every store call is one atomic step.
- **Transport.** Socket.IO fan-out (`io.emit`, `socket.join`, `socket.leave`) is not modelled; emitted events are recorded as a list of tags. The map socket and the client socket module are left out too.
- **Random distributions.** Only the draws are modelled, as parameters. The weight and rate tables, `Math.random` and `crypto.randomBytes` are left out, so the model does not say how likely each outcome is.
- **Authentication** (users, passwords, tokens) and the route registration files are not part of this model.
- **React.** Rendering, effects, timers and polling on the client are not part of this model.
- **Thin wrappers.** The game and map controllers, and the configuration controller, are not modelled; they only forward to the models, some with broken calls.
- **Timestamps and logging.** Timestamps are parameters, and no property depends on them. Console logging is left out.
- **Three routes.** The add-bot route, `GET /:roomId` and the cancel-ready route are not modelled. Each only forwards one undefined store call and broadcasts.
- **Server-side generation.** On the server, `getRandomTerrain`, `getRandomObject` and `generateMap` only draw from probability tables; no terrain rule is checked there.
- **The object layer of client `generateMap`.** The per-cell loop that calls `getRandomObject` is not composed with `TerrainGen.GenerateTerrain`; `getRandomObject` is modelled on its own.
- **More than four players on the client.** The branch of the client `getSpawnZones` for more than four players is dead code, because the page fixes `numPlayers` at 4.
- **Option tables from the API.** The client can replace its civilisation and colour tables with data from the server. The tables are therefore parameters of the look-ups, and `LookupByOwnId` is stated for the built-in ones.
- **Text.** Unicode case mapping is left out; only ASCII upper-casing is modelled. `parseInt` is exact on unbounded integers, so there is no floating-point rounding of long digit strings, and number forms other than optional-sign decimal (exponents, `0x`, `Infinity`) read as `NaN`.
- **Equal timestamps.** Rooms created at the same instant are ordered as the store holds them; MongoDB does not promise any order.
- **Missing ids.** A `null` or `undefined` id given to `getCivilization` or `getColor` is modelled as a string id that matches no entry.
- RoomStore.CreateRoom: the `maxPlayers` the caller passes is accepted and ignored, as in the source; every room gets capacity 4.
- ServerMap.GetMapState: its contract gives only the grid's shape; the cell contents are stated by `ServerMap.MapStateAgreesWithTiles`.
- **Unreachable bot set-up.** `GameConfig.AutoSelectForBot` models `autoSelectForBot` on its own. On the page nothing calls it: its only caller is the component-level `fetchRoom` (Frontend/src/pages/GameConfig.jsx:359-368), which is never called, because the effect at line 157 calls its own inner `fetchRoom`.
- RoomController.ListRooms: states the bounds and the defaults; the page contents are those of `RoomStore.GetRooms`, which it calls.

## Findings

| source | as written | input that shows it | evidently intended | confidence | as-written member | corrected member |
|---|---|---|---|---|---|---|
| src/routes/roomRoutes.js:339 | the host test is `room.hostId === userId.toString()`. `createRoom` stores `hostId` as an ObjectId, and an ObjectId is never strictly equal to a string, so the host is removed as a player instead of the room being deleted | a room made by `createRoom` for user U, then U calls `POST /:roomId/leave` | compare both ids as text, as the delete route does at line 174 | not executed; holds if `getRoomById` (not part of this model) returns the stored document | RoomRoutes.LeaveRouteAsWritten (shown by RoomRoutes.CreatedRoomHostCannotDeleteByLeaving) | RoomRoutes.LeaveRoute |
| src/routes/roomRoutes.js:92 | the kick search is `p.userId === kickedUserId`. Human players are stored with ObjectId ids, so a human target is never found and the route answers 404 | user V joins through `joinRoom`, then the host kicks V by V's id text | compare the text of the stored id with the target | not executed; holds if `getRoomById` (not part of this model) returns the stored document | RoomRoutes.KickRouteAsWritten (shown by RoomRoutes.JoinedPlayerNotKickable) | RoomRoutes.KickRoute |
| src/services/socketHandlers.js:88 | `leave:room` deletes the socket's record whatever room it names. A later `disconnect` then cannot find the recorded room, so the socket stays listed there for good | socket s: `join:room` A, `leave:room` B, `disconnect` | forget the record only when it names the room being left | not executed | ChannelRegistry.LeaveAsWritten (shown by ChannelRegistry.StaleSocketAfterLeavingOtherRoom) | ChannelRegistry.Leave (with ChannelRegistry.HandleAllKeepsConsistent) |

The grass fall-back of the client generators is not checked against the neighbours either (`TerrainGen.GrassFallbackIsUnchecked`). The authors may have meant it as a last resort, so it is recorded here as an observation, not a finding.

=== FILE: bots.dfy ===
/** `BotModel.createBot` (src/gameServer/gameModels/botModel.js): the identity of a new bot. */
module Bots {
  import opened Wrappers
  import Text

  datatype Bot = Bot(id: string, userId: string, username: string, avatarUrl: string, isBot: bool, createdAt: int)

  datatype BotError = NoUsers   // `users[0]` is undefined, so reading `avatarUrl` throws

  const BotIdPrefix: string := "bot_"
  const BotNamePrefix: string := "Bot "

  /**
   * `createBot(roomId)`: `avatars` are the avatars of the `users` collection in
   * find order, `avatarPick` is `Math.floor(Math.random() * users.length)`,
   * `botPick` is `Math.floor(Math.random() * 1000)`, and `newId`/`now` are the
   * generated ObjectId and the clock. `roomId` plays no part, and nothing is written.
   */
  function CreateBot(roomId: string, avatars: seq<string>, avatarPick: nat, botPick: nat, newId: string, now: int): (r: Result<Bot, BotError>)
    requires avatarPick < |avatars| || avatarPick == 0
    requires botPick < 1000
    ensures r.Err? <==> |avatars| == 0
    ensures r.Ok? ==> r.value.isBot
    ensures r.Ok? ==> r.value.avatarUrl in avatars
    ensures r.Ok? ==> Text.StartsWith(r.value.userId, BotIdPrefix) && Text.StartsWith(r.value.username, BotNamePrefix)
    ensures r.Ok? ==> r.value.userId[|BotIdPrefix|..] == r.value.username[|BotNamePrefix|..]
    ensures r.Ok? ==> Text.ParseInt(r.value.userId[|BotIdPrefix|..]) == Some(botPick)
    ensures r.Ok? ==> r.value.avatarUrl == avatars[avatarPick]
    ensures r.Ok? ==> r.value.userId == BotIdPrefix + Text.NatToString(botPick)
                      && r.value.username == BotNamePrefix + Text.NatToString(botPick)
    ensures r.Ok? ==> r.value.id == newId && r.value.createdAt == now
  {
    if |avatars| == 0 then Err(NoUsers)
    else
      var n := Text.NatToString(botPick);
      Text.ParseIntOfNatToString(botPick);
      assert (BotIdPrefix + n)[|BotIdPrefix|..] == n;
      assert (BotNamePrefix + n)[|BotNamePrefix|..] == n;
      Ok(Bot(newId, BotIdPrefix + n, BotNamePrefix + n, avatars[avatarPick], true, now))
  }
}

=== FILE: channel_registry.dfy ===
/**
 * The socket channel registry of src/services/socketHandlers.js: `rooms` maps a
 * room id to the set of socket ids in it, `clientRooms` maps a socket id to the
 * room it last joined. The Socket.IO calls themselves (`socket.join`,
 * `socket.leave`, broadcasts) are not modelled, only the two maps.
 */
module ChannelRegistry {
  import opened Wrappers

  datatype Registry = Registry(rooms: map<string, set<string>>, clientRooms: map<string, string>)

  const Empty := Registry(map[], map[])

  /** The sockets the registry lists for room `r`; an absent room lists none. */
  function Members(rooms: map<string, set<string>>, r: string): set<string>
  {
    if r in rooms then rooms[r] else {}
  }

  /** Takes socket `s` out of room `r`'s set and drops the room once its set is empty. */
  function RemoveFrom(rooms: map<string, set<string>>, r: string, s: string): (rooms': map<string, set<string>>)
    ensures Members(rooms', r) == Members(rooms, r) - {s}
    ensures r in rooms' ==> rooms'[r] != {}
    ensures forall x :: x != r ==> (x in rooms' <==> x in rooms) && (x in rooms ==> rooms'[x] == rooms[x])
  {
    if r in rooms then
      var left := rooms[r] - {s};
      if left == {} then rooms - {r} else rooms[r := left]
    else rooms
  }

  /** Adds socket `s` to room `r`, creating the room's set when it is absent. */
  function AddTo(rooms: map<string, set<string>>, r: string, s: string): (rooms': map<string, set<string>>)
    ensures r in rooms' && rooms'[r] == Members(rooms, r) + {s}
    ensures forall x :: x != r ==> (x in rooms' <==> x in rooms) && (x in rooms ==> rooms'[x] == rooms[x])
  {
    rooms[r := Members(rooms, r) + {s}]
  }

  /** The room recorded for socket `s`, if that record is truthy. */
  function Recorded(reg: Registry, s: string): Option<string>
  {
    if s in reg.clientRooms && reg.clientRooms[s] != "" then Some(reg.clientRooms[s]) else None
  }

  /** `join:room`: leave the recorded room first, then record `r` and add the socket to it. An empty id does nothing. */
  function Join(reg: Registry, s: string, r: string): (reg': Registry)
    ensures r == "" ==> reg' == reg
    ensures r != "" ==> s in reg'.clientRooms && reg'.clientRooms[s] == r && s in Members(reg'.rooms, r)
    ensures r != "" ==> forall x :: x != r ==>
              Members(reg'.rooms, x) == (if Recorded(reg, s) == Some(x) then Members(reg.rooms, x) - {s} else Members(reg.rooms, x))
  {
    if r == "" then reg
    else
      var rooms := match Recorded(reg, s) case Some(cur) => RemoveFrom(reg.rooms, cur, s) case None => reg.rooms;
      Registry(AddTo(rooms, r, s), reg.clientRooms[s := r])
  }

  /** `leave:room` as written: drops the socket's record whichever room it names, and takes it out of `r`. */
  function LeaveAsWritten(reg: Registry, s: string, r: string): (reg': Registry)
    ensures r == "" ==> reg' == reg
    ensures r != "" ==> s !in reg'.clientRooms && Members(reg'.rooms, r) == Members(reg.rooms, r) - {s}
    ensures r != "" ==> forall x :: x != r ==> Members(reg'.rooms, x) == Members(reg.rooms, x)
    ensures forall x :: x != s ==> (x in reg'.clientRooms <==> x in reg.clientRooms) &&
                                   (x in reg.clientRooms ==> reg'.clientRooms[x] == reg.clientRooms[x])
  {
    if r == "" then reg
    else Registry(RemoveFrom(reg.rooms, r, s), reg.clientRooms - {s})
  }

  /** `leave:room` that forgets the socket's record only when the record names the room being left. */
  function Leave(reg: Registry, s: string, r: string): (reg': Registry)
    ensures r == "" ==> reg' == reg
    ensures r != "" ==> Members(reg'.rooms, r) == Members(reg.rooms, r) - {s}
    ensures r != "" ==> forall x :: x != r ==> Members(reg'.rooms, x) == Members(reg.rooms, x)
    ensures s in reg'.clientRooms <==> s in reg.clientRooms && (r == "" || reg.clientRooms[s] != r)
  {
    if r == "" then reg
    else
      var clientRooms := if s in reg.clientRooms && reg.clientRooms[s] == r then reg.clientRooms - {s} else reg.clientRooms;
      Registry(RemoveFrom(reg.rooms, r, s), clientRooms)
  }

  /** `disconnect`: take the socket out of its recorded room, then forget the record. */
  function Disconnect(reg: Registry, s: string): (reg': Registry)
    ensures s !in reg'.clientRooms
    ensures forall x :: Members(reg'.rooms, x) == if Recorded(reg, s) == Some(x) then Members(reg.rooms, x) - {s} else Members(reg.rooms, x)
  {
    var rooms := match Recorded(reg, s) case Some(cur) => RemoveFrom(reg.rooms, cur, s) case None => reg.rooms;
    Registry(rooms, reg.clientRooms - {s})
  }

  // ---------------------------------------------------------------------------
  // Invariants
  // ---------------------------------------------------------------------------

  /** No room id maps to an empty set. */
  predicate NoEmptyRooms(reg: Registry)
  {
    forall r :: r in reg.rooms ==> reg.rooms[r] != {}
  }

  /** Every record names a non-empty room that lists the socket. */
  predicate RecordsListed(reg: Registry)
  {
    forall s :: s in reg.clientRooms ==> reg.clientRooms[s] != "" && s in Members(reg.rooms, reg.clientRooms[s])
  }

  /** Every listed socket is recorded as being in exactly that room. */
  ghost predicate ListedRecorded(reg: Registry)
  {
    forall r, s :: s in Members(reg.rooms, r) ==> s in reg.clientRooms && reg.clientRooms[s] == r
  }

  ghost predicate Consistent(reg: Registry)
  {
    NoEmptyRooms(reg) && RecordsListed(reg) && ListedRecorded(reg)
  }

  /** Nothing about sockets other than `s` differs between the two registries. */
  ghost predicate OthersUnchanged(reg: Registry, reg': Registry, s: string)
  {
    && (forall t :: t != s ==> (t in reg'.clientRooms <==> t in reg.clientRooms))
    && (forall t :: t != s && t in reg.clientRooms && t in reg'.clientRooms ==> reg'.clientRooms[t] == reg.clientRooms[t])
    && (forall r, t :: t != s ==> (t in Members(reg'.rooms, r) <==> t in Members(reg.rooms, r)))
  }

  lemma JoinKeepsConsistent(reg: Registry, s: string, r: string)
    requires Consistent(reg)
    ensures Consistent(Join(reg, s, r))
    ensures OthersUnchanged(reg, Join(reg, s, r), s)
  {
    if r != "" {
      JoinOthersListed(reg, s, r);
      JoinListedRecorded(reg, s, r);
      JoinRecordsListed(reg, s, r);
    }
  }

  lemma JoinListedRecorded(reg: Registry, s: string, r: string)
    requires Consistent(reg) && r != ""
    ensures ListedRecorded(Join(reg, s, r))
  {
    var reg' := Join(reg, s, r);
    forall x, t | t in Members(reg'.rooms, x) ensures t in reg'.clientRooms && reg'.clientRooms[t] == x {
      if t != s {
        assert t in Members(reg.rooms, x);
      }
    }
  }

  lemma JoinRecordsListed(reg: Registry, s: string, r: string)
    requires RecordsListed(reg) && r != ""
    ensures RecordsListed(Join(reg, s, r))
  {
    var reg' := Join(reg, s, r);
    forall t | t in reg'.clientRooms ensures reg'.clientRooms[t] != "" && t in Members(reg'.rooms, reg'.clientRooms[t]) {
      if t != s {
        var x := reg.clientRooms[t];
        assert t in Members(reg.rooms, x);
        if x != r {
          assert t in Members(reg'.rooms, x);
        }
      }
    }
  }

  lemma LeaveKeepsConsistent(reg: Registry, s: string, r: string)
    requires Consistent(reg)
    ensures Consistent(Leave(reg, s, r))
    ensures OthersUnchanged(reg, Leave(reg, s, r), s)
  {
    var reg' := Leave(reg, s, r);
    if r != "" {
      forall t | t in reg'.clientRooms ensures reg'.clientRooms[t] != "" && t in Members(reg'.rooms, reg'.clientRooms[t]) {
        var x := reg.clientRooms[t];
        assert t in Members(reg.rooms, x);
        if x == r {
          assert t != s;
        }
      }
      forall x, t | t in Members(reg'.rooms, x) ensures t in reg'.clientRooms && reg'.clientRooms[t] == x {
        assert t in Members(reg.rooms, x);
      }
    }
  }

  lemma DisconnectKeepsConsistent(reg: Registry, s: string)
    requires Consistent(reg)
    ensures Consistent(Disconnect(reg, s))
    ensures OthersUnchanged(reg, Disconnect(reg, s), s)
    ensures forall x :: s !in Members(Disconnect(reg, s).rooms, x)
  {
    DisconnectKeepsRecordsListed(reg, s);
  }

  datatype SocketEvent = JoinRoomEvent(socket: string, room: string) | LeaveRoomEvent(socket: string, room: string) | DisconnectEvent(socket: string)

  function Handle(reg: Registry, e: SocketEvent): Registry
  {
    match e
    case JoinRoomEvent(s, r) => Join(reg, s, r)
    case LeaveRoomEvent(s, r) => Leave(reg, s, r)
    case DisconnectEvent(s) => Disconnect(reg, s)
  }

  function HandleAll(reg: Registry, es: seq<SocketEvent>): Registry
    decreases |es|
  {
    if es == [] then reg else HandleAll(Handle(reg, es[0]), es[1..])
  }

  /** From the empty registry, any sequence of events keeps the registry consistent. */
  lemma {:induction false} HandleAllKeepsConsistent(reg: Registry, es: seq<SocketEvent>)
    requires Consistent(reg)
    ensures Consistent(HandleAll(reg, es))
    decreases |es|
  {
    if es != [] {
      match es[0] {
        case JoinRoomEvent(s, r) => JoinKeepsConsistent(reg, s, r);
        case LeaveRoomEvent(s, r) => LeaveKeepsConsistent(reg, s, r);
        case DisconnectEvent(s) => DisconnectKeepsConsistent(reg, s);
      }
      HandleAllKeepsConsistent(Handle(reg, es[0]), es[1..]);
    }
  }

  /** The written leave handler never leaves an empty set behind either. */
  lemma LeaveAsWrittenKeepsNoEmptyRooms(reg: Registry, s: string, r: string)
    requires NoEmptyRooms(reg)
    ensures NoEmptyRooms(LeaveAsWritten(reg, s, r))
  {
  }

  /** Every handler takes only the acting socket in or out of a room's set. */
  lemma JoinOthersListed(reg: Registry, s: string, r: string)
    ensures OthersUnchanged(reg, Join(reg, s, r), s)
  {
    var reg' := Join(reg, s, r);
    if r != "" {
      forall x, t | t != s ensures t in Members(reg'.rooms, x) <==> t in Members(reg.rooms, x) {
        if x == r {
          var rooms := match Recorded(reg, s) case Some(cur) => RemoveFrom(reg.rooms, cur, s) case None => reg.rooms;
          assert Members(reg'.rooms, r) == Members(rooms, r) + {s};
        }
      }
    }
  }

  lemma JoinKeepsNoEmptyRooms(reg: Registry, s: string, r: string)
    requires NoEmptyRooms(reg)
    ensures NoEmptyRooms(Join(reg, s, r))
  {
    if r != "" {
      var rooms := match Recorded(reg, s) case Some(cur) => RemoveFrom(reg.rooms, cur, s) case None => reg.rooms;
      assert NoEmptyRooms(Registry(rooms, reg.clientRooms));
    }
  }

  lemma DisconnectKeepsNoEmptyRooms(reg: Registry, s: string)
    requires NoEmptyRooms(reg)
    ensures NoEmptyRooms(Disconnect(reg, s))
  {
  }

  /** The handlers as the source wires them, with the written leave. */
  function HandleAsWritten(reg: Registry, e: SocketEvent): Registry
  {
    match e
    case JoinRoomEvent(s, r) => Join(reg, s, r)
    case LeaveRoomEvent(s, r) => LeaveAsWritten(reg, s, r)
    case DisconnectEvent(s) => Disconnect(reg, s)
  }

  function HandleAllAsWritten(reg: Registry, es: seq<SocketEvent>): Registry
    decreases |es|
  {
    if es == [] then reg else HandleAllAsWritten(HandleAsWritten(reg, es[0]), es[1..])
  }

  /**
   * What the written handlers do keep: no room maps to an empty set, and every
   * record names a room that lists its socket. Listings may go stale, so
   * `ListedRecorded` is not part of it.
   */
  predicate WrittenInvariant(reg: Registry)
  {
    NoEmptyRooms(reg) && RecordsListed(reg)
  }

  /** One written handler keeps the invariant and changes only the acting socket's entries. */
  lemma HandleAsWrittenStep(reg: Registry, e: SocketEvent)
    requires WrittenInvariant(reg)
    ensures WrittenInvariant(HandleAsWritten(reg, e))
    ensures OthersUnchanged(reg, HandleAsWritten(reg, e), e.socket)
  {
    match e {
      case JoinRoomEvent(s, r) =>
        JoinKeepsNoEmptyRooms(reg, s, r);
        JoinOthersListed(reg, s, r);
        if r != "" { JoinRecordsListed(reg, s, r); }
      case LeaveRoomEvent(s, r) => LeaveAsWrittenKeepsRecordsListed(reg, s, r);
      case DisconnectEvent(s) => DisconnectKeepsRecordsListed(reg, s);
    }
  }

  lemma LeaveAsWrittenKeepsRecordsListed(reg: Registry, s: string, r: string)
    requires RecordsListed(reg)
    ensures RecordsListed(LeaveAsWritten(reg, s, r))
  {
    var reg' := LeaveAsWritten(reg, s, r);
    forall t | t in reg'.clientRooms ensures reg'.clientRooms[t] != "" && t in Members(reg'.rooms, reg'.clientRooms[t]) {
      assert t in Members(reg.rooms, reg.clientRooms[t]);
    }
  }

  lemma DisconnectKeepsRecordsListed(reg: Registry, s: string)
    requires RecordsListed(reg)
    ensures RecordsListed(Disconnect(reg, s))
  {
    var reg' := Disconnect(reg, s);
    forall t | t in reg'.clientRooms ensures reg'.clientRooms[t] != "" && t in Members(reg'.rooms, reg'.clientRooms[t]) {
      assert t in Members(reg.rooms, reg.clientRooms[t]);
    }
  }

  /** From the empty registry, any sequence of events under the written handlers keeps the invariant. */
  lemma {:induction false} HandleAllAsWrittenKeepsInvariant(reg: Registry, es: seq<SocketEvent>)
    requires WrittenInvariant(reg)
    ensures WrittenInvariant(HandleAllAsWritten(reg, es))
    decreases |es|
  {
    if es != [] {
      HandleAsWrittenStep(reg, es[0]);
      HandleAllAsWrittenKeepsInvariant(HandleAsWritten(reg, es[0]), es[1..]);
    }
  }

  /** A socket that no event names keeps its record and its listings through the whole sequence. */
  lemma {:induction false} HandleAllAsWrittenLeavesOthers(reg: Registry, es: seq<SocketEvent>, t: string)
    requires forall k :: 0 <= k < |es| ==> es[k].socket != t
    ensures var reg' := HandleAllAsWritten(reg, es);
            && (t in reg'.clientRooms <==> t in reg.clientRooms)
            && (t in reg.clientRooms ==> reg'.clientRooms[t] == reg.clientRooms[t])
            && forall x :: t in Members(reg'.rooms, x) <==> t in Members(reg.rooms, x)
    decreases |es|
  {
    if es != [] {
      var next := HandleAsWritten(reg, es[0]);
      match es[0] {
        case JoinRoomEvent(s, r) => JoinOthersListed(reg, s, r);
        case LeaveRoomEvent(s, r) =>
        case DisconnectEvent(s) =>
      }
      assert OthersUnchanged(reg, next, es[0].socket);
      HandleAllAsWrittenLeavesOthers(next, es[1..], t);
    }
  }

  /**
   * Joining room A, then leaving a different room B and disconnecting, leaves the
   * socket listed in A for good under the written handler; the corrected leave
   * keeps the record, so disconnect clears it.
   */
  lemma StaleSocketAfterLeavingOtherRoom()
    ensures var reg := Join(Empty, "s1", "A");
            "s1" in Members(Disconnect(LeaveAsWritten(reg, "s1", "B"), "s1").rooms, "A")
    ensures var reg := Join(Empty, "s1", "A");
            "s1" !in Members(Disconnect(Leave(reg, "s1", "B"), "s1").rooms, "A")
  {
    var reg := Join(Empty, "s1", "A");
    assert Members(reg.rooms, "A") == {"s1"};
    var written := LeaveAsWritten(reg, "s1", "B");
    assert Recorded(written, "s1") == None;
    var fixed := Leave(reg, "s1", "B");
    assert Recorded(fixed, "s1") == Some("A");
  }

  // ---------------------------------------------------------------------------
  // game:start
  // ---------------------------------------------------------------------------

  datatype GameStartData = GameStartData(roomId: Option<string>, roomName: Option<string>, gameConfigId: Option<string>)

  datatype GameStartAck = Started(clientCount: nat) | Refused

  /**
   * `game:start`: both the room id and the game configuration id must be truthy;
   * a missing payload throws on destructuring and is refused the same way.
   * `clientCount` is how many sockets Socket.IO reports in the room.
   */
  function GameStart(data: Option<GameStartData>, clientCount: nat): (ack: GameStartAck)
    ensures ack.Started? <==> data.Some? && data.value.roomId.Some? && data.value.roomId.value != ""
                              && data.value.gameConfigId.Some? && data.value.gameConfigId.value != ""
    ensures ack.Started? ==> ack.clientCount == clientCount
  {
    match data
    case None => Refused
    case Some(d) =>
      if d.roomId.None? || d.roomId.value == "" || d.gameConfigId.None? || d.gameConfigId.value == "" then Refused
      else Started(clientCount)
  }
}

=== FILE: client_houses.dfy ===
/**
 * House placement on the routed client page (Frontend/src/gamePages/Game.jsx):
 * after terrain and objects are laid, each of the four players gets one house
 * in their corner of the grid, on grass or land and far from other players'
 * houses. The random cells tried are a parameter.
 */
module ClientHouses {
  import opened Wrappers
  import opened Terrains
  import opened HouseRules

  /** `numPlayers` is fixed at 4 on this page. */
  const NumPlayers: nat := 4

  /** One grid cell: terrain, object and its count, and the house standing there (`null` as `None`). */
  datatype MapCell = MapCell(terrain: Terrain, objectType: Option<ObjectKind>, objectCount: nat, house: Option<House>)

  type Grid = seq<seq<MapCell>>

  /** At least one row and one column, every row as long as the first. */
  predicate IsGrid(g: Grid)
  {
    |g| >= 1 && |g[0]| >= 1 && forall r :: 0 <= r < |g| ==> |g[r]| == |g[0]|
  }

  predicate InGrid(g: Grid, c: Cell)
  {
    |g| >= 1 && 0 <= c.row < |g| && 0 <= c.col < |g[0]|
  }

  function CellAt(g: Grid, c: Cell): MapCell
    requires IsGrid(g) && InGrid(g, c)
  {
    g[c.row][c.col]
  }

  function SetCell(g: Grid, c: Cell, v: MapCell): (g': Grid)
    requires IsGrid(g) && InGrid(g, c)
    ensures IsGrid(g') && |g'| == |g| && |g'[0]| == |g[0]|
    ensures forall d :: InGrid(g, d) ==> CellAt(g', d) == if d == c then v else CellAt(g, d)
  {
    g[c.row := g[c.row][c.col := v]]
  }

  // ---------------------------------------------------------------------------
  // getSpawnZones and the percentage conversion
  // ---------------------------------------------------------------------------

  /** `Math.floor(length * parseInt('p%') / 100)`. */
  function Percent(length: nat, p: nat): (n: nat)
    requires p <= 100
    ensures n <= length
  {
    PercentAtMost(length, p);
    length * p / 100
  }

  lemma PercentAtMost(length: nat, p: nat)
    requires p <= 100
    ensures length * p / 100 <= length
  {
    assert length * p <= length * 100;
  }

  /** The four corner zones of `getSpawnZones` for up to four players, converted to cells. */
  function SpawnZones(rows: nat, cols: nat): (zs: seq<Zone>)
    ensures |zs| == NumPlayers
    ensures forall i :: 0 <= i < |zs| ==> ZoneWithin(zs[i], rows, cols)
  {
    [Zone(0, Percent(rows, 25), 0, Percent(cols, 25)),
     Zone(0, Percent(rows, 25), Percent(cols, 75), Percent(cols, 100)),
     Zone(Percent(rows, 75), Percent(rows, 100), 0, Percent(cols, 25)),
     Zone(Percent(rows, 75), Percent(rows, 100), Percent(cols, 75), Percent(cols, 100))]
  }

  /** The corners of a map at least 4 cells each way are non-empty and pairwise disjoint. */
  lemma SpawnZonesApart(rows: nat, cols: nat, i: nat, j: nat)
    requires rows >= 4 && cols >= 4
    requires i < j < NumPlayers
    ensures ZonesApart(SpawnZones(rows, cols)[i], SpawnZones(rows, cols)[j])
    ensures SpawnZones(rows, cols)[i].startRow < SpawnZones(rows, cols)[i].endRow
    ensures SpawnZones(rows, cols)[i].startCol < SpawnZones(rows, cols)[i].endCol
  {
    assert Percent(rows, 25) <= Percent(rows, 75) by { PercentMonotone(rows, 25, 75); }
    assert Percent(cols, 25) <= Percent(cols, 75) by { PercentMonotone(cols, 25, 75); }
  }

  lemma PercentMonotone(length: nat, p: nat, q: nat)
    requires p <= q <= 100
    ensures Percent(length, p) <= Percent(length, q)
  {
    assert length * p <= length * q;
  }

  /** Any cell drawn for a zone of a grid lies on the grid, even when the zone is empty. */
  lemma DrawnCellOnGrid(g: Grid, i: nat, c: Cell)
    requires IsGrid(g) && i < NumPlayers
    requires DrawnIn(SpawnZones(|g|, |g[0]|)[i], c)
    ensures InGrid(g, c)
  {
    assert ZoneWithin(SpawnZones(|g|, |g[0]|)[i], |g|, |g[0]|);
    PercentBelow(|g|, 75);
    PercentBelow(|g[0]|, 75);
  }

  lemma PercentBelow(length: nat, p: nat)
    requires length >= 1 && p < 100
    ensures Percent(length, p) < length
  {
    assert length * p < length * 100;
  }

  // ---------------------------------------------------------------------------
  // isValidHousePosition
  // ---------------------------------------------------------------------------

  /** The house at `d` belongs to a player other than `playerId` and stands closer than `MIN_DISTANCE` to `c`. */
  predicate Crowds(g: Grid, d: Cell, c: Cell, playerId: string)
    requires IsGrid(g) && InGrid(g, d)
  {
    var h := CellAt(g, d).house;
    h.Some? && h.value.playerId != playerId && TooClose(c, d)
  }

  /** A house of `playerId` may stand at `c`: grass or land, and no other player's house nearby. */
  ghost predicate ValidHouseSpot(g: Grid, c: Cell, playerId: string)
    requires IsGrid(g) && InGrid(g, c)
  {
    && HouseTerrain(CellAt(g, c).terrain)
    && forall d :: InGrid(g, d) ==> !Crowds(g, d, c, playerId)
  }

  /**
   * `isValidHousePosition(map, row, col, playerId)`: the terrain test, then a
   * row-major scan of the whole grid that stops at the first other player's
   * house closer than `MIN_DISTANCE`.
   */
  method IsValidHousePosition(g: Grid, c: Cell, playerId: string) returns (ok: bool)
    requires IsGrid(g) && InGrid(g, c)
    ensures ok <==> ValidHouseSpot(g, c, playerId)
  {
    if !HouseTerrain(CellAt(g, c).terrain) {
      return false;
    }
    var r := 0;
    while r < |g|
      invariant 0 <= r <= |g|
      invariant forall d :: InGrid(g, d) && d.row < r ==> !Crowds(g, d, c, playerId)
    {
      var col := 0;
      while col < |g[0]|
        invariant 0 <= col <= |g[0]|
        invariant forall d :: InGrid(g, d) && (d.row < r || (d.row == r && d.col < col)) ==> !Crowds(g, d, c, playerId)
      {
        if Crowds(g, Cell(r, col), c, playerId) {
          return false;
        }
        col := col + 1;
      }
      r := r + 1;
    }
    return true;
  }

  // ---------------------------------------------------------------------------
  // spawnHouses
  // ---------------------------------------------------------------------------

  const MaxAttempts: nat := 100

  /** Player `i`'s house at `c`, with the object there removed. */
  function Place(g: Grid, i: nat, c: Cell): (g': Grid)
    requires IsGrid(g) && InGrid(g, c)
    ensures IsGrid(g') && |g'| == |g| && |g'[0]| == |g[0]|
  {
    SetCell(g, c, CellAt(g, c).(house := Some(NewHouse(i)), objectType := None, objectCount := 0))
  }

  ghost predicate IsPlaced(placed: seq<Option<Cell>>, d: Cell)
  {
    exists i :: 0 <= i < |placed| && placed[i] == Some(d)
  }

  /** Same shape and terrain everywhere; cells without a newly placed house are untouched. */
  ghost predicate FrameKept(g: Grid, g': Grid, placed: seq<Option<Cell>>)
    requires IsGrid(g) && IsGrid(g')
  {
    && |g'| == |g| && |g'[0]| == |g[0]|
    && (forall d :: InGrid(g, d) ==> CellAt(g', d).terrain == CellAt(g, d).terrain)
    && (forall d :: InGrid(g, d) && !IsPlaced(placed, d) ==> CellAt(g', d) == CellAt(g, d))
  }

  /** Player `i`'s house stands at `placed[i]`, on grass or land, with no object left there. */
  predicate HousesKept(g: Grid, g': Grid, placed: seq<Option<Cell>>)
    requires IsGrid(g) && IsGrid(g') && |g'| == |g| && |g'[0]| == |g[0]|
  {
    forall i :: 0 <= i < |placed| && placed[i].Some? ==>
      && InGrid(g, placed[i].value)
      && CellAt(g', placed[i].value).house == Some(NewHouse(i))
      && CellAt(g', placed[i].value).objectType.None? && CellAt(g', placed[i].value).objectCount == 0
      && HouseTerrain(CellAt(g', placed[i].value).terrain)
  }

  /** Houses of different players stand at least `MIN_DISTANCE` apart. */
  predicate HousesApart(placed: seq<Option<Cell>>)
  {
    forall i, j :: 0 <= i < j < |placed| && placed[i].Some? && placed[j].Some? ==>
      SquaredDistance(placed[i].value, placed[j].value) >= MinDistance * MinDistance
  }

  /** Each house went on one of its owner's drawn cells. */
  predicate DrawnFrom(placed: seq<Option<Cell>>, draws: seq<seq<Cell>>)
  {
    |placed| <= |draws| && forall i :: 0 <= i < |placed| && placed[i].Some? ==> placed[i].value in draws[i]
  }

  /** A spot valid for the next player is far from every house placed so far. */
  lemma ValidIsApart(g: Grid, g': Grid, placed: seq<Option<Cell>>, c: Cell, a: nat)
    requires IsGrid(g) && IsGrid(g') && |g'| == |g| && |g'[0]| == |g[0]|
    requires HousesKept(g, g', placed)
    requires InGrid(g', c) && ValidHouseSpot(g', c, PlayerName(|placed|))
    requires a < |placed| && placed[a].Some?
    ensures SquaredDistance(placed[a].value, c) >= MinDistance * MinDistance
  {
    var d := placed[a].value;
    assert InGrid(g', d);
    DistinctPlayerNames(a, |placed|);
    assert !Crowds(g', d, c, PlayerName(|placed|));
    assert SquaredDistance(c, d) == SquaredDistance(d, c);
  }

  lemma PlaceKeepsFrame(g: Grid, g': Grid, placed: seq<Option<Cell>>, c: Cell)
    requires IsGrid(g) && IsGrid(g') && InGrid(g', c)
    requires FrameKept(g, g', placed)
    ensures FrameKept(g, Place(g', |placed|, c), placed + [Some(c)])
  {
    var placed' := placed + [Some(c)];
    assert placed'[|placed|] == Some(c);
    forall d | InGrid(g, d) && !IsPlaced(placed', d)
      ensures CellAt(Place(g', |placed|, c), d) == CellAt(g, d)
    {
      assert d != c;
      forall k | 0 <= k < |placed| ensures placed[k] != Some(d) {
        assert placed'[k] == placed[k];
      }
    }
  }

  lemma PlaceKeepsHouses(g: Grid, g': Grid, placed: seq<Option<Cell>>, c: Cell)
    requires IsGrid(g) && IsGrid(g') && |g'| == |g| && |g'[0]| == |g[0]| && InGrid(g', c)
    requires HousesKept(g, g', placed)
    requires ValidHouseSpot(g', c, PlayerName(|placed|))
    ensures HousesKept(g, Place(g', |placed|, c), placed + [Some(c)])
  {
    var placed' := placed + [Some(c)];
    var g'' := Place(g', |placed|, c);
    forall a | 0 <= a < |placed'| && placed'[a].Some?
      ensures HouseKeptAt(g, g'', placed'[a].value, a)
    {
      if a < |placed| {
        assert placed'[a] == placed[a];
        EarlierHouseKept(g, g', placed, c, a);
      } else {
        assert placed'[a] == Some(c);
      }
    }
  }

  /** One entry of `HousesKept`: cell `d` of `g'` holds player `i`'s new house on house terrain, with no objects. */
  predicate HouseKeptAt(g: Grid, g': Grid, d: Cell, i: nat)
    requires IsGrid(g) && IsGrid(g') && |g'| == |g| && |g'[0]| == |g[0]|
  {
    && InGrid(g, d)
    && CellAt(g', d).house == Some(NewHouse(i))
    && CellAt(g', d).objectType.None? && CellAt(g', d).objectCount == 0
    && HouseTerrain(CellAt(g', d).terrain)
  }

  lemma EarlierHouseKept(g: Grid, g': Grid, placed: seq<Option<Cell>>, c: Cell, a: nat)
    requires IsGrid(g) && IsGrid(g') && |g'| == |g| && |g'[0]| == |g[0]| && InGrid(g', c)
    requires HousesKept(g, g', placed)
    requires ValidHouseSpot(g', c, PlayerName(|placed|))
    requires a < |placed| && placed[a].Some?
    ensures HouseKeptAt(g, Place(g', |placed|, c), placed[a].value, a)
  {
    ValidIsApart(g, g', placed, c, a);
    assert placed[a].value != c;
  }

  lemma PlaceKeepsApart(g: Grid, g': Grid, placed: seq<Option<Cell>>, c: Cell)
    requires IsGrid(g) && IsGrid(g') && |g'| == |g| && |g'[0]| == |g[0]| && InGrid(g', c)
    requires HousesKept(g, g', placed) && HousesApart(placed)
    requires ValidHouseSpot(g', c, PlayerName(|placed|))
    ensures HousesApart(placed + [Some(c)])
  {
    forall a | 0 <= a < |placed| && placed[a].Some?
      ensures SquaredDistance(placed[a].value, c) >= MinDistance * MinDistance
    {
      ValidIsApart(g, g', placed, c, a);
    }
  }

  lemma SkipKeeps(g: Grid, g': Grid, placed: seq<Option<Cell>>)
    requires IsGrid(g) && IsGrid(g') && FrameKept(g, g', placed) && HousesKept(g, g', placed) && HousesApart(placed)
    ensures FrameKept(g, g', placed + [None]) && HousesKept(g, g', placed + [None]) && HousesApart(placed + [None])
  {
    var placed' := placed + [None];
    forall d | InGrid(g, d) && !IsPlaced(placed', d)
      ensures CellAt(g', d) == CellAt(g, d)
    {
      forall k | 0 <= k < |placed| ensures placed[k] != Some(d) {
        assert placed'[k] == placed[k];
      }
    }
  }

  /** The first of `ds` that lies on the grid and is a valid spot for player `i`, if any. */
  ghost function FirstValidSpot(g: Grid, i: nat, ds: seq<Cell>): Option<Cell>
    requires IsGrid(g)
    decreases |ds|
  {
    if |ds| == 0 then None
    else if InGrid(g, ds[0]) && ValidHouseSpot(g, ds[0], PlayerName(i)) then Some(ds[0])
    else FirstValidSpot(g, i, ds[1..])
  }

  /** Player `i`'s attempts: the first drawn cell that is a valid spot, if any of the (at most 100) is. */
  method FirstValid(g: Grid, i: nat, draws: seq<Cell>) returns (r: Option<Cell>)
    requires IsGrid(g) && i < NumPlayers
    requires forall a :: 0 <= a < |draws| ==> DrawnIn(SpawnZones(|g|, |g[0]|)[i], draws[a])
    ensures r.Some? ==> r.value in draws && InGrid(g, r.value) && ValidHouseSpot(g, r.value, PlayerName(i))
    ensures r.None? ==> forall a :: 0 <= a < |draws| ==> InGrid(g, draws[a]) && !ValidHouseSpot(g, draws[a], PlayerName(i))
    ensures r.Some? ==> exists a :: 0 <= a < |draws| && draws[a] == r.value &&
                                    forall b :: 0 <= b < a ==> InGrid(g, draws[b]) && !ValidHouseSpot(g, draws[b], PlayerName(i))
    ensures r == FirstValidSpot(g, i, draws)
  {
    var a := 0;
    while a < |draws|
      invariant 0 <= a <= |draws|
      invariant forall b :: 0 <= b < a ==> InGrid(g, draws[b]) && !ValidHouseSpot(g, draws[b], PlayerName(i))
      invariant FirstValidSpot(g, i, draws[a..]) == FirstValidSpot(g, i, draws)
    {
      DrawnCellOnGrid(g, i, draws[a]);
      var ok := IsValidHousePosition(g, draws[a], PlayerName(i));
      if ok {
        return Some(draws[a]);
      }
      assert draws[a..][1..] == draws[a + 1..];
      a := a + 1;
    }
    return None;
  }

  /** The grid after placing the houses in `placed`, player by player, on `g`. */
  function PlaceAll(g: Grid, placed: seq<Option<Cell>>): (g': Grid)
    requires IsGrid(g) && OnGrid(g, placed)
    ensures IsGrid(g') && |g'| == |g| && |g'[0]| == |g[0]|
  {
    if |placed| == 0 then g
    else
      var n := |placed| - 1;
      OnGridPrefix(g, placed, n);
      var before := PlaceAll(g, placed[..n]);
      match placed[n]
      case Some(c) => Place(before, n, c)
      case None => before
  }

  /** Every placed cell lies on the grid. */
  predicate OnGrid(g: Grid, placed: seq<Option<Cell>>)
  {
    forall i :: 0 <= i < |placed| && placed[i].Some? ==> InGrid(g, placed[i].value)
  }

  lemma OnGridPrefix(g: Grid, placed: seq<Option<Cell>>, n: nat)
    requires OnGrid(g, placed) && n <= |placed|
    ensures OnGrid(g, placed[..n])
  {
    forall i | 0 <= i < n ensures placed[..n][i] == placed[i] { }
  }

  /** Each player's house went on the first of their draws valid on the grid as it stood at their turn. */
  ghost predicate EachFirstValid(g: Grid, placed: seq<Option<Cell>>, draws: seq<seq<Cell>>)
    requires IsGrid(g) && OnGrid(g, placed)
  {
    |placed| <= |draws| &&
    forall i :: 0 <= i < |placed| ==> placed[i] == FirstValidSpot(PlaceAll(g, placed[..i]), i, draws[i])
  }

  lemma EachFirstValidExtend(g: Grid, placed: seq<Option<Cell>>, draws: seq<seq<Cell>>, next: Option<Cell>)
    requires IsGrid(g) && OnGrid(g, placed)
    requires next.Some? ==> InGrid(g, next.value)
    requires EachFirstValid(g, placed, draws) && |placed| < |draws|
    requires next == FirstValidSpot(PlaceAll(g, placed), |placed|, draws[|placed|])
    ensures OnGrid(g, placed + [next])
    ensures EachFirstValid(g, placed + [next], draws)
    ensures PlaceAll(g, placed + [next]) == if next.Some? then Place(PlaceAll(g, placed), |placed|, next.value) else PlaceAll(g, placed)
  {
    var placed' := placed + [next];
    assert placed'[..|placed|] == placed;
    forall i | 0 <= i < |placed'|
      ensures placed'[i] == FirstValidSpot(PlaceAll(g, placed'[..i]), i, draws[i])
    {
      if i < |placed| {
        assert placed'[..i] == placed[..i];
      }
    }
  }

  /**
   * `spawnHouses(map, 4)`: players `player1`..`player4` in turn try up to 100
   * cells drawn from their corner zone; the first one valid on the grid as it
   * stands at their turn gets a level-0
   * house of type `HOUSE_TYPES[i mod 3]` and loses its object. `placed[i]` is
   * where player `i`'s house went, `None` when every attempt failed.
   */
  method SpawnHouses(g: Grid, draws: seq<seq<Cell>>) returns (g': Grid, placed: seq<Option<Cell>>)
    requires IsGrid(g)
    requires |draws| == NumPlayers
    requires forall i :: 0 <= i < NumPlayers ==> |draws[i]| == MaxAttempts
    requires forall i, a :: 0 <= i < NumPlayers && 0 <= a < |draws[i]| ==> DrawnIn(SpawnZones(|g|, |g[0]|)[i], draws[i][a])
    ensures IsGrid(g') && |placed| == NumPlayers
    ensures DrawnFrom(placed, draws)
    ensures FrameKept(g, g', placed)
    ensures HousesKept(g, g', placed)
    ensures HousesApart(placed)
    ensures OnGrid(g, placed) && EachFirstValid(g, placed, draws)
  {
    g' := g;
    placed := [];
    var i := 0;
    while i < NumPlayers
      invariant i == |placed| <= NumPlayers
      invariant IsGrid(g') && |g'| == |g| && |g'[0]| == |g[0]|
      invariant FrameKept(g, g', placed) && HousesKept(g, g', placed) && HousesApart(placed)
      invariant DrawnFrom(placed, draws)
      invariant g' == PlaceAll(g, placed) && EachFirstValid(g, placed, draws)
    {
      var spot := FirstValid(g', i, draws[i]);
      EachFirstValidExtend(g, placed, draws, spot);
      match spot {
        case Some(c) =>
          PlaceKeepsFrame(g, g', placed, c);
          PlaceKeepsHouses(g, g', placed, c);
          PlaceKeepsApart(g, g', placed, c);
          g' := Place(g', i, c);
          placed := placed + [Some(c)];
        case None =>
          SkipKeeps(g, g', placed);
          placed := placed + [None];
      }
      i := i + 1;
    }
  }

  /** With a map at least 4 cells each way, each house lands inside its owner's corner. */
  lemma PlacedInOwnCorner(g: Grid, draws: seq<seq<Cell>>, placed: seq<Option<Cell>>, i: nat)
    requires IsGrid(g) && |g| >= 4 && |g[0]| >= 4
    requires |draws| == NumPlayers
    requires forall p, a :: 0 <= p < NumPlayers && 0 <= a < |draws[p]| ==> DrawnIn(SpawnZones(|g|, |g[0]|)[p], draws[p][a])
    requires DrawnFrom(placed, draws)
    requires i < |placed| && placed[i].Some?
    ensures InZone(SpawnZones(|g|, |g[0]|)[i], placed[i].value)
  {
    var c := placed[i].value;
    var a :| 0 <= a < |draws[i]| && draws[i][a] == c;
    if i + 1 < NumPlayers {
      SpawnZonesApart(|g|, |g[0]|, i, i + 1);
    } else {
      SpawnZonesApart(|g|, |g[0]|, 0, i);
    }
    DrawLandsInZone(SpawnZones(|g|, |g[0]|)[i], c);
  }
}

=== FILE: game_config.dfy ===
/**
 * The pure helpers and guards of the room configuration page
 * (Frontend/src/pages/GameConfig.jsx): which civilisations and colours other
 * players hold, the look-ups into the option tables, the colour-taken and
 * ready guards, the colour button's disabled rule, the room id taken from the
 * route, and the colour pool a bot chooses from.
 */
module GameConfig {
  import opened Wrappers
  import Seqs
  import Text

  datatype Civilization = Civilization(id: string, name: string, houseImage: string)
  datatype Color = Color(id: string, name: string, value: string)

  const Civilizations: seq<Civilization> := [
    Civilization("knight", "Hiệp Sĩ", "/build/ky-si_lv3.png"),
    Civilization("traveler", "Du Hành", "/build/linh-muc_lv3.png"),
    Civilization("devil", "Ác Quỷ", "/build/ac-quy_lv3.png")
  ]

  const Colors: seq<Color> := [
    Color("red", "Đỏ", "#FF0000"), Color("blue", "Xanh dương", "#0000FF"),
    Color("green", "Xanh lá", "#00FF00"), Color("yellow", "Vàng", "#FFFF00"),
    Color("pink", "Hồng", "#FF69B4"), Color("white", "Trắng", "#FFFFFF"),
    Color("black", "Đen", "#000000"), Color("gray", "Xám", "#808080")
  ]

  /**
   * A player as the page receives it. `civilization` and `color` are `None`
   * when null or missing; an empty string is kept, and is falsy.
   */
  datatype ConfigPlayer = ConfigPlayer(userId: string, civilization: Option<string>, color: Option<string>)

  /** `Boolean(v)` for an optional string. */
  predicate Truthy(v: Option<string>)
  {
    v.Some? && v.value != ""
  }

  // ---------------------------------------------------------------------------
  // getCivilization / getColor
  // ---------------------------------------------------------------------------

  /** `civilizations.find(c => c.id === civId) || null`. */
  function GetCivilization(table: seq<Civilization>, civId: string): (r: Option<Civilization>)
    ensures r.Some? ==> r.value in table && r.value.id == civId
    ensures r.None? <==> forall i :: 0 <= i < |table| ==> table[i].id != civId
  {
    Seqs.Find(table, (c: Civilization) => c.id == civId)
  }

  /** `colors.find(c => c.id === colorId) || null`. */
  function GetColor(table: seq<Color>, colorId: string): (r: Option<Color>)
    ensures r.Some? ==> r.value in table && r.value.id == colorId
    ensures r.None? <==> forall i :: 0 <= i < |table| ==> table[i].id != colorId
  {
    Seqs.Find(table, (c: Color) => c.id == colorId)
  }

  predicate CivIdsUnique(table: seq<Civilization>)
  {
    forall i, j :: 0 <= i < j < |table| ==> table[i].id != table[j].id
  }

  predicate ColorIdsUnique(table: seq<Color>)
  {
    forall i, j :: 0 <= i < j < |table| ==> table[i].id != table[j].id
  }

  /** In a table with unique ids, looking an entry up by its id finds that very entry. */
  lemma CivilizationById(table: seq<Civilization>, i: nat)
    requires CivIdsUnique(table) && i < |table|
    ensures GetCivilization(table, table[i].id) == Some(table[i])
  {
    var r := GetCivilization(table, table[i].id);
    var k :| 0 <= k < |table| && table[k] == r.value;
    assert !(k < i) && !(i < k);
  }

  /** In a table with unique ids, looking an entry up by its id finds that very entry. */
  lemma ColorById(table: seq<Color>, j: nat)
    requires ColorIdsUnique(table) && j < |table|
    ensures GetColor(table, table[j].id) == Some(table[j])
  {
    var r := GetColor(table, table[j].id);
    var k :| 0 <= k < |table| && table[k] == r.value;
    assert !(k < j) && !(j < k);
  }

  /** The built-in tables have unique ids, so each entry is found by its own id. */
  lemma LookupByOwnId(i: nat, j: nat)
    ensures i < |Civilizations| ==> GetCivilization(Civilizations, Civilizations[i].id) == Some(Civilizations[i])
    ensures j < |Colors| ==> GetColor(Colors, Colors[j].id) == Some(Colors[j])
  {
    if i < |Civilizations| {
      BuiltInCivIdsUnique();
      CivilizationById(Civilizations, i);
    }
    if j < |Colors| {
      BuiltInColorIdsUnique();
      ColorById(Colors, j);
    }
  }

  lemma BuiltInCivIdsUnique()
    ensures CivIdsUnique(Civilizations)
  {
  }

  lemma BuiltInColorIdsUnique()
    ensures ColorIdsUnique(Colors)
  {
  }

  // ---------------------------------------------------------------------------
  // getUsedOptions
  // ---------------------------------------------------------------------------

  datatype UsedOptions = UsedOptions(usedCivs: seq<string>, usedColors: seq<string>)

  /** `.filter(Boolean)` over optional strings. */
  function Present(vs: seq<Option<string>>): (r: seq<string>)
    ensures |r| <= |vs|
    ensures forall s :: s in r <==> s != "" && Some(s) in vs
  {
    if |vs| == 0 then []
    else (if Truthy(vs[0]) then [vs[0].value] else []) + Present(vs[1..])
  }

  function Others(players: seq<ConfigPlayer>, me: string): (r: seq<ConfigPlayer>)
    ensures forall p :: p in r <==> p in players && p.userId != me
  {
    Seqs.Filter(players, (p: ConfigPlayer) => p.userId != me)
  }

  function CivsOf(players: seq<ConfigPlayer>): (r: seq<Option<string>>)
    ensures |r| == |players| && forall i :: 0 <= i < |r| ==> r[i] == players[i].civilization
  {
    seq(|players|, i requires 0 <= i < |players| => players[i].civilization)
  }

  function ColorsOf(players: seq<ConfigPlayer>): (r: seq<Option<string>>)
    ensures |r| == |players| && forall i :: 0 <= i < |r| ==> r[i] == players[i].color
  {
    seq(|players|, i requires 0 <= i < |players| => players[i].color)
  }

  /**
   * `getUsedOptions(room, currentUser)`: the truthy civilisations and colours
   * of every player except the current user; two empty lists without a room.
   */
  function GetUsedOptions(room: Option<seq<ConfigPlayer>>, me: string): (r: UsedOptions)
    ensures room.None? ==> r.usedCivs == [] && r.usedColors == []
    ensures room.Some? ==> |r.usedCivs| <= |room.value| && |r.usedColors| <= |room.value|
  {
    match room
    case None => UsedOptions([], [])
    case Some(players) =>
      var others := Others(players, me);
      UsedOptions(Present(CivsOf(others)), Present(ColorsOf(others)))
  }

  /** Another player than `me` holds colour `c`. */
  predicate HeldByOther(players: seq<ConfigPlayer>, me: string, c: string)
  {
    exists i :: 0 <= i < |players| && players[i].userId != me && players[i].color == Some(c)
  }

  /** Another player than `me` holds civilisation `c`. */
  predicate CivHeldByOther(players: seq<ConfigPlayer>, me: string, c: string)
  {
    exists i :: 0 <= i < |players| && players[i].userId != me && players[i].civilization == Some(c)
  }

  /** A colour (civilisation) is listed as used exactly when it is non-empty and another player holds it. */
  lemma UsedOptionsMeans(players: seq<ConfigPlayer>, me: string, c: string)
    ensures c in GetUsedOptions(Some(players), me).usedColors <==> c != "" && HeldByOther(players, me, c)
    ensures c in GetUsedOptions(Some(players), me).usedCivs <==> c != "" && CivHeldByOther(players, me, c)
  {
    var others := Others(players, me);
    UsedColorMeans(players, me, c, others);
    UsedCivMeans(players, me, c, others);
  }

  lemma UsedColorMeans(players: seq<ConfigPlayer>, me: string, c: string, others: seq<ConfigPlayer>)
    requires others == Others(players, me)
    ensures Some(c) in ColorsOf(others) <==> HeldByOther(players, me, c)
  {
    if Some(c) in ColorsOf(others) {
      var k :| 0 <= k < |others| && ColorsOf(others)[k] == Some(c);
      assert others[k] in others;
    }
    if HeldByOther(players, me, c) {
      var i :| 0 <= i < |players| && players[i].userId != me && players[i].color == Some(c);
      assert players[i] in others;
      var k :| 0 <= k < |others| && others[k] == players[i];
      assert ColorsOf(others)[k] == Some(c);
    }
  }

  lemma UsedCivMeans(players: seq<ConfigPlayer>, me: string, c: string, others: seq<ConfigPlayer>)
    requires others == Others(players, me)
    ensures Some(c) in CivsOf(others) <==> CivHeldByOther(players, me, c)
  {
    if Some(c) in CivsOf(others) {
      var k :| 0 <= k < |others| && CivsOf(others)[k] == Some(c);
      assert others[k] in others;
    }
    if CivHeldByOther(players, me, c) {
      var i :| 0 <= i < |players| && players[i].userId != me && players[i].civilization == Some(c);
      assert players[i] in others;
      var k :| 0 <= k < |others| && others[k] == players[i];
      assert CivsOf(others)[k] == Some(c);
    }
  }

  // ---------------------------------------------------------------------------
  // handleColorChange, the colour buttons, handleReadyClick
  // ---------------------------------------------------------------------------

  /** The PATCH `/api/rooms/:id/config` body: `civilization` and `color`, `null` as `None`. */
  datatype ConfigRequest = ConfigRequest(roomId: string, civilization: Option<string>, color: Option<string>)

  datatype ColorChange = ColorTaken | SendConfig(request: ConfigRequest)

  /** `room?.players.some(p => p.color === colorId && p.userId !== currentUser._id)`; no room means not taken. */
  predicate IsColorTaken(room: Option<seq<ConfigPlayer>>, me: string, colorId: string)
  {
    room.Some? && exists i :: 0 <= i < |room.value| && room.value[i].color == Some(colorId) && room.value[i].userId != me
  }

  /**
   * `handleColorChange(colorId)`: a colour another player holds is refused
   * with no request; otherwise the config is sent with the current
   * civilisation (`null` when none is selected) and the new colour.
   */
  function HandleColorChange(room: Option<seq<ConfigPlayer>>, me: string, roomId: string, selectedCiv: string, colorId: string): (r: ColorChange)
    ensures r.ColorTaken? <==> room.Some? && HeldByOther(room.value, me, colorId)
    ensures r.SendConfig? ==> r.request.color == Some(colorId) && r.request.roomId == roomId
    ensures r.SendConfig? ==> (r.request.civilization.None? <==> selectedCiv == "")
    ensures r.SendConfig? && selectedCiv != "" ==> r.request.civilization == Some(selectedCiv)
  {
    if IsColorTaken(room, me, colorId) then ColorTaken
    else SendConfig(ConfigRequest(roomId, if selectedCiv != "" then Some(selectedCiv) else None, Some(colorId)))
  }

  /**
   * The colour button for `colorId` is disabled when the user is ready, or
   * when another player uses the colour and it is not the user's selection.
   */
  function ColorButtonDisabled(room: seq<ConfigPlayer>, me: string, selectedColor: string, colorId: string, isReady: bool): (disabled: bool)
    ensures disabled <==> isReady || (colorId != "" && HeldByOther(room, me, colorId) && selectedColor != colorId)
  {
    UsedOptionsMeans(room, me, colorId);
    var isSelected := selectedColor == colorId;
    var isUsed := colorId in GetUsedOptions(Some(room), me).usedColors;
    var isDisabled := isUsed && !isSelected;
    isDisabled || isReady
  }

  /**
   * Clicking an enabled button for a colour that is not the current selection
   * never meets the colour-taken refusal.
   */
  lemma EnabledButtonPassesGuard(room: seq<ConfigPlayer>, me: string, roomId: string, selectedCiv: string, selectedColor: string, colorId: string)
    requires colorId != "" && selectedColor != colorId
    requires !ColorButtonDisabled(room, me, selectedColor, colorId, false)
    ensures HandleColorChange(Some(room), me, roomId, selectedCiv, colorId).SendConfig?
  {
  }

  datatype ReadyClick = ChoiceMissing | PostReady(roomId: string)

  /** `handleReadyClick`: refused unless both a civilisation and a colour are selected. */
  function HandleReadyClick(roomId: string, selectedCiv: string, selectedColor: string): (r: ReadyClick)
    ensures r.PostReady? <==> selectedCiv != "" && selectedColor != ""
    ensures r.PostReady? ==> r.roomId == roomId
  {
    if selectedCiv == "" || selectedColor == "" then ChoiceMissing else PostReady(roomId)
  }

  // ---------------------------------------------------------------------------
  // originalRoomId
  // ---------------------------------------------------------------------------

  /** `roomId.split('_')[0]`: the route id up to its first underscore. */
  function OriginalRoomId(routeId: string): (r: string)
    ensures '_' !in r
    ensures r <= routeId
    ensures |r| < |routeId| ==> routeId[|r|] == '_'
  {
    var parts := Text.Split(routeId, '_');
    assert forall i :: 0 <= i < |parts[0]| ==> parts[0][i] == routeId[i];
    parts[0]
  }

  /** A route id made of a room id and a `_`-suffix gives back the room id; one without `_` is kept whole. */
  lemma OriginalRoomIdOfSuffixed(id: string, suffix: string)
    requires '_' !in id
    ensures OriginalRoomId(id + "_" + suffix) == id
    ensures OriginalRoomId(id) == id
  {
    var s := id + "_" + suffix;
    assert s[|id|] == '_';
    assert forall i :: 0 <= i < |id| ==> s[i] == id[i];
  }

  // ---------------------------------------------------------------------------
  // autoSelectForBot
  // ---------------------------------------------------------------------------

  /** Some player in the room (the bot included) holds colour `c`. */
  predicate HeldByAnyone(players: seq<ConfigPlayer>, c: string)
  {
    exists i :: 0 <= i < |players| && players[i].color == Some(c)
  }

  /** `colors.filter(c => !usedColors.includes(c.id))` with `usedColors` the truthy colours of all players. */
  function AvailableColors(players: seq<ConfigPlayer>, table: seq<Color>): (pool: seq<Color>)
    ensures |pool| <= |table|
    ensures forall c :: c in pool <==> c in table && !(c.id != "" && HeldByAnyone(players, c.id))
  {
    var used := Present(ColorsOf(players));
    assert forall c: string :: Some(c) in ColorsOf(players) <==> HeldByAnyone(players, c) by {
      forall c: string ensures Some(c) in ColorsOf(players) <==> HeldByAnyone(players, c) {
        if HeldByAnyone(players, c) {
          var i :| 0 <= i < |players| && players[i].color == Some(c);
          assert ColorsOf(players)[i] == Some(c);
        }
      }
    }
    Seqs.Filter(table, (c: Color) => c.id !in used)
  }

  datatype BotSetup = NoRoom | BotFailed | SendBotConfig(request: ConfigRequest)

  /**
   * `autoSelectForBot`: nothing without a room; otherwise a colour drawn from
   * those no player holds and a drawn civilisation are sent. With no colour
   * or civilisation to draw, reading `.id` of `undefined` throws and the
   * catch reports failure. `colorDraw` and `civDraw` are the
   * `Math.floor(Math.random() * length)` indices. On the page as it stands
   * nothing reaches it: its only caller is the component-level `fetchRoom`
   * (GameConfig.jsx:359-368), which nothing calls, while the effect at line 157
   * calls its own inner `fetchRoom`.
   */
  function AutoSelectForBot(room: Option<seq<ConfigPlayer>>, roomId: string, civs: seq<Civilization>, table: seq<Color>, colorDraw: nat, civDraw: nat): (r: BotSetup)
    requires room.Some? && AvailableColors(room.value, table) != [] ==> colorDraw < |AvailableColors(room.value, table)|
    requires civs != [] ==> civDraw < |civs|
    ensures r.NoRoom? <==> room.None?
    ensures r.SendBotConfig? ==> r.request.roomId == roomId
    ensures r.SendBotConfig? ==> r.request.color.Some? && r.request.civilization.Some?
    ensures r.SendBotConfig? ==> exists c :: c in table && c.id == r.request.color.value
    ensures r.SendBotConfig? ==> r.request.color.value == "" || !HeldByAnyone(room.value, r.request.color.value)
    ensures r.SendBotConfig? ==> exists v :: v in civs && v.id == r.request.civilization.value
    ensures room.Some? ==> (r.BotFailed? <==> AvailableColors(room.value, table) == [] || civs == [])
  {
    match room
    case None => NoRoom
    case Some(players) =>
      var pool := AvailableColors(players, table);
      if pool == [] || civs == [] then BotFailed
      else
        assert pool[colorDraw] in pool;
        SendBotConfig(ConfigRequest(roomId, Some(civs[civDraw].id), Some(pool[colorDraw].id)))
  }
}

=== FILE: house_rules.dfy ===
/**
 * The house-spawning constants shared by the map server and the routed client
 * (`HOUSE_SPAWN_STRATEGY`): house types by player index, the minimum distance
 * between houses of different players, the terrains a house may stand on, and
 * the `player<n>` naming of players.
 */
module HouseRules {
  import Text
  import opened Terrains

  const MinDistance: nat := 8
  const HouseTypes: seq<string> := ["ky-si", "ac-quy", "linh-muc"]

  /** `HOUSE_TYPES[i % HOUSE_TYPES.length]`. */
  function HouseType(i: nat): (t: string)
    ensures t in HouseTypes
  {
    HouseTypes[i % |HouseTypes|]
  }

  /** `VALID_TERRAINS`: a house stands on grass or land. */
  predicate HouseTerrain(t: Terrain)
  {
    t == Grass || t == Land
  }

  /** A cell of a map grid. */
  datatype Cell = Cell(row: int, col: int)

  function SquaredDistance(a: Cell, b: Cell): nat
  {
    (a.row - b.row) * (a.row - b.row) + (a.col - b.col) * (a.col - b.col)
  }

  /**
   * `Math.sqrt(d²) < MIN_DISTANCE`. Both sides are non-negative, so the test is
   * `d² < MIN_DISTANCE²`, with no square root needed.
   */
  predicate TooClose(a: Cell, b: Cell)
  {
    SquaredDistance(a, b) < MinDistance * MinDistance
  }

  /** A cell is never far enough from itself. */
  lemma TooCloseToItself(a: Cell)
    ensures TooClose(a, a)
  {
  }

  /** `player${i + 1}`: the id of the player with index `i`. */
  function PlayerName(i: nat): (s: string)
    ensures |s| > |"player"| && s[..|"player"|] == "player"
  {
    "player" + Text.NatToString(i + 1)
  }

  lemma PlayerNameInjective(i: nat, j: nat)
    requires PlayerName(i) == PlayerName(j)
    ensures i == j
  {
    assert PlayerName(i)[|"player"|..] == Text.NatToString(i + 1);
    assert PlayerName(j)[|"player"|..] == Text.NatToString(j + 1);
    Text.NatToStringInjective(i + 1, j + 1);
  }

  /** Only the player with index 0 is `player1`. */
  lemma PlayerOneIsFirst(i: nat)
    ensures PlayerName(i) == "player1" <==> i == 0
  {
    assert PlayerName(0) == "player1";
    if PlayerName(i) == "player1" {
      PlayerNameInjective(i, 0);
    }
  }

  /** Different players have different `player<n>` ids. */
  lemma DistinctPlayerNames(i: nat, j: nat)
    requires i != j
    ensures PlayerName(i) != PlayerName(j)
  {
    if PlayerName(i) == PlayerName(j) {
      PlayerNameInjective(i, j);
    }
  }

  datatype House = House(kind: string, level: int, playerId: string, isCurrentPlayer: bool)

  /** The house placed for player `i`: its type, level 0, and whether it is `player1`'s. */
  function NewHouse(i: nat): (h: House)
    ensures h.kind == HouseType(i) && h.level == 0 && h.playerId == PlayerName(i)
    ensures h.isCurrentPlayer <==> i == 0
  {
    PlayerOneIsFirst(i);
    House(HouseType(i), 0, PlayerName(i), PlayerName(i) == "player1")
  }

  /** A rectangle of cells: rows `[startRow, endRow)`, columns `[startCol, endCol)`. */
  datatype Zone = Zone(startRow: int, endRow: int, startCol: int, endCol: int)

  predicate ZoneWithin(z: Zone, rows: int, cols: int)
  {
    0 <= z.startRow <= z.endRow <= rows && 0 <= z.startCol <= z.endCol <= cols
  }

  /** No cell lies in both zones. */
  predicate ZonesApart(a: Zone, b: Zone)
  {
    a.endRow <= b.startRow || b.endRow <= a.startRow || a.endCol <= b.startCol || b.endCol <= a.startCol
  }

  predicate InZone(z: Zone, c: Cell)
  {
    z.startRow <= c.row < z.endRow && z.startCol <= c.col < z.endCol
  }

  lemma ApartZonesShareNoCell(a: Zone, b: Zone, c: Cell)
    requires ZonesApart(a, b)
    ensures !(InZone(a, c) && InZone(b, c))
  {
  }

  /**
   * `Math.floor(Math.random() * (end - start)) + start` for one coordinate: a
   * value in `[start, end)`, or `start` itself when the range is empty.
   */
  predicate DrawnBetween(start: int, end: int, v: int)
  {
    if start < end then start <= v < end else v == start
  }

  predicate DrawnIn(z: Zone, c: Cell)
  {
    DrawnBetween(z.startRow, z.endRow, c.row) && DrawnBetween(z.startCol, z.endCol, c.col)
  }

  /** In a non-empty zone every draw lands inside it. */
  lemma DrawLandsInZone(z: Zone, c: Cell)
    requires z.startRow < z.endRow && z.startCol < z.endCol
    requires DrawnIn(z, c)
    ensures InZone(z, c)
  {
  }
}

=== FILE: ids.dfy ===
/**
 * Identifiers as the server handles them. User ids are stored as MongoDB
 * ObjectIds (`new ObjectId(userId)`), bot ids as plain strings (`bot_<n>`), and
 * request parameters arrive as strings; `toString()` maps both kinds to text,
 * while strict equality `===` never holds between an ObjectId and a string.
 */
module Ids {

  datatype Id = Oid(hex: string) | Str(text: string)

  /** `id.toString()`: the hexadecimal text of an ObjectId, the string itself otherwise. */
  function IdString(id: Id): string
  {
    match id
    case Oid(h) => h
    case Str(t) => t
  }

  /** JavaScript `id === s` for a string `s`: an ObjectId object is never strictly equal to a string. */
  predicate StrictEqualsString(id: Id, s: string)
  {
    id.Str? && id.text == s
  }
}

=== FILE: invite_codes.dfy ===
/**
 * Room invite codes: three random bytes rendered as hexadecimal by Node's
 * `Buffer.toString('hex')` (lower case, high nibble first) and upper-cased.
 */
module InviteCodes {
  import opened Wrappers
  import Text

  newtype byte = x: int | 0 <= x < 256

  /** The three bytes `crypto.randomBytes(3)` draws; the draw itself is a parameter of the model. */
  datatype RandomBytes3 = RandomBytes3(b0: byte, b1: byte, b2: byte)

  const LowerHexDigits: string := "0123456789abcdef"
  const UpperHexDigits: string := "0123456789ABCDEF"

  /** The two lower-case hexadecimal characters of one byte, as `Buffer.toString('hex')` writes them. */
  function ByteToHex(b: byte): string
  {
    [LowerHexDigits[b as int / 16], LowerHexDigits[b as int % 16]]
  }

  /** `crypto.randomBytes(3).toString('hex').toUpperCase()`. */
  function InviteCode(bytes: RandomBytes3): string
  {
    Text.ToUpper(ByteToHex(bytes.b0) + ByteToHex(bytes.b1) + ByteToHex(bytes.b2))
  }

  predicate IsUpperHexCode(code: string)
  {
    |code| == 6 && forall i :: 0 <= i < 6 ==> code[i] in UpperHexDigits
  }

  /** The value of two hexadecimal characters, high nibble first. */
  function PairValue(hi: char, lo: char): byte
    requires Text.DigitOf(hi) < 16 && Text.DigitOf(lo) < 16
  {
    (Text.DigitOf(hi) * 16 + Text.DigitOf(lo)) as byte
  }

  /** Reads a code back into the three bytes it encodes; `None` for anything but six hexadecimal digits. */
  function DecodeInviteCode(code: string): (r: Option<RandomBytes3>)
    ensures r.Some? ==> |code| == 6
  {
    if |code| == 6 && forall i :: 0 <= i < 6 ==> Text.DigitOf(code[i]) < 16 then
      Some(RandomBytes3(PairValue(code[0], code[1]), PairValue(code[2], code[3]), PairValue(code[4], code[5])))
    else None
  }

  lemma UpperNibble(d: nat)
    requires d < 16
    ensures Text.ToUpperChar(LowerHexDigits[d]) == UpperHexDigits[d]
    ensures Text.DigitOf(UpperHexDigits[d]) == d
  {
  }

  lemma UpperDigitValue(c: char)
    requires c in UpperHexDigits
    ensures Text.DigitOf(c) < 16 && UpperHexDigits[Text.DigitOf(c)] == c
  {
  }

  /** The upper-case rendering of one byte. */
  function UpperPair(b: byte): string
  {
    [UpperHexDigits[b as int / 16], UpperHexDigits[b as int % 16]]
  }

  lemma UpperOfByteToHex(b: byte)
    ensures Text.ToUpper(ByteToHex(b)) == UpperPair(b)
  {
    UpperNibble(b as int / 16);
    UpperNibble(b as int % 16);
  }

  lemma UpperPairValue(b: byte)
    ensures Text.DigitOf(UpperPair(b)[0]) < 16 && Text.DigitOf(UpperPair(b)[1]) < 16
    ensures PairValue(UpperPair(b)[0], UpperPair(b)[1]) == b
  {
    UpperNibble(b as int / 16);
    UpperNibble(b as int % 16);
  }

  lemma ToUpperConcat(a: string, b: string)
    ensures Text.ToUpper(a + b) == Text.ToUpper(a) + Text.ToUpper(b)
  {
  }

  /** The invite code is the upper-case rendering of each byte in turn. */
  lemma InviteCodeByBytes(bytes: RandomBytes3)
    ensures InviteCode(bytes) == UpperPair(bytes.b0) + UpperPair(bytes.b1) + UpperPair(bytes.b2)
  {
    var h0, h1, h2 := ByteToHex(bytes.b0), ByteToHex(bytes.b1), ByteToHex(bytes.b2);
    ToUpperConcat(h0 + h1, h2);
    ToUpperConcat(h0, h1);
    UpperOfByteToHex(bytes.b0);
    UpperOfByteToHex(bytes.b1);
    UpperOfByteToHex(bytes.b2);
  }

  /** Every invite code is exactly six characters from 0-9 and A-F. */
  lemma InviteCodeShape(bytes: RandomBytes3)
    ensures IsUpperHexCode(InviteCode(bytes))
  {
    InviteCodeByBytes(bytes);
  }

  /** An invite code decodes back to the bytes it was drawn from. */
  lemma DecodeInviteCodeRoundTrip(bytes: RandomBytes3)
    ensures DecodeInviteCode(InviteCode(bytes)) == Some(bytes)
  {
    InviteCodeByBytes(bytes);
    UpperPairValue(bytes.b0);
    UpperPairValue(bytes.b1);
    UpperPairValue(bytes.b2);
    DecodePairs(UpperPair(bytes.b0), UpperPair(bytes.b1), UpperPair(bytes.b2), bytes);
  }

  /** Three two-digit pairs decode to the three bytes they spell. */
  lemma DecodePairs(p0: string, p1: string, p2: string, bytes: RandomBytes3)
    requires |p0| == 2 && |p1| == 2 && |p2| == 2
    requires forall i :: 0 <= i < 2 ==> Text.DigitOf(p0[i]) < 16 && Text.DigitOf(p1[i]) < 16 && Text.DigitOf(p2[i]) < 16
    requires PairValue(p0[0], p0[1]) == bytes.b0 && PairValue(p1[0], p1[1]) == bytes.b1 && PairValue(p2[0], p2[1]) == bytes.b2
    ensures DecodeInviteCode(p0 + p1 + p2) == Some(bytes)
  {
    var code := p0 + p1 + p2;
    assert code[0] == p0[0] && code[1] == p0[1];
    assert code[2] == p1[0] && code[3] == p1[1];
    assert code[4] == p2[0] && code[5] == p2[1];
  }

  /** Conversely, every upper-case six-digit code is the invite code of the bytes it decodes to. */
  lemma InviteCodeOfDecoded(code: string)
    requires IsUpperHexCode(code)
    ensures DecodeInviteCode(code).Some? && InviteCode(DecodeInviteCode(code).value) == code
  {
    UpperCodeIsHex(code);
    var bytes := RandomBytes3(PairValue(code[0], code[1]), PairValue(code[2], code[3]), PairValue(code[4], code[5]));
    assert DecodeInviteCode(code) == Some(bytes);
    InviteCodeByBytes(bytes);
    PairDigits(code[0], code[1]);
    PairDigits(code[2], code[3]);
    PairDigits(code[4], code[5]);
    SixChars(code, UpperPair(bytes.b0), UpperPair(bytes.b1), UpperPair(bytes.b2));
  }

  lemma SixChars(code: string, p0: string, p1: string, p2: string)
    requires |code| == 6
    requires p0 == [code[0], code[1]] && p1 == [code[2], code[3]] && p2 == [code[4], code[5]]
    ensures p0 + p1 + p2 == code
  {
  }

  lemma UpperCodeIsHex(code: string)
    requires IsUpperHexCode(code)
    ensures forall i :: 0 <= i < 6 ==> Text.DigitOf(code[i]) < 16
  {
    forall i | 0 <= i < 6
      ensures Text.DigitOf(code[i]) < 16
    {
      UpperDigitValue(code[i]);
    }
  }

  /** Splitting `16 * h + l` back into its two nibbles. */
  lemma Nibbles(h: nat, l: nat)
    requires h < 16 && l < 16
    ensures (h * 16 + l) / 16 == h && (h * 16 + l) % 16 == l
  {
  }

  lemma PairDigits(hi: char, lo: char)
    requires hi in UpperHexDigits && lo in UpperHexDigits
    ensures Text.DigitOf(hi) < 16 && Text.DigitOf(lo) < 16
    ensures UpperPair(PairValue(hi, lo)) == [hi, lo]
  {
    UpperDigitValue(hi);
    UpperDigitValue(lo);
    var h, l := Text.DigitOf(hi), Text.DigitOf(lo);
    Nibbles(h, l);
    var b := PairValue(hi, lo);
    assert b as int == h * 16 + l;
    assert b as int / 16 == h && b as int % 16 == l;
  }
}

=== FILE: room_controller.dfy ===
/**
 * The room controller (src/controllers/roomController.js): query-string
 * defaults for the room list, the projection of a room into its JSON reply, the
 * current-room reply and the kick handler's guard.
 */
module RoomController {
  import opened Wrappers
  import opened Ids
  import Text
  import RoomStore
  import Bots

  /** `parseInt(value) || fallback`: a missing, unparsable or zero parameter gives the fallback. */
  function NumberOr(query: Option<string>, fallback: int): (n: int)
    requires fallback != 0
    ensures n != 0
    ensures query.None? ==> n == fallback
  {
    match query
    case None => fallback
    case Some(q) =>
      match Text.ParseInt(q)
      case None => fallback
      case Some(v) => if v == 0 then fallback else v
  }

  const DefaultPage: int := 1
  const DefaultLimit: int := 10

  /** A page or limit written in decimal is read as itself, and `0` falls back to the default. */
  lemma NumberOrReadsDecimal(n: nat, fallback: int)
    requires fallback != 0
    ensures NumberOr(Some(Text.NatToString(n)), fallback) == if n == 0 then fallback else n
  {
    Text.ParseIntOfNatToString(n);
  }

  /** A player entry as the JSON reply shows it: the id turned into text. */
  datatype PlayerView = PlayerView(
    userId: string, username: string, avatarUrl: string, role: RoomStore.Role, isBot: bool,
    civilization: Option<string>, color: Option<string>, isReady: bool)

  datatype RoomView = RoomView(
    id: string, name: string, inviteCode: string, hostId: string, players: seq<PlayerView>,
    status: RoomStore.Status, maxPlayers: int, createdAt: int)

  function ViewPlayer(p: RoomStore.Player): PlayerView
  {
    PlayerView(IdString(p.userId), p.username, p.avatarUrl, p.role, p.isBot, p.civilization, p.color, p.isReady)
  }

  /** The projection the controller replies with: every field copied, every player id stringified. */
  function ViewRoom(room: RoomStore.Room): (v: RoomView)
    ensures |v.players| == |room.players|
    ensures forall k :: 0 <= k < |room.players| ==> v.players[k] == ViewPlayer(room.players[k])
  {
    RoomView(room.id, room.name, room.inviteCode, IdString(room.hostId),
             seq(|room.players|, k requires 0 <= k < |room.players| => ViewPlayer(room.players[k])),
             room.status, room.maxPlayers, room.createdAt)
  }

  /** A user who is a member of a room is found in its reply by the text of their id, at the same position. */
  lemma MemberVisibleInView(room: RoomStore.Room, userId: string)
    requires RoomStore.IsMember(room, Oid(userId))
    ensures var v := ViewRoom(room);
            v.hostId == userId || exists k :: 0 <= k < |v.players| && v.players[k].userId == userId
  {
    var v := ViewRoom(room);
    if room.hostId != Oid(userId) {
      var k :| 0 <= k < |room.players| && room.players[k].userId == Oid(userId);
      assert v.players[k].userId == userId;
    }
  }

  datatype ListReply = ListFailed | Listed(rooms: seq<RoomView>, total: nat, currentPage: int, totalPages: RoomStore.PageCount)

  /** `GET /api/rooms`: read the paging parameters with their defaults, then list the waiting rooms. */
  function ListRooms(store: RoomStore.Store, pageQuery: Option<string>, limitQuery: Option<string>): (r: ListReply)
    ensures r.Listed? ==> |r.rooms| <= |RoomStore.WaitingRooms(store)|
    ensures pageQuery.None? && limitQuery.None? ==> r.Listed? && r.currentPage == DefaultPage && |r.rooms| <= DefaultLimit
    ensures r.Listed? ==> forall k :: 0 <= k < |r.rooms| ==> r.rooms[k].status == RoomStore.Waiting
  {
    var page := NumberOr(pageQuery, DefaultPage);
    var limit := NumberOr(limitQuery, DefaultLimit);
    match RoomStore.GetRooms(store, page, limit)
    case Err(_) => ListFailed
    case Ok(p) =>
      Listed(seq(|p.rooms|, k requires 0 <= k < |p.rooms| => ViewRoom(p.rooms[k])), p.total, p.currentPage, p.totalPages)
  }

  /** `GET /api/rooms/current`: the caller's room, or `room: null`. */
  function CurrentRoom(store: RoomStore.Store, userId: string): (r: Option<RoomView>)
    ensures r.None? <==> forall i :: 0 <= i < |store| ==> !RoomStore.IsMember(store[i], Oid(userId))
    ensures r.Some? ==> exists i :: 0 <= i < |store| && RoomStore.IsMember(store[i], Oid(userId)) && r.value == ViewRoom(store[i])
  {
    match RoomStore.GetCurrentRoom(store, userId)
    case None => None
    case Some(room) => Some(ViewRoom(room))
  }

  /** What a store call whose body lies outside this model gave back: it threw, or returned a value. */
  datatype Answer<T> = Threw | Returned(value: T)

  datatype KickMessage = CannotKickHost | CouldNotKick | BotRemoved | MemberKicked

  /** The smaller projection the kick reply sends: no status, capacity or creation time. */
  datatype KickedRoomView = KickedRoomView(id: string, name: string, inviteCode: string, hostId: string, players: seq<PlayerView>)

  function ViewKickedRoom(room: RoomStore.Room): (v: KickedRoomView)
    ensures v.id == room.id && v.name == room.name && v.inviteCode == room.inviteCode && v.hostId == IdString(room.hostId)
    ensures |v.players| == |room.players|
    ensures forall k :: 0 <= k < |room.players| ==> v.players[k] == ViewPlayer(room.players[k])
  {
    KickedRoomView(room.id, room.name, room.inviteCode, IdString(room.hostId),
                   seq(|room.players|, k requires 0 <= k < |room.players| => ViewPlayer(room.players[k])))
  }

  /** The kick reply shows the same fields as the list and current-room replies, less the three it omits. */
  lemma KickedViewAgreesWithView(room: RoomStore.Room)
    ensures var k, v := ViewKickedRoom(room), ViewRoom(room);
            k.id == v.id && k.name == v.name && k.inviteCode == v.inviteCode && k.hostId == v.hostId && k.players == v.players
  {
  }

  /** `calledStore` records whether `RoomModel.kickMember` was reached. */
  datatype KickReply = KickReply(status: int, message: KickMessage, calledStore: bool, room: Option<KickedRoomView>)

  /**
   * `kickMember`: refuses to kick the caller themself before touching the store,
   * otherwise calls `RoomModel.kickMember` (whose answer is `kicked`) and words the
   * reply by whether the target id is a bot id.
   */
  function KickMember(callerId: string, roomId: string, targetId: string, kicked: Answer<Option<RoomStore.Room>>): (r: KickReply)
    ensures targetId == callerId <==> (r.status == 400 && !r.calledStore)
    ensures r.status == 200 <==> targetId != callerId && kicked.Returned? && kicked.value.Some?
    ensures r.status != 200 ==> r.status == 400 && r.room.None?
    ensures r.status == 200 ==> (r.message == BotRemoved <==> Text.StartsWith(targetId, Bots.BotIdPrefix))
    ensures r.status == 200 ==>
              var room := kicked.value.value;
              && r.room.Some?
              && r.room.value.id == room.id && r.room.value.name == room.name
              && r.room.value.inviteCode == room.inviteCode && r.room.value.hostId == IdString(room.hostId)
              && |r.room.value.players| == |room.players|
              && forall k :: 0 <= k < |room.players| ==> r.room.value.players[k] == ViewPlayer(room.players[k])
  {
    if targetId == callerId then KickReply(400, CannotKickHost, false, None)
    else
      match kicked
      case Threw => KickReply(400, CouldNotKick, true, None)
      case Returned(None) => KickReply(400, CouldNotKick, true, None)
      case Returned(Some(room)) =>
        var message := if Text.StartsWith(targetId, Bots.BotIdPrefix) then BotRemoved else MemberKicked;
        KickReply(200, message, true, Some(ViewKickedRoom(room)))
  }

  /** Removing a bot made by `createBot` is always worded as a bot removal. */
  lemma KickingABotSaysBot(callerId: string, roomId: string, avatars: seq<string>, avatarPick: nat, botPick: nat,
                           newId: string, now: int, room: RoomStore.Room)
    requires avatarPick < |avatars| || avatarPick == 0
    requires botPick < 1000
    requires Bots.CreateBot(roomId, avatars, avatarPick, botPick, newId, now).Ok?
    requires callerId != Bots.CreateBot(roomId, avatars, avatarPick, botPick, newId, now).value.userId
    ensures KickMember(callerId, roomId, Bots.CreateBot(roomId, avatars, avatarPick, botPick, newId, now).value.userId,
                       Returned(Some(room))).message == BotRemoved
  {
  }
}

=== FILE: room_routes.dfy ===
/**
 * The guard-and-dispatch layer of the room routes (src/routes/roomRoutes.js).
 *
 * Most store operations the routes call (`getRoomById`, `deleteRoom`,
 * `removePlayer`, `resetRoom`, ...) have no definition in the room model, so
 * they are not interpreted here: a route records each call it makes as a `Call`
 * and receives what that call gave back as a parameter. Only the invite-code
 * join reaches a modelled operation, `RoomStore.JoinRoom`. A reply records the
 * HTTP status, the store calls made, in order, and the broadcast events.
 */
module RoomRoutes {
  import opened Wrappers
  import opened Ids
  import RoomStore
  import Seqs
  import InviteCodes
  import Text
  import opened RoomController

  datatype Call =
    | JoinByCode(code: string)
    | JoinById(roomId: string)
    | GetRoomById(roomId: string)
    | DeleteRoom(roomId: string)
    | RemovePlayer(roomId: string, userId: string)
    | KickMemberCall(roomId: string, hostId: string, target: string)
    | ResetRoom(roomId: string)
    | SetPlayerReady(roomId: string, userId: string)
    | UpdatePlayerConfig(roomId: string, userId: string)
    | StartGame(roomId: string, userId: string)

  /** Calls that can change the store; `getRoomById` only reads. */
  predicate Writes(c: Call)
  {
    !c.GetRoomById?
  }

  predicate ReadOnly(calls: seq<Call>)
  {
    forall k :: 0 <= k < |calls| ==> !Writes(calls[k])
  }

  datatype Event = PlayerJoined | RoomDeleted | PlayerLeft(kicked: bool) | RoomUpdated | AllReady | GameStopped

  datatype Reply = Reply(status: int, calls: seq<Call>, events: seq<Event>)

  /** What a `setPlayerReady` result reports. */
  datatype ReadyResult = ReadyResult(success: bool, allReady: bool)

  /** A body field is truthy when present and non-empty. */
  predicate Truthy(field: Option<string>)
  {
    field.Some? && field.value != ""
  }

  datatype JoinOutcome = JoinOutcome(reply: Reply, store: RoomStore.Store)

  /**
   * `POST /join`: the invite code wins over the room id; with neither, 400 and no
   * store call. The join by id has no definition, so what it gives back, `byId`,
   * and the store it leaves behind when it returns, `byIdStore`, are parameters;
   * a call that throws is taken to leave the store as it was.
   */
  function JoinRoute(store: RoomStore.Store, userId: string, user: Option<RoomStore.UserRecord>,
                     inviteCode: Option<string>, roomId: Option<string>,
                     byId: Answer<Option<RoomStore.Room>>, byIdStore: RoomStore.Store): (r: JoinOutcome)
    ensures !Truthy(inviteCode) && !Truthy(roomId) <==> r.reply.status == 400
    ensures r.reply.status == 400 ==> r.reply.calls == [] && r.store == store
    ensures Truthy(inviteCode) ==> r.reply.calls == [JoinByCode(inviteCode.value)]
    ensures Truthy(inviteCode) ==>
              (r.reply.status == 200 <==> RoomStore.JoinRoom(store, userId, inviteCode.value, user).Ok?)
    ensures Truthy(inviteCode) && r.reply.status == 200 ==>
              r.store == RoomStore.JoinRoom(store, userId, inviteCode.value, user).value.store
    ensures Truthy(inviteCode) && r.reply.status != 200 ==> r.store == store
    ensures !Truthy(inviteCode) && Truthy(roomId) ==> r.reply.calls == [JoinById(roomId.value)]
    ensures !Truthy(inviteCode) && Truthy(roomId) ==> (r.reply.status == 200 <==> byId.Returned? && byId.value.Some?)
    ensures !Truthy(inviteCode) && Truthy(roomId) ==> r.store == if byId.Returned? then byIdStore else store
    ensures r.reply.status != 200 ==> r.reply.events == []
    ensures r.reply.status == 200 <==> r.reply.events == [PlayerJoined]
  {
    if Truthy(inviteCode) then
      var calls := [JoinByCode(inviteCode.value)];
      match RoomStore.JoinRoom(store, userId, inviteCode.value, user)
      case Err(_) => JoinOutcome(Reply(500, calls, []), store)
      case Ok(joined) => JoinOutcome(Reply(200, calls, [PlayerJoined]), joined.store)
    else if Truthy(roomId) then
      var calls := [JoinById(roomId.value)];
      match byId
      case Threw => JoinOutcome(Reply(500, calls, []), store)
      // `room._id` of a missing room throws after the call, which the handler turns into 500.
      case Returned(None) => JoinOutcome(Reply(500, calls, []), byIdStore)
      case Returned(Some(_)) => JoinOutcome(Reply(200, calls, [PlayerJoined]), byIdStore)
    else JoinOutcome(Reply(400, [], []), store)
  }

  /**
   * The join route keeps every store invariant: the invite code reaches the store
   * only through `JoinRoom`, and a join by id keeps them when the undefined
   * `joinRoomById` leaves a valid store.
   */
  lemma JoinRoutePreservesValid(store: RoomStore.Store, userId: string, user: Option<RoomStore.UserRecord>,
                                inviteCode: Option<string>, roomId: Option<string>,
                                byId: Answer<Option<RoomStore.Room>>, byIdStore: RoomStore.Store)
    requires RoomStore.Valid(store)
    requires RoomStore.Valid(byIdStore)
    ensures RoomStore.Valid(JoinRoute(store, userId, user, inviteCode, roomId, byId, byIdStore).store)
  {
    if Truthy(inviteCode) && RoomStore.JoinRoom(store, userId, inviteCode.value, user).Ok? {
      RoomStore.JoinPreservesValid(store, userId, inviteCode.value, user);
    }
  }

  /** A join by invite code keeps every store invariant, whatever the undefined join by id would do. */
  lemma JoinByCodePreservesValid(store: RoomStore.Store, userId: string, user: Option<RoomStore.UserRecord>,
                                 inviteCode: Option<string>, roomId: Option<string>,
                                 byId: Answer<Option<RoomStore.Room>>, byIdStore: RoomStore.Store)
    requires RoomStore.Valid(store) && Truthy(inviteCode)
    ensures RoomStore.Valid(JoinRoute(store, userId, user, inviteCode, roomId, byId, byIdStore).store)
  {
    if RoomStore.JoinRoom(store, userId, inviteCode.value, user).Ok? {
      RoomStore.JoinPreservesValid(store, userId, inviteCode.value, user);
    }
  }

  /** `DELETE /:roomId`: 404 for a missing room, 403 for anyone but the host, then `deleteRoom`. */
  function DeleteRoute(roomId: string, userId: string, room: Answer<Option<RoomStore.Room>>, deleted: Answer<()>): (r: Reply)
    ensures r.status == 404 <==> room == Returned(None)
    ensures r.status == 403 <==> room.Returned? && room.value.Some? && IdString(room.value.value.hostId) != userId
    ensures DeleteRoom(roomId) in r.calls <==>
              room.Returned? && room.value.Some? && IdString(room.value.value.hostId) == userId
    ensures r.status == 200 <==> room.Returned? && room.value.Some? && IdString(room.value.value.hostId) == userId && deleted.Returned?
    ensures r.status != 200 ==> r.events == []
    ensures r.status in {200, 403, 404, 500}
  {
    var look := [GetRoomById(roomId)];
    match room
    case Threw => Reply(500, look, [])
    case Returned(None) => Reply(404, look, [])
    case Returned(Some(rm)) =>
      if IdString(rm.hostId) != userId then Reply(403, look, [])
      else
        var calls := look + [DeleteRoom(roomId)];
        if deleted.Threw? then Reply(500, calls, []) else Reply(200, calls, [RoomDeleted])
  }

  /**
   * `POST /:roomId/leave` as written: the host test compares the stored host id
   * with `===` against the caller's id text, so it holds only when the stored id
   * is itself a string.
   */
  function LeaveRouteAsWritten(roomId: string, userId: string, room: Answer<Option<RoomStore.Room>>, done: Answer<()>): (r: Reply)
    ensures r.status == 404 <==> room == Returned(None)
    ensures room.Returned? && room.value.Some? ==>
              |r.calls| == 2 &&
              (r.calls[1] == DeleteRoom(roomId) <==> StrictEqualsString(room.value.value.hostId, userId)) &&
              (r.calls[1] == RemovePlayer(roomId, userId) <==> !StrictEqualsString(room.value.value.hostId, userId))
  {
    LeaveWith(roomId, userId, room, done, room.Returned? && room.value.Some? && StrictEqualsString(room.value.value.hostId, userId))
  }

  /** `POST /:roomId/leave` with the host test of the delete route: both ids compared as text. */
  function LeaveRoute(roomId: string, userId: string, room: Answer<Option<RoomStore.Room>>, done: Answer<()>): (r: Reply)
    ensures r.status == 404 <==> room == Returned(None)
    ensures room.Returned? && room.value.Some? ==>
              |r.calls| == 2 &&
              (r.calls[1] == DeleteRoom(roomId) <==> IdString(room.value.value.hostId) == userId) &&
              (r.calls[1] == RemovePlayer(roomId, userId) <==> IdString(room.value.value.hostId) != userId)
    ensures r.status == 200 ==> room.Returned? && room.value.Some? &&
                                (r.events == [RoomDeleted] <==> IdString(room.value.value.hostId) == userId)
  {
    LeaveWith(roomId, userId, room, done, room.Returned? && room.value.Some? && IdString(room.value.value.hostId) == userId)
  }

  /** The body of the leave route once the host test `isHost` is decided. */
  function LeaveWith(roomId: string, userId: string, room: Answer<Option<RoomStore.Room>>, done: Answer<()>, isHost: bool): (r: Reply)
    requires isHost ==> room.Returned? && room.value.Some?
    ensures r.status == 404 <==> room == Returned(None)
    ensures r.status == 200 <==> room.Returned? && room.value.Some? && done.Returned?
    ensures room.Returned? && room.value.Some? ==>
              |r.calls| == 2 && r.calls[0] == GetRoomById(roomId) &&
              r.calls[1] == (if isHost then DeleteRoom(roomId) else RemovePlayer(roomId, userId))
    ensures !(room.Returned? && room.value.Some?) ==> r.calls == [GetRoomById(roomId)]
    ensures r.status == 200 ==> r.events == (if isHost then [RoomDeleted] else [PlayerLeft(false), RoomUpdated])
  {
    var look := [GetRoomById(roomId)];
    match room
    case Threw => Reply(500, look, [])
    case Returned(None) => Reply(404, look, [])
    case Returned(Some(_)) =>
      var calls := look + [if isHost then DeleteRoom(roomId) else RemovePlayer(roomId, userId)];
      if done.Threw? then Reply(500, calls, [])
      else Reply(200, calls, if isHost then [RoomDeleted] else [PlayerLeft(false), RoomUpdated])
  }

  /**
   * A host stored as an ObjectId, as `createRoom` stores every host, never deletes
   * the room by leaving it: the written route removes them as a player instead,
   * where the corrected route deletes the room.
   */
  lemma LeaveAsWrittenMissesStoredHost(roomId: string, userId: string, rm: RoomStore.Room)
    requires rm.hostId == Oid(userId)
    ensures LeaveRouteAsWritten(roomId, userId, Returned(Some(rm)), Returned(())).calls[1] == RemovePlayer(roomId, userId)
    ensures LeaveRoute(roomId, userId, Returned(Some(rm)), Returned(())).calls[1] == DeleteRoom(roomId)
  {
  }

  /** A room created through the store has an ObjectId host, so the written leave route never deletes it. */
  lemma CreatedRoomHostCannotDeleteByLeaving(store: RoomStore.Store, userId: string, roomName: string, requestedMax: int,
                                              host: Option<RoomStore.UserRecord>, code: InviteCodes.RandomBytes3,
                                              newId: string, now: int, done: Answer<()>)
    requires RoomStore.CreateRoom(store, userId, roomName, requestedMax, host, code, newId, now).Ok?
    ensures var rm := RoomStore.CreateRoom(store, userId, roomName, requestedMax, host, code, newId, now).value.room;
            !(RoomDeleted in LeaveRouteAsWritten(newId, userId, Returned(Some(rm)), done).events) &&
            (done.Returned? ==> RoomDeleted in LeaveRoute(newId, userId, Returned(Some(rm)), done).events)
  {
  }

  /** The player search of `/kick` as written: `p.userId === kickedUserId`. */
  function FindStrict(players: seq<RoomStore.Player>, target: string): (r: Option<RoomStore.Player>)
    ensures r.Some? <==> exists k :: 0 <= k < |players| && StrictEqualsString(players[k].userId, target)
    ensures r.Some? ==> r.value in players && r.value.userId == Str(target)
  {
    Seqs.Find(players, (p: RoomStore.Player) => StrictEqualsString(p.userId, target))
  }

  /** The player search of `/kick` with ids compared as text. */
  function FindByText(players: seq<RoomStore.Player>, target: string): (r: Option<RoomStore.Player>)
    ensures r.Some? <==> exists k :: 0 <= k < |players| && IdString(players[k].userId) == target
    ensures r.Some? ==> r.value in players && IdString(r.value.userId) == target
  {
    Seqs.Find(players, (p: RoomStore.Player) => IdString(p.userId) == target)
  }

  /** `POST /kick` once the search is decided: 404 for a missing room or target, then `kickMember`. */
  function KickWith(roomId: string, hostId: string, target: string, room: Answer<Option<RoomStore.Room>>,
                    found: bool, kicked: Answer<()>): (r: Reply)
    ensures r.status == 404 <==> room == Returned(None) || (room.Returned? && room.value.Some? && !found)
    ensures KickMemberCall(roomId, hostId, target) in r.calls <==> room.Returned? && room.value.Some? && found
    ensures r.status == 200 <==> room.Returned? && room.value.Some? && found && kicked.Returned?
    ensures r.status == 200 ==> r.events == [PlayerLeft(true), RoomUpdated]
    ensures r.status != 200 ==> r.events == [] && ReadOnly(r.calls) == !(KickMemberCall(roomId, hostId, target) in r.calls)
  {
    var look := [GetRoomById(roomId)];
    match room
    case Threw => Reply(500, look, [])
    case Returned(None) => Reply(404, look, [])
    case Returned(Some(_)) =>
      if !found then Reply(404, look, [])
      else
        var calls := look + [KickMemberCall(roomId, hostId, target)];
        if kicked.Threw? then Reply(500, calls, []) else Reply(200, calls, [PlayerLeft(true), RoomUpdated])
  }

  function KickRouteAsWritten(roomId: string, hostId: string, target: string, room: Answer<Option<RoomStore.Room>>,
                              kicked: Answer<()>): (r: Reply)
    ensures room.Returned? && room.value.Some? ==>
              (r.status == 404 <==> forall k :: 0 <= k < |room.value.value.players| ==>
                                      !StrictEqualsString(room.value.value.players[k].userId, target))
    ensures room == Returned(None) ==> r.status == 404 && ReadOnly(r.calls)
  {
    KickWith(roomId, hostId, target, room,
             room.Returned? && room.value.Some? && FindStrict(room.value.value.players, target).Some?, kicked)
  }

  function KickRoute(roomId: string, hostId: string, target: string, room: Answer<Option<RoomStore.Room>>,
                     kicked: Answer<()>): (r: Reply)
    ensures room.Returned? && room.value.Some? ==>
              (r.status == 404 <==> forall k :: 0 <= k < |room.value.value.players| ==>
                                      IdString(room.value.value.players[k].userId) != target)
    ensures room == Returned(None) ==> r.status == 404 && ReadOnly(r.calls)
    ensures r.status == 200 ==> room.Returned? && room.value.Some? && room.value.value.players != [] && KickMemberCall(roomId, hostId, target) in r.calls
  {
    KickWith(roomId, hostId, target, room,
             room.Returned? && room.value.Some? && FindByText(room.value.value.players, target).Some?, kicked)
  }

  /**
   * A human player is stored with an ObjectId, so the written `/kick` answers 404
   * for them, while comparing the ids as text finds them and kicks.
   */
  lemma KickAsWrittenMissesHumans(roomId: string, hostId: string, target: string, rm: RoomStore.Room)
    requires |rm.players| == 1 && rm.players[0].userId == Oid(target)
    ensures KickRouteAsWritten(roomId, hostId, target, Returned(Some(rm)), Returned(())).status == 404
    ensures KickRoute(roomId, hostId, target, Returned(Some(rm)), Returned(())).status == 200
  {
    assert IdString(rm.players[0].userId) == target;
  }

  /**
   * In a store whose entries all came from `createRoom` and `joinRoom` (every id
   * an ObjectId), a player who has just joined cannot be kicked by the written route.
   */
  lemma JoinedPlayerNotKickable(store: RoomStore.Store, userId: string, inviteCode: string,
                                user: Option<RoomStore.UserRecord>, hostId: string, kicked: Answer<()>)
    requires forall i, k :: 0 <= i < |store| && 0 <= k < |store[i].players| ==> store[i].players[k].userId.Oid?
    requires RoomStore.JoinRoom(store, userId, inviteCode, user).Ok?
    ensures var rm := RoomStore.JoinRoom(store, userId, inviteCode, user).value.room;
            KickRouteAsWritten(rm.id, hostId, userId, Returned(Some(rm)), kicked).status == 404 &&
            (kicked.Returned? ==> KickRoute(rm.id, hostId, userId, Returned(Some(rm)), kicked).status == 200)
  {
    var rm := RoomStore.JoinRoom(store, userId, inviteCode, user).value.room;
    var i := RoomStore.WaitingRoomWithCode(store, Text.ToUpper(inviteCode)).value;
    assert rm.players == store[i].players + [RoomStore.PlayerEntry(userId, user.value)];
    forall k | 0 <= k < |rm.players| ensures !StrictEqualsString(rm.players[k].userId, userId) {
      if k < |store[i].players| {
        assert rm.players[k] == store[i].players[k];
      }
    }
    var last := |rm.players| - 1;
    assert rm.players[last].userId == Oid(userId);
    assert IdString(rm.players[last].userId) == userId;
  }

  /** `POST /:roomId/stop-game`: 404, then 403 for anyone but the host, then `resetRoom`; a falsy reset is 400. */
  function StopGameRoute(roomId: string, userId: string, room: Answer<Option<RoomStore.Room>>, reset: Answer<bool>,
                         after: Answer<Option<RoomStore.Room>>): (r: Reply)
    ensures r.status == 404 <==> room == Returned(None)
    ensures r.status == 403 <==> room.Returned? && room.value.Some? && IdString(room.value.value.hostId) != userId
    ensures ResetRoom(roomId) in r.calls <==> room.Returned? && room.value.Some? && IdString(room.value.value.hostId) == userId
    ensures r.status == 400 <==> ResetRoom(roomId) in r.calls && reset == Returned(false)
    ensures r.status == 200 <==> ResetRoom(roomId) in r.calls && reset == Returned(true) && after.Returned? && after.value.Some?
    ensures r.status == 200 <==> r.events == [GameStopped, RoomUpdated]
  {
    var look := [GetRoomById(roomId)];
    match room
    case Threw => Reply(500, look, [])
    case Returned(None) => Reply(404, look, [])
    case Returned(Some(rm)) =>
      if IdString(rm.hostId) != userId then Reply(403, look, [])
      else
        var calls := look + [ResetRoom(roomId)];
        match reset
        case Threw => Reply(500, calls, [])
        case Returned(false) => Reply(400, calls, [])
        case Returned(true) =>
          // `updatedRoom.name` of a missing room throws.
          var calls' := calls + [GetRoomById(roomId)];
          if after.Returned? && after.value.Some? then Reply(200, calls', [GameStopped, RoomUpdated])
          else Reply(500, calls', [])
  }

  /**
   * `POST /:roomId/ready`: the room is read first (a missing one throws before
   * any write), then `setPlayerReady`; failure is 400, and `room:all_ready` is
   * broadcast only when everyone is ready.
   */
  function ReadyRoute(roomId: string, userId: string, before: Answer<Option<RoomStore.Room>>, result: Answer<ReadyResult>,
                      after: Answer<Option<RoomStore.Room>>): (r: Reply)
    ensures SetPlayerReady(roomId, userId) in r.calls <==> before.Returned? && before.value.Some?
    ensures r.status == 400 <==> SetPlayerReady(roomId, userId) in r.calls && result.Returned? && !result.value.success
    ensures r.status == 200 <==> SetPlayerReady(roomId, userId) in r.calls && result.Returned? && result.value.success &&
                                 after.Returned? && after.value.Some?
    ensures AllReady in r.events <==> r.status == 200 && result.value.allReady
    ensures r.status in {200, 400, 500}
  {
    var look := [GetRoomById(roomId)];
    if !(before.Returned? && before.value.Some?) then Reply(500, look, [])
    else
      var calls := look + [SetPlayerReady(roomId, userId)];
      match result
      case Threw => Reply(500, calls, [])
      case Returned(res) =>
        if !res.success then Reply(400, calls, [])
        else
          var calls' := calls + [GetRoomById(roomId)];
          if !(after.Returned? && after.value.Some?) then Reply(500, calls', [])
          else Reply(200, calls', if res.allReady then [RoomUpdated, AllReady] else [RoomUpdated])
  }

  /** `POST /:roomId/config`: 400 when `updatePlayerConfig` reports failure, else the room is re-read and broadcast. */
  function ConfigRoute(roomId: string, userId: string, updated: Answer<bool>, after: Answer<Option<RoomStore.Room>>): (r: Reply)
    ensures |r.calls| >= 1 && r.calls[0] == UpdatePlayerConfig(roomId, userId)
    ensures r.status == 400 <==> updated == Returned(false)
    ensures r.status == 200 <==> updated == Returned(true) && after.Returned?
    ensures r.status == 200 <==> r.events == [RoomUpdated]
  {
    var calls := [UpdatePlayerConfig(roomId, userId)];
    match updated
    case Threw => Reply(500, calls, [])
    case Returned(false) => Reply(400, calls, [])
    case Returned(true) =>
      if after.Threw? then Reply(500, calls + [GetRoomById(roomId)], [])
      else Reply(200, calls + [GetRoomById(roomId)], [RoomUpdated])
  }

  /** `POST /:roomId/start`: 200 when `startGame` reports success, 400 when it does not. */
  function StartRoute(roomId: string, userId: string, started: Answer<bool>): (r: Reply)
    ensures r.calls == [StartGame(roomId, userId)] && r.events == []
    ensures r.status == 200 <==> started == Returned(true)
    ensures r.status == 400 <==> started == Returned(false)
  {
    var calls := [StartGame(roomId, userId)];
    match started
    case Threw => Reply(500, calls, [])
    case Returned(ok) => Reply(if ok then 200 else 400, calls, [])
  }
}

=== FILE: room_store.dfy ===
/**
 * The room collection behind `RoomModel` (src/models/roomModel.js). The store is
 * the sequence of room documents in insertion order; `findOne` returns the first
 * matching document, and each database call is one atomic step.
 */
module RoomStore {
  import opened Wrappers
  import opened Ids
  import opened Seqs
  import Text
  import InviteCodes

  datatype Status = Waiting | Configuring | Ready | Playing

  datatype Role = HostRole | PlayerRole | BotRole

  /**
   * One entry of a room's `players` array. `createRoom` and `joinRoom` leave the
   * configuration fields empty; bots and configuration are written by store calls
   * outside this model.
   */
  datatype Player = Player(
    userId: Id, username: string, avatarUrl: string, role: Role, isBot: bool,
    civilization: Option<string>, color: Option<string>, isReady: bool)

  datatype Room = Room(
    id: string, hostId: Id, name: string, inviteCode: string, players: seq<Player>,
    status: Status, maxPlayers: int, createdAt: int)

  type Store = seq<Room>

  /** The fields of a `users` document the room code reads. */
  datatype UserRecord = UserRecord(username: string, avatarUrl: string)

  datatype StoreError =
    | AlreadyInRoom          // the caller is host or player of some room
    | UserNotFound           // the `users` lookup returned null, so reading `username` throws
    | DuplicateRoomId        // `insertOne` refuses an `_id` already present
    | NoWaitingRoomWithCode
    | RoomFull
    | NotInAnyRoom
    | LeaveFailed            // `$pull` modified nothing
    | NegativeSkip           // MongoDB refuses a negative `skip`

  /** Every room gets this capacity: `createRoom` ignores the capacity its caller passes. */
  const MaxPlayers: int := 4

  predicate HasPlayer(players: seq<Player>, id: Id)
  {
    exists k :: 0 <= k < |players| && players[k].userId == id
  }

  /** The query `{$or: [{hostId: id}, {'players.userId': id}]}` matches the room. */
  predicate IsMember(room: Room, id: Id)
  {
    room.hostId == id || HasPlayer(room.players, id)
  }

  /** No room has `id` as host or player. */
  predicate InNoRoom(store: Store, id: Id)
  {
    forall i :: 0 <= i < |store| ==> !IsMember(store[i], id)
  }

  /** The position of the room `findOne` returns for the membership query. */
  function RoomOf(store: Store, id: Id): (r: Option<nat>)
    ensures r.Some? ==> r.value < |store| && IsMember(store[r.value], id)
    ensures r.Some? ==> forall j :: 0 <= j < r.value ==> !IsMember(store[j], id)
    ensures r.None? <==> forall j :: 0 <= j < |store| ==> !IsMember(store[j], id)
  {
    FirstIndex(store, (room: Room) => IsMember(room, id))
  }

  /** The position of the first waiting room whose invite code is `code`. */
  function WaitingRoomWithCode(store: Store, code: string): (r: Option<nat>)
    ensures r.Some? ==> r.value < |store| && store[r.value].inviteCode == code && store[r.value].status == Waiting
    ensures r.Some? ==> forall j :: 0 <= j < r.value ==> !(store[j].inviteCode == code && store[j].status == Waiting)
    ensures r.None? <==> forall j :: 0 <= j < |store| ==> !(store[j].inviteCode == code && store[j].status == Waiting)
  {
    FirstIndex(store, (room: Room) => room.inviteCode == code && room.status == Waiting)
  }

  predicate HasRoomId(store: Store, id: string)
  {
    exists i :: 0 <= i < |store| && store[i].id == id
  }

  // ---------------------------------------------------------------------------
  // Invariants
  // ---------------------------------------------------------------------------

  /** Each user id is host or player of at most one room. */
  ghost predicate OneRoomPerUser(store: Store)
  {
    forall id, i, j :: 0 <= i < |store| && 0 <= j < |store| && IsMember(store[i], id) && IsMember(store[j], id) ==> i == j
  }

  /** No room holds more players than its capacity. */
  predicate WithinCapacity(store: Store)
  {
    forall i :: 0 <= i < |store| ==> |store[i].players| <= store[i].maxPlayers
  }

  /** The host of every room is one of its players, with role `host`. */
  predicate HostSeated(store: Store)
  {
    forall i :: 0 <= i < |store| ==> HasHostEntry(store[i])
  }

  predicate HasHostEntry(room: Room)
  {
    exists k :: 0 <= k < |room.players| && room.players[k].userId == room.hostId && room.players[k].role == HostRole
  }

  predicate UniqueRoomIds(store: Store)
  {
    forall i, j :: 0 <= i < |store| && 0 <= j < |store| && store[i].id == store[j].id ==> i == j
  }

  ghost predicate Valid(store: Store)
  {
    OneRoomPerUser(store) && WithinCapacity(store) && HostSeated(store) && UniqueRoomIds(store)
  }

  // ---------------------------------------------------------------------------
  // createRoom
  // ---------------------------------------------------------------------------

  datatype Created = Created(store: Store, room: Room)

  /** The entry `createRoom` writes for the creator. */
  function HostEntry(userId: string, host: UserRecord): Player
  {
    Player(Oid(userId), host.username, host.avatarUrl, HostRole, false, None, None, false)
  }

  /**
   * `createRoom(hostId, roomName)`: refuses a user who is already in a room, reads
   * the user's profile, draws an invite code and inserts a waiting room whose only
   * player is the creator. `requestedMax` is the third argument the routes pass,
   * which the source ignores; `code`, `newId` and `now` are the random bytes, the
   * generated `_id` and the clock.
   */
  function CreateRoom(store: Store, userId: string, roomName: string, requestedMax: int, host: Option<UserRecord>,
                      code: InviteCodes.RandomBytes3, newId: string, now: int): (r: Result<Created, StoreError>)
    ensures (r.Err? && r.error == AlreadyInRoom) <==> exists i :: 0 <= i < |store| && IsMember(store[i], Oid(userId))
    ensures r.Ok? ==> r.value.store == store + [r.value.room]
    ensures r.Ok? ==> && r.value.room.status == Waiting
                      && r.value.room.hostId == Oid(userId)
                      && r.value.room.maxPlayers == MaxPlayers
                      && r.value.room.id == newId && !HasRoomId(store, newId)
                      && r.value.room.name == roomName
                      && |r.value.room.players| == 1
                      && r.value.room.players[0].userId == Oid(userId)
                      && r.value.room.players[0].role == HostRole
    ensures r.Ok? ==> InviteCodes.IsUpperHexCode(r.value.room.inviteCode)
    ensures (r.Err? && r.error == UserNotFound) <==>
              InNoRoom(store, Oid(userId)) && host.None?
    ensures (r.Err? && r.error == DuplicateRoomId) <==>
              InNoRoom(store, Oid(userId)) && host.Some? && HasRoomId(store, newId)
    ensures r.Ok? <==>
              InNoRoom(store, Oid(userId)) && host.Some? && !HasRoomId(store, newId)
  {
    if RoomOf(store, Oid(userId)).Some? then Err(AlreadyInRoom)
    else if host.None? then Err(UserNotFound)
    else if HasRoomId(store, newId) then Err(DuplicateRoomId)
    else
      InviteCodes.InviteCodeShape(code);
      var room := Room(newId, Oid(userId), roomName, InviteCodes.InviteCode(code),
                       [HostEntry(userId, host.value)], Waiting, MaxPlayers, now);
      Ok(Created(store + [room], room))
  }

  // ---------------------------------------------------------------------------
  // joinRoom
  // ---------------------------------------------------------------------------

  datatype Joined = Joined(store: Store, room: Room)

  /** The entry `joinRoom` appends for the joining user. */
  function PlayerEntry(userId: string, user: UserRecord): Player
  {
    Player(Oid(userId), user.username, user.avatarUrl, PlayerRole, false, None, None, false)
  }

  /**
   * `joinRoom(userId, inviteCode)`: refuses a user already in a room, finds the
   * first waiting room whose code equals the upper-cased argument, refuses a full
   * room, and appends one `player` entry to that room only.
   */
  function JoinRoom(store: Store, userId: string, inviteCode: string, user: Option<UserRecord>): (r: Result<Joined, StoreError>)
    ensures (r.Err? && r.error == AlreadyInRoom) <==> exists i :: 0 <= i < |store| && IsMember(store[i], Oid(userId))
    ensures (r.Err? && r.error == NoWaitingRoomWithCode) <==>
              InNoRoom(store, Oid(userId))
              && WaitingRoomWithCode(store, Text.ToUpper(inviteCode)).None?
    ensures (r.Err? && r.error == RoomFull) <==>
              var i := WaitingRoomWithCode(store, Text.ToUpper(inviteCode));
              && InNoRoom(store, Oid(userId))
              && i.Some? && |store[i.value].players| >= store[i.value].maxPlayers
    ensures (r.Err? && r.error == UserNotFound) <==>
              var i := WaitingRoomWithCode(store, Text.ToUpper(inviteCode));
              && InNoRoom(store, Oid(userId))
              && i.Some? && |store[i.value].players| < store[i.value].maxPlayers
              && user.None?
    ensures r.Ok? <==>
              var i := WaitingRoomWithCode(store, Text.ToUpper(inviteCode));
              && InNoRoom(store, Oid(userId))
              && i.Some? && |store[i.value].players| < store[i.value].maxPlayers
              && user.Some?
    ensures r.Ok? ==>
              var i := WaitingRoomWithCode(store, Text.ToUpper(inviteCode));
              && i.Some? && user.Some?
              && store[i.value].inviteCode == Text.ToUpper(inviteCode)
              && store[i.value].status == Waiting
              && r.value.store == store[i.value := store[i.value].(players := store[i.value].players + [PlayerEntry(userId, user.value)])]
              && r.value.room == r.value.store[i.value]
  {
    if RoomOf(store, Oid(userId)).Some? then Err(AlreadyInRoom)
    else
      match WaitingRoomWithCode(store, Text.ToUpper(inviteCode))
      case None => Err(NoWaitingRoomWithCode)
      case Some(i) =>
        var room := store[i];
        if |room.players| >= room.maxPlayers then Err(RoomFull)
        else if user.None? then Err(UserNotFound)
        else
          var updated := room.(players := room.players + [PlayerEntry(userId, user.value)]);
          var store' := store[i := updated];
          Ok(Joined(store', store'[i]))
  }

  // ---------------------------------------------------------------------------
  // leaveRoom
  // ---------------------------------------------------------------------------

  /** `$pull: {players: {userId: id}}`: every entry of `id` removed, the others kept in order. */
  function Without(players: seq<Player>, id: Id): (r: seq<Player>)
    ensures |r| <= |players|
    ensures !HasPlayer(r, id)
    ensures forall k :: 0 <= k < |r| ==> r[k] in players
    ensures forall k :: 0 <= k < |players| && players[k].userId != id ==> players[k] in r
    ensures HasPlayer(players, id) ==> |r| < |players|
  {
    if |players| == 0 then []
    else if players[0].userId == id then Without(players[1..], id)
    else
      var rest := Without(players[1..], id);
      assert forall k :: 1 <= k < |players| ==> players[k] == players[1..][k - 1];
      [players[0]] + rest
  }

  datatype Left = Left(store: Store, isHost: bool)

  /**
   * `leaveRoom(userId)`: finds the caller's room; the host leaving deletes the
   * whole room, anyone else has only their own entries pulled. `isHost` reports
   * which branch ran.
   */
  function LeaveRoom(store: Store, userId: string): (r: Result<Left, StoreError>)
    ensures r.Err? <==> forall i :: 0 <= i < |store| ==> !IsMember(store[i], Oid(userId))
    ensures r.Err? ==> r.error == NotInAnyRoom
    ensures r.Ok? ==>
              var i := RoomOf(store, Oid(userId));
              && i.Some?
              && r.value.isHost == (IdString(store[i.value].hostId) == userId)
              && (r.value.isHost ==> r.value.store == store[..i.value] + store[i.value + 1..])
              && (!r.value.isHost ==>
                    && r.value.store == store[i.value := store[i.value].(players := Without(store[i.value].players, Oid(userId)))]
                    && |r.value.store[i.value].players| < |store[i.value].players|)
  {
    match RoomOf(store, Oid(userId))
    case None => Err(NotInAnyRoom)
    case Some(i) =>
      var room := store[i];
      var isHost := IdString(room.hostId) == userId;
      if isHost then Ok(Left(store[..i] + store[i + 1..], true))
      else
        assert room.hostId != Oid(userId);
        var players' := Without(room.players, Oid(userId));
        if |players'| == |room.players| then Err(LeaveFailed)
        else Ok(Left(store[i := room.(players := players')], false))
  }

  // ---------------------------------------------------------------------------
  // getRooms
  // ---------------------------------------------------------------------------

  /** Newest first: `sort({createdAt: -1})`. */
  predicate SortedByNewest(rs: seq<Room>)
  {
    forall i, j :: 0 <= i < j < |rs| ==> rs[i].createdAt >= rs[j].createdAt
  }

  function InsertByNewest(x: Room, rs: seq<Room>): (r: seq<Room>)
    requires SortedByNewest(rs)
    ensures SortedByNewest(r)
    ensures multiset(r) == multiset(rs) + multiset{x}
    ensures |r| == |rs| + 1
    ensures r[0] == x || (|rs| > 0 && r[0] == rs[0])
  {
    if |rs| == 0 || rs[0].createdAt <= x.createdAt then [x] + rs
    else
      var rest := InsertByNewest(x, rs[1..]);
      assert rs == [rs[0]] + rs[1..];
      NoNewerThanHead(x, rs, rest);
      [rs[0]] + rest
  }

  /** Inserting a room older than the head into the tail keeps everything no newer than the head. */
  lemma NoNewerThanHead(x: Room, rs: seq<Room>, rest: seq<Room>)
    requires |rs| > 0 && SortedByNewest(rs) && x.createdAt < rs[0].createdAt
    requires multiset(rest) == multiset(rs[1..]) + multiset{x}
    ensures forall j :: 0 <= j < |rest| ==> rest[j].createdAt <= rs[0].createdAt
  {
    forall j | 0 <= j < |rest| ensures rest[j].createdAt <= rs[0].createdAt {
      assert rest[j] in multiset(rest);
      if rest[j] != x {
        assert rest[j] in rs[1..];
      }
    }
  }

  /** A stable sort, newest first; rooms created at the same instant keep store order. */
  function SortByNewest(rs: seq<Room>): (r: seq<Room>)
    ensures SortedByNewest(r)
    ensures multiset(r) == multiset(rs)
    ensures |r| == |rs|
  {
    if |rs| == 0 then []
    else
      assert rs == [rs[0]] + rs[1..];
      InsertByNewest(rs[0], SortByNewest(rs[1..]))
  }

  function WaitingRooms(store: Store): (r: seq<Room>)
    ensures forall k :: 0 <= k < |r| ==> r[k] in store && r[k].status == Waiting
    ensures forall j :: 0 <= j < |store| && store[j].status == Waiting ==> store[j] in r
  {
    Filter(store, (room: Room) => room.status == Waiting)
  }

  /** `Math.ceil(total / limit)`; `limit` 0 gives `Infinity`, or `NaN` when `total` is 0 too. */
  datatype PageCount = Pages(count: int) | Infinite | NotANumber

  function TotalPages(total: nat, limit: int): (r: PageCount)
    ensures limit > 0 ==> r.Pages? && (r.count - 1) * limit < total <= r.count * limit
    ensures limit > 0 && total == 0 ==> r == Pages(0)
    ensures limit < 0 ==> r.Pages? && r.count <= 0 && r.count * limit <= total < (r.count - 1) * limit
    ensures limit == 0 ==> (r == NotANumber <==> total == 0) && (r == Infinite <==> total > 0)
  {
    if limit > 0 then Pages((total + limit - 1) / limit)
    else if limit < 0 then Pages(-(total / -limit))
    else if total == 0 then NotANumber
    else Infinite
  }

  datatype RoomPage = RoomPage(rooms: seq<Room>, total: nat, currentPage: int, totalPages: PageCount)

  function Min(a: int, b: int): int
  {
    if a <= b then a else b
  }

  /**
   * `getRooms(page, limit)`: the waiting rooms, newest first, skipping
   * `(page - 1) * limit` and returning at most `limit` (MongoDB reads a limit of 0
   * as no limit and a negative limit as its magnitude), with the count of waiting
   * rooms and the number of pages.
   */
  function GetRooms(store: Store, page: int, limit: int): (r: Result<RoomPage, StoreError>)
    ensures r.Err? <==> (page - 1) * limit < 0
    ensures r.Ok? ==> forall k :: 0 <= k < |r.value.rooms| ==> r.value.rooms[k] in store && r.value.rooms[k].status == Waiting
    ensures r.Ok? ==> SortedByNewest(r.value.rooms)
    ensures r.Ok? ==> r.value.total == |WaitingRooms(store)| && r.value.currentPage == page
    ensures r.Ok? ==> r.value.totalPages == TotalPages(r.value.total, limit)
    ensures r.Ok? && limit != 0 ==> |r.value.rooms| <= if limit > 0 then limit else -limit
    ensures r.Ok? ==> |r.value.rooms| <= r.value.total
  {
    var skip := (page - 1) * limit;
    if skip < 0 then Err(NegativeSkip)
    else
      var waiting := WaitingRooms(store);
      var sorted := SortByNewest(waiting);
      var from := Min(skip, |sorted|);
      var to := if limit == 0 then |sorted| else Min(skip + (if limit > 0 then limit else -limit), |sorted|);
      SortedWaiting(store);
      SortedSlice(sorted, from, to);
      Ok(RoomPage(sorted[from..to], |waiting|, page, TotalPages(|waiting|, limit)))
  }

  /** A slice of a newest-first list is newest-first and holds the list's elements at the offset. */
  lemma SortedSlice(rs: seq<Room>, from: int, to: int)
    requires 0 <= from <= to <= |rs| && SortedByNewest(rs)
    ensures SortedByNewest(rs[from..to])
    ensures forall k :: 0 <= k < to - from ==> rs[from..to][k] == rs[from + k]
  {
  }

  /** Every room of the sorted list is a waiting room of the store. */
  lemma SortedWaiting(store: Store)
    ensures forall k :: 0 <= k < |SortByNewest(WaitingRooms(store))| ==>
              SortByNewest(WaitingRooms(store))[k] in store && SortByNewest(WaitingRooms(store))[k].status == Waiting
  {
    var waiting := WaitingRooms(store);
    var sorted := SortByNewest(waiting);
    forall k | 0 <= k < |sorted| ensures sorted[k] in store && sorted[k].status == Waiting {
      assert sorted[k] in multiset(waiting);
    }
  }

  /** The rooms of page `page` for a positive limit: the slice of the sorted waiting rooms that the skip selects. */
  lemma PageSlice(store: Store, page: int, limit: int)
    requires limit > 0 && page >= 1
    ensures var n := |WaitingRooms(store)|;
            var skip := (page - 1) * limit;
            && skip >= 0
            && GetRooms(store, page, limit).Ok?
            && GetRooms(store, page, limit).value.rooms == SortByNewest(WaitingRooms(store))[Min(skip, n)..Min(skip + limit, n)]
  {
    MulMono(0, page - 1, limit);
  }

  /** Position `m` of the slice starting at `skip` is position `skip + m` of the whole list. */
  lemma SliceAt(rs: seq<Room>, skip: int, limit: int, m: int)
    requires 0 <= skip && 0 <= m < limit && skip + m < |rs|
    ensures m < |rs[Min(skip, |rs|)..Min(skip + limit, |rs|)]|
    ensures rs[Min(skip, |rs|)..Min(skip + limit, |rs|)][m] == rs[skip + m]
  {
  }

  /** With a positive limit every waiting room is on exactly the page its rank puts it on, and that page exists. */
  lemma RoomOnItsPage(store: Store, limit: int, k: nat)
    requires limit > 0 && k < |WaitingRooms(store)|
    ensures var page := k / limit + 1;
            var r := GetRooms(store, page, limit);
            && r.Ok?
            && k % limit < |r.value.rooms|
            && r.value.rooms[k % limit] == SortByNewest(WaitingRooms(store))[k]
            && 1 <= page <= r.value.totalPages.count
  {
    DivMod(k, limit);
    RankOnPage(store, limit, k / limit, k % limit);
  }

  /** The room of rank `q * limit + m` is at position `m` of page `q + 1`, and that page is within the page count. */
  lemma RankOnPage(store: Store, limit: int, q: nat, m: nat)
    requires limit > 0 && m < limit && q * limit + m < |WaitingRooms(store)|
    ensures var r := GetRooms(store, q + 1, limit);
            && r.Ok?
            && m < |r.value.rooms|
            && r.value.rooms[m] == SortByNewest(WaitingRooms(store))[q * limit + m]
            && q + 1 <= r.value.totalPages.count
  {
    var total := |WaitingRooms(store)|;
    PageSlice(store, q + 1, limit);
    SliceAt(SortByNewest(WaitingRooms(store)), q * limit, limit, m);
    var count := GetRooms(store, q + 1, limit).value.totalPages.count;
    PageBound(q, count, limit, q * limit + m, total);
  }

  lemma DivMod(k: nat, limit: int)
    requires limit > 0
    ensures k == (k / limit) * limit + k % limit && 0 <= k % limit < limit && k / limit >= 0
  {
  }

  lemma PageBound(q: int, count: int, limit: int, k: int, total: int)
    requires limit > 0 && q >= 0 && q * limit <= k < total <= count * limit
    ensures q + 1 <= count
  {
    if q >= count {
      assert q * limit >= count * limit by {
        MulMono(count, q, limit);
      }
    }
  }

  lemma MulMono(a: int, b: int, c: int)
    requires a <= b && c > 0
    ensures a * c <= b * c
  {
  }

  // ---------------------------------------------------------------------------
  // getCurrentRoom
  // ---------------------------------------------------------------------------

  /** `getCurrentRoom(userId)`: a room the user is host or player of, or `None` (null). */
  function GetCurrentRoom(store: Store, userId: string): (r: Option<Room>)
    ensures r.Some? ==> r.value in store && IsMember(r.value, Oid(userId))
    ensures r.None? <==> forall i :: 0 <= i < |store| ==> !IsMember(store[i], Oid(userId))
  {
    match RoomOf(store, Oid(userId))
    case None => None
    case Some(i) => Some(store[i])
  }

  /** In a valid store the current room is the user's one room, whichever it is. */
  lemma CurrentRoomIsTheRoom(store: Store, userId: string, i: nat)
    requires Valid(store)
    requires i < |store| && IsMember(store[i], Oid(userId))
    ensures GetCurrentRoom(store, userId) == Some(store[i])
  {
    var j := RoomOf(store, Oid(userId)).value;
    assert IsMember(store[j], Oid(userId));
  }

  // ---------------------------------------------------------------------------
  // Invariant preservation
  // ---------------------------------------------------------------------------

  lemma CreatePreservesValid(store: Store, userId: string, roomName: string, requestedMax: int, host: Option<UserRecord>,
                             code: InviteCodes.RandomBytes3, newId: string, now: int)
    requires Valid(store)
    requires CreateRoom(store, userId, roomName, requestedMax, host, code, newId, now).Ok?
    ensures Valid(CreateRoom(store, userId, roomName, requestedMax, host, code, newId, now).value.store)
  {
    var c := CreateRoom(store, userId, roomName, requestedMax, host, code, newId, now).value;
    assert c.room.players[0].userId == c.room.hostId;
    forall id | IsMember(c.room, id) ensures id == Oid(userId) {
      if HasPlayer(c.room.players, id) {
        var k :| 0 <= k < |c.room.players| && c.room.players[k].userId == id;
      }
    }
    AppendPreservesValid(store, c.room, Oid(userId));
  }

  /** Appending a room with a fresh id, seated host and room to spare, whose only member is in no room yet, keeps every invariant. */
  lemma AppendPreservesValid(store: Store, room: Room, uid: Id)
    requires Valid(store)
    requires !HasRoomId(store, room.id) && HasHostEntry(room) && |room.players| <= room.maxPlayers
    requires forall id :: IsMember(room, id) ==> id == uid
    requires forall i :: 0 <= i < |store| ==> !IsMember(store[i], uid)
    ensures Valid(store + [room])
  {
    var s' := store + [room];
    var n := |store|;
    forall i | 0 <= i < n ensures s'[i] == store[i] { }
    assert s'[n] == room;
    assert OneRoomPerUser(s') by {
      forall id, i, j | 0 <= i < |s'| && 0 <= j < |s'| && IsMember(s'[i], id) && IsMember(s'[j], id)
        ensures i == j
      {
        if i == n || j == n {
          assert id == uid;
        }
      }
    }
    assert HostSeated(s') by {
      forall i | 0 <= i < |s'| ensures HasHostEntry(s'[i]) {
        if i < n { assert s'[i] == store[i]; }
      }
    }
  }


  /** Appending one entry adds exactly that entry's user to the players. */
  lemma HasPlayerAppend(ps: seq<Player>, e: Player, id: Id)
    ensures HasPlayer(ps + [e], id) <==> HasPlayer(ps, id) || e.userId == id
  {
    if HasPlayer(ps + [e], id) {
      var k :| 0 <= k < |ps + [e]| && (ps + [e])[k].userId == id;
      if k < |ps| {
        assert (ps + [e])[k] == ps[k];
      }
    }
    if HasPlayer(ps, id) {
      var k :| 0 <= k < |ps| && ps[k].userId == id;
      assert (ps + [e])[k] == ps[k];
    }
    assert (ps + [e])[|ps|] == e;
  }

  lemma JoinPreservesValid(store: Store, userId: string, inviteCode: string, user: Option<UserRecord>)
    requires Valid(store)
    requires JoinRoom(store, userId, inviteCode, user).Ok?
    ensures Valid(JoinRoom(store, userId, inviteCode, user).value.store)
  {
    var s' := JoinRoom(store, userId, inviteCode, user).value.store;
    var i := WaitingRoomWithCode(store, Text.ToUpper(inviteCode)).value;
    var entry := PlayerEntry(userId, user.value);
    assert s'[i].players == store[i].players + [entry];
    assert |s'| == |store|;
    forall id, j | 0 <= j < |s'| && IsMember(s'[j], id)
      ensures IsMember(store[j], id) || (j == i && id == Oid(userId))
    {
      if j == i {
        HasPlayerAppend(store[i].players, entry, id);
      }
    }
    forall j | 0 <= j < |s'| && j != i ensures s'[j] == store[j] { }
    forall j | 0 <= j < |s'|
      ensures HasHostEntry(s'[j])
    {
      assert HasHostEntry(store[j]);
      var k :| 0 <= k < |store[j].players| && store[j].players[k].userId == store[j].hostId && store[j].players[k].role == HostRole;
      if j == i {
        assert s'[j].players[k] == store[j].players[k];
      }
    }
  }

  /** Removing one room keeps every invariant. */
  lemma RemoveRoomPreservesValid(store: Store, i: nat)
    requires Valid(store) && i < |store|
    ensures Valid(store[..i] + store[i + 1..])
  {
    var s' := store[..i] + store[i + 1..];
    assert forall j :: 0 <= j < |s'| ==> s'[j] == store[if j < i then j else j + 1];
  }

  /** Pulling one user's entries out of a room whose host they are not keeps every invariant. */
  lemma PullPlayerPreservesValid(store: Store, i: nat, id: Id)
    requires Valid(store) && i < |store| && store[i].hostId != id
    ensures Valid(store[i := store[i].(players := Without(store[i].players, id))])
  {
    var room := store[i];
    var s' := store[i := room.(players := Without(room.players, id))];
    forall id', j | 0 <= j < |s'| && IsMember(s'[j], id')
      ensures IsMember(store[j], id')
    {
      if j == i && HasPlayer(s'[j].players, id') {
        var k :| 0 <= k < |s'[j].players| && s'[j].players[k].userId == id';
        assert s'[j].players[k] in room.players;
      }
    }
    forall j | 0 <= j < |s'|
      ensures HasHostEntry(s'[j])
    {
      assert HasHostEntry(store[j]);
      if j == i {
        var k :| 0 <= k < |room.players| && room.players[k].userId == room.hostId && room.players[k].role == HostRole;
        var p := room.players[k];
        assert p in s'[j].players;
        var k' :| 0 <= k' < |s'[j].players| && s'[j].players[k'] == p;
      }
    }
  }

  lemma LeavePreservesValid(store: Store, userId: string)
    requires Valid(store)
    requires LeaveRoom(store, userId).Ok?
    ensures Valid(LeaveRoom(store, userId).value.store)
  {
    var l := LeaveRoom(store, userId).value;
    var i := RoomOf(store, Oid(userId)).value;
    if l.isHost {
      RemoveRoomPreservesValid(store, i);
    } else {
      assert store[i].hostId != Oid(userId);
      PullPlayerPreservesValid(store, i, Oid(userId));
    }
  }

  // ---------------------------------------------------------------------------
  // Sequences of store operations
  // ---------------------------------------------------------------------------

  datatype Op =
    | Create(userId: string, roomName: string, requestedMax: int, host: Option<UserRecord>,
             code: InviteCodes.RandomBytes3, newId: string, now: int)
    | Join(userId: string, inviteCode: string, user: Option<UserRecord>)
    | Leave(userId: string)

  /** One operation applied as one atomic step; a failed operation leaves the store as it was. */
  function Apply(store: Store, op: Op): Store
  {
    match op
    case Create(u, name, m, host, code, id, now) =>
      (match CreateRoom(store, u, name, m, host, code, id, now) case Ok(c) => c.store case Err(_) => store)
    case Join(u, code, user) =>
      (match JoinRoom(store, u, code, user) case Ok(j) => j.store case Err(_) => store)
    case Leave(u) =>
      (match LeaveRoom(store, u) case Ok(l) => l.store case Err(_) => store)
  }

  function Run(store: Store, ops: seq<Op>): Store
    decreases |ops|
  {
    if |ops| == 0 then store else Run(Apply(store, ops[0]), ops[1..])
  }

  lemma ApplyPreservesValid(store: Store, op: Op)
    requires Valid(store)
    ensures Valid(Apply(store, op))
  {
    match op
    case Create(u, name, m, host, code, id, now) =>
      if CreateRoom(store, u, name, m, host, code, id, now).Ok? {
        CreatePreservesValid(store, u, name, m, host, code, id, now);
      }
    case Join(u, code, user) =>
      if JoinRoom(store, u, code, user).Ok? {
        JoinPreservesValid(store, u, code, user);
      }
    case Leave(u) =>
      if LeaveRoom(store, u).Ok? {
        LeavePreservesValid(store, u);
      }
  }

  /** Any sequence of create, join and leave calls keeps every user in at most one room and every room within capacity. */
  lemma {:induction false} RunPreservesValid(store: Store, ops: seq<Op>)
    requires Valid(store)
    ensures Valid(Run(store, ops))
    decreases |ops|
  {
    if |ops| > 0 {
      ApplyPreservesValid(store, ops[0]);
      RunPreservesValid(Apply(store, ops[0]), ops[1..]);
    }
  }
}

=== FILE: seqs.dfy ===
/** Searching and filtering sequences, as `Array.prototype.find`/`findIndex`/`filter` do. */
module Seqs {
  import opened Wrappers

  /** The position of the first element satisfying `p`, searching from `from` on. */
  function FirstIndexFrom<T>(s: seq<T>, p: T -> bool, from: nat): (r: Option<nat>)
    requires from <= |s|
    ensures r.Some? ==> from <= r.value < |s| && p(s[r.value])
    ensures r.Some? ==> forall j :: from <= j < r.value ==> !p(s[j])
    ensures r.None? ==> forall j :: from <= j < |s| ==> !p(s[j])
    decreases |s| - from
  {
    if from == |s| then None
    else if p(s[from]) then Some(from)
    else FirstIndexFrom(s, p, from + 1)
  }

  /** The position of the first element satisfying `p` (`findIndex`, with `None` for -1). */
  function FirstIndex<T>(s: seq<T>, p: T -> bool): (r: Option<nat>)
    ensures r.Some? ==> r.value < |s| && p(s[r.value])
    ensures r.Some? ==> forall j :: 0 <= j < r.value ==> !p(s[j])
    ensures r.None? ==> forall j :: 0 <= j < |s| ==> !p(s[j])
  {
    FirstIndexFrom(s, p, 0)
  }

  /** The first element satisfying `p` (`find`, with `None` for `undefined`). */
  function Find<T>(s: seq<T>, p: T -> bool): (r: Option<T>)
    ensures r.Some? <==> exists j :: 0 <= j < |s| && p(s[j])
    ensures r.Some? ==> p(r.value) && r.value in s
    ensures r.Some? ==> exists j :: 0 <= j < |s| && s[j] == r.value && forall k :: 0 <= k < j ==> !p(s[k])
  {
    match FirstIndex(s, p)
    case None => None
    case Some(j) => Some(s[j])
  }

  /** The elements satisfying `p`, in their original order (`filter`). */
  function Filter<T>(s: seq<T>, p: T -> bool): (r: seq<T>)
    ensures |r| <= |s|
    ensures forall k :: 0 <= k < |r| ==> r[k] in s && p(r[k])
    ensures forall j :: 0 <= j < |s| && p(s[j]) ==> s[j] in r
    ensures |r| == |s| <==> forall j :: 0 <= j < |s| ==> p(s[j])
  {
    if |s| == 0 then []
    else if p(s[0]) then [s[0]] + Filter(s[1..], p)
    else
      assert s[0] in s && !p(s[0]);
      Filter(s[1..], p)
  }

  /** Filtering distributes over concatenation. */
  lemma {:induction false} FilterConcat<T>(a: seq<T>, b: seq<T>, p: T -> bool)
    ensures Filter(a + b, p) == Filter(a, p) + Filter(b, p)
  {
    if |a| > 0 {
      assert (a + b)[1..] == a[1..] + b;
      FilterConcat(a[1..], b, p);
    } else {
      assert a + b == b;
    }
  }
}

=== FILE: server_map.dfy ===
/**
 * The server-side map model (src/gameServer/gameModels/mapModel.js): three maps
 * keyed by `"row,col"` strings hold terrain names, objects and houses. Random
 * choices are parameters; the broadcasts of `updateCell` are not modelled.
 */
module ServerMap {
  import opened Wrappers
  import Text
  import Seqs
  import opened Terrains
  import opened HouseRules

  datatype MapObject = MapObject(kind: string, count: int)

  datatype MapState = MapState(rows: int, cols: int, terrain: map<string, string>,
                               objects: map<string, MapObject>, houses: map<string, House>)

  // ---------------------------------------------------------------------------
  // Keys
  // ---------------------------------------------------------------------------

  /** `${row},${col}`. */
  function CreateKey(c: Cell): string
  {
    Text.IntToString(c.row) + "," + Text.IntToString(c.col)
  }

  /** A coordinate read back with `Number`: `None` stands for `NaN` (or a missing part). */
  datatype ParsedKey = ParsedKey(row: Option<int>, col: Option<int>)

  /** `key.split(',').map(Number)` destructured into row and column. */
  function ParseKey(key: string): (p: ParsedKey)
    ensures Text.IndexOf(key, ',').None? ==> p.col.None?
  {
    var parts := Text.Split(key, ',');
    ParsedKey(Text.ToNumber(parts[0]), if |parts| >= 2 then Text.ToNumber(parts[1]) else None)
  }

  lemma NoCommaInNumber(i: int)
    ensures forall k :: 0 <= k < |Text.IntToString(i)| ==> Text.IntToString(i)[k] != ','
  {
  }

  /** Reading a created key gives back both coordinates. */
  lemma ParseCreatedKey(c: Cell)
    ensures ParseKey(CreateKey(c)) == ParsedKey(Some(c.row), Some(c.col))
  {
    NoCommaInNumber(c.row);
    NoCommaInNumber(c.col);
    Text.SplitTwo(Text.IntToString(c.row), Text.IntToString(c.col), ',');
    Text.ToNumberOfIntToString(c.row);
    Text.ToNumberOfIntToString(c.col);
  }

  /** Different cells have different keys. */
  lemma CreateKeyInjective(a: Cell, b: Cell)
    requires CreateKey(a) == CreateKey(b)
    ensures a == b
  {
    ParseCreatedKey(a);
    ParseCreatedKey(b);
  }

  // ---------------------------------------------------------------------------
  // Size and spawn zones
  // ---------------------------------------------------------------------------

  datatype MapSize = MapSize(rows: int, cols: int)

  /** `calculateMapSize`: 20 rows for two players, five more per extra player, 30 columns. */
  function CalculateMapSize(numPlayers: int): (s: MapSize)
    ensures s.cols == 30 && s.rows >= 20 && s.rows % 5 == 0
    ensures numPlayers <= 2 ==> s.rows == 20
  {
    MapSize(20 + (if numPlayers - 2 > 0 then numPlayers - 2 else 0) * 5, 30)
  }

  /** Each player beyond the second adds exactly five rows. */
  lemma MapSizeGrowth(n: int)
    ensures CalculateMapSize(n + 1).rows - CalculateMapSize(n).rows == if n >= 2 then 5 else 0
  {
  }

  /** The four corners, for `player1`..`player4` in that order. */
  function CornerZones(rows: int, cols: int): seq<Zone>
  {
    [Zone(0, rows / 4, 0, cols / 4), Zone(0, rows / 4, cols * 3 / 4, cols),
     Zone(rows * 3 / 4, rows, 0, cols / 4), Zone(rows * 3 / 4, rows, cols * 3 / 4, cols)]
  }

  /** Band `i` of `n`: rows `[h·i, h·(i+1))` with `h = rows div n`, left quarter for even `i`, right quarter for odd. */
  function Band(rows: int, cols: int, n: int, i: int): Zone
    requires n > 0
  {
    var h := rows / n;
    Zone(h * i, h * (i + 1), if i % 2 == 0 then 0 else cols * 3 / 4, if i % 2 == 0 then cols / 4 else cols)
  }

  lemma BandOrder(h: nat, i: nat, j: nat)
    requires i < j
    ensures h * (i + 1) <= h * j
  {
    var d: nat := j - i - 1;
    assert h * j == h * (i + 1) + h * d;
  }

  lemma BandsFit(rows: nat, n: nat, i: nat)
    requires 0 < n && i < n
    ensures 0 <= (rows / n) * i <= (rows / n) * (i + 1) <= rows
  {
    var h := rows / n;
    BandOrder(h, i, n);
    assert h * n <= rows;
    assert h * i <= h * (i + 1) by { assert h * (i + 1) == h * i + h; }
  }

  /** Every zone inside the map, no two zones sharing a cell, even zones on the left quarter and odd ones on the right. */
  predicate Layout(zones: seq<Zone>, rows: int, cols: int)
  {
    && (forall i :: 0 <= i < |zones| ==> ZoneWithin(zones[i], rows, cols))
    && (forall i, j :: 0 <= i < |zones| && 0 <= j < |zones| && i != j ==> ZonesApart(zones[i], zones[j]))
    && (forall i :: 0 <= i < |zones| ==>
          (i % 2 == 0 ==> zones[i].startCol == 0 && zones[i].endCol == cols / 4) &&
          (i % 2 == 1 ==> zones[i].startCol == cols * 3 / 4 && zones[i].endCol == cols))
  }

  lemma CornersLayout(rows: nat, cols: nat)
    ensures Layout(CornerZones(rows, cols), rows, cols)
  {
    var zs := CornerZones(rows, cols);
    assert rows / 4 <= rows * 3 / 4 <= rows && cols / 4 <= cols * 3 / 4 <= cols;
    forall i, j | 0 <= i < |zs| && 0 <= j < |zs| && i != j ensures ZonesApart(zs[i], zs[j]) {
      if i % 2 != j % 2 {
        assert zs[i].endCol <= zs[j].startCol || zs[j].endCol <= zs[i].startCol;
      } else {
        assert zs[i].endRow <= zs[j].startRow || zs[j].endRow <= zs[i].startRow;
      }
    }
  }

  /** One horizontal band per player. */
  function Bands(rows: nat, cols: nat, n: nat): (zones: seq<Zone>)
    requires n > 0
    ensures |zones| == n && forall i :: 0 <= i < n ==> zones[i] == Band(rows, cols, n, i)
  {
    seq(n, i requires 0 <= i < n => Band(rows, cols, n, i))
  }

  lemma BandsLayout(rows: nat, cols: nat, n: nat)
    requires n > 0
    ensures Layout(Bands(rows, cols, n), rows, cols)
  {
    var zones := Bands(rows, cols, n);
    forall i | 0 <= i < n ensures ZoneWithin(zones[i], rows, cols) {
      BandsFit(rows, n, i);
    }
    forall i, j | 0 <= i < n && 0 <= j < n && i != j ensures ZonesApart(zones[i], zones[j]) {
      if i < j { BandOrder(rows / n, i, j); } else { BandOrder(rows / n, j, i); }
    }
  }

  /**
   * `getSpawnZones(numPlayers)`, indexed by player: the four corners when there
   * are at most four players, otherwise one horizontal band per player. Every
   * zone lies inside the map and no two zones share a cell.
   */
  function GetSpawnZones(rows: nat, cols: nat, numPlayers: int): (zones: seq<Zone>)
    ensures numPlayers <= 4 ==> zones == CornerZones(rows, cols)
    ensures numPlayers > 4 ==> |zones| == numPlayers
    ensures numPlayers > 4 ==> forall i :: 0 <= i < numPlayers ==>
              zones[i].startRow == (rows / numPlayers) * i && zones[i].endRow == (rows / numPlayers) * (i + 1)
    ensures forall i :: 0 <= i < |zones| ==> ZoneWithin(zones[i], rows, cols)
    ensures forall i, j :: 0 <= i < |zones| && 0 <= j < |zones| && i != j ==> ZonesApart(zones[i], zones[j])
    ensures forall i :: 0 <= i < |zones| ==>
              (i % 2 == 0 ==> zones[i].startCol == 0 && zones[i].endCol == cols / 4) &&
              (i % 2 == 1 ==> zones[i].startCol == cols * 3 / 4 && zones[i].endCol == cols)
  {
    if numPlayers <= 4 then
      CornersLayout(rows, cols);
      CornerZones(rows, cols)
    else
      BandsLayout(rows, cols, numPlayers);
      Bands(rows, cols, numPlayers)
  }

  // ---------------------------------------------------------------------------
  // House positions
  // ---------------------------------------------------------------------------

  predicate HouseTerrainName(name: string)
  {
    name == Name(Grass) || name == Name(Land)
  }

  /** Whether the house stored under `key` is too close to `c`; a coordinate that reads as `NaN` never is. */
  predicate Blocks(key: string, c: Cell)
  {
    var p := ParseKey(key);
    p.row.Some? && p.col.Some? && TooClose(c, Cell(p.row.value, p.col.value))
  }

  /**
   * `isValidHousePosition(row, col, playerId)`: the cell's terrain is grass or
   * land, and no house of another player is too close.
   */
  predicate IsValidHousePosition(m: MapState, c: Cell, playerId: string)
  {
    var key := CreateKey(c);
    && key in m.terrain && HouseTerrainName(m.terrain[key])
    && forall k :: k in m.houses && m.houses[k].playerId != playerId ==> !Blocks(k, c)
  }

  /** Every house is stored under a key made from its cell, as `spawnHouses` stores them. */
  ghost predicate HouseKeysCreated(m: MapState)
  {
    forall k :: k in m.houses ==> exists c :: CreateKey(c) == k
  }

  /**
   * When every house key was made from a cell, a position is valid exactly when
   * its terrain is grass or land and every other player's house is at least
   * `MIN_DISTANCE` away.
   */
  lemma ValidHousePositionMeansDistance(m: MapState, c: Cell, playerId: string)
    requires HouseKeysCreated(m)
    ensures IsValidHousePosition(m, c, playerId) <==>
              && CreateKey(c) in m.terrain && HouseTerrainName(m.terrain[CreateKey(c)])
              && forall d :: CreateKey(d) in m.houses && m.houses[CreateKey(d)].playerId != playerId ==>
                               SquaredDistance(c, d) >= MinDistance * MinDistance
  {
    if IsValidHousePosition(m, c, playerId) {
      forall d | CreateKey(d) in m.houses && m.houses[CreateKey(d)].playerId != playerId
        ensures SquaredDistance(c, d) >= MinDistance * MinDistance
      {
        ParseCreatedKey(d);
        assert !Blocks(CreateKey(d), c);
      }
    }
    if && CreateKey(c) in m.terrain && HouseTerrainName(m.terrain[CreateKey(c)])
       && forall d :: CreateKey(d) in m.houses && m.houses[CreateKey(d)].playerId != playerId ==>
                        SquaredDistance(c, d) >= MinDistance * MinDistance
    {
      forall k | k in m.houses && m.houses[k].playerId != playerId ensures !Blocks(k, c) {
        var d :| CreateKey(d) == k;
        ParseCreatedKey(d);
      }
    }
  }

  // ---------------------------------------------------------------------------
  // spawnHouses
  // ---------------------------------------------------------------------------

  const MaxAttempts: nat := 100

  /** The first of a player's drawn cells that is a valid house position, if any. */
  function FirstValid(m: MapState, playerId: string, draws: seq<Cell>): (r: Option<Cell>)
    ensures r.Some? ==> r.value in draws && IsValidHousePosition(m, r.value, playerId)
    ensures r.None? ==> forall a :: 0 <= a < |draws| ==> !IsValidHousePosition(m, draws[a], playerId)
    ensures r.Some? ==> exists a :: 0 <= a < |draws| && draws[a] == r.value &&
                                    forall b :: 0 <= b < a ==> !IsValidHousePosition(m, draws[b], playerId)
  {
    Seqs.Find(draws, (c: Cell) => IsValidHousePosition(m, c, playerId))
  }

  /** Placing player `i`'s house at `c`: the house is written and the object there removed. */
  function Place(m: MapState, i: nat, c: Cell): MapState
  {
    var key := CreateKey(c);
    m.(houses := m.houses[key := NewHouse(i)], objects := m.objects - {key})
  }

  /** The keys of the cells where houses have been placed so far. */
  function PlacedKeys(placed: seq<Option<Cell>>): set<string>
  {
    if |placed| == 0 then {}
    else PlacedKeys(placed[..|placed| - 1]) + (if placed[|placed| - 1].Some? then {CreateKey(placed[|placed| - 1].value)} else {})
  }

  /** Only the placed cells' houses and objects differ from the starting map. */
  predicate FrameKept(m: MapState, m': MapState, placed: seq<Option<Cell>>)
  {
    && m'.rows == m.rows && m'.cols == m.cols && m'.terrain == m.terrain
    && m'.houses.Keys == m.houses.Keys + PlacedKeys(placed)
    && (forall k :: k in m.houses && k !in PlacedKeys(placed) ==> m'.houses[k] == m.houses[k])
    && m'.objects == m.objects - PlacedKeys(placed)
  }

  /** Every placed house is where it was put, on grass or land. */
  predicate HousesKept(m: MapState, m': MapState, placed: seq<Option<Cell>>)
  {
    forall i :: 0 <= i < |placed| && placed[i].Some? ==>
      var key := CreateKey(placed[i].value);
      && key in m'.houses && m'.houses[key] == NewHouse(i)
      && key in m.terrain && HouseTerrainName(m.terrain[key])
  }

  /** Houses of different players stand at least `MIN_DISTANCE` apart. */
  predicate HousesApart(placed: seq<Option<Cell>>)
  {
    forall i, j :: 0 <= i < j < |placed| && placed[i].Some? && placed[j].Some? ==>
      SquaredDistance(placed[i].value, placed[j].value) >= MinDistance * MinDistance
  }

  /** A cell valid for the next player is far from, and so distinct from, every cell placed so far. */
  lemma ValidNotBlocked(m: MapState, c: Cell, playerId: string, k: string)
    requires IsValidHousePosition(m, c, playerId)
    requires k in m.houses && m.houses[k].playerId != playerId
    ensures !Blocks(k, c)
  {
  }

  /** A house at a created key that does not block `c` is at least `MIN_DISTANCE` from it. */
  lemma UnblockedIsFar(d: Cell, c: Cell)
    requires !Blocks(CreateKey(d), c)
    ensures SquaredDistance(d, c) >= MinDistance * MinDistance
  {
    ParseCreatedKey(d);
    assert SquaredDistance(d, c) == SquaredDistance(c, d);
  }

  /** A cell valid for `playerId` is far from, and so distinct from, every other player's house. */
  lemma FarFromOtherHouse(m: MapState, c: Cell, playerId: string, d: Cell)
    requires IsValidHousePosition(m, c, playerId)
    requires CreateKey(d) in m.houses && m.houses[CreateKey(d)].playerId != playerId
    ensures SquaredDistance(d, c) >= MinDistance * MinDistance
    ensures CreateKey(d) != CreateKey(c)
  {
    ValidNotBlocked(m, c, playerId, CreateKey(d));
    UnblockedIsFar(d, c);
    FarCellsHaveDistinctKeys(d, c);
  }

  lemma FarCellsHaveDistinctKeys(d: Cell, c: Cell)
    requires SquaredDistance(d, c) >= MinDistance * MinDistance
    ensures CreateKey(d) != CreateKey(c)
  {
    DistinctCellsDistinctKeys(d, c);
  }

  /** A cell valid for the next player is far from, and so distinct from, every cell placed so far. */
  lemma ValidIsApart(m: MapState, m': MapState, placed: seq<Option<Cell>>, c: Cell, a: nat)
    requires HousesKept(m, m', placed)
    requires IsValidHousePosition(m', c, PlayerName(|placed|))
    requires a < |placed| && placed[a].Some?
    ensures SquaredDistance(placed[a].value, c) >= MinDistance * MinDistance
    ensures CreateKey(placed[a].value) != CreateKey(c)
  {
    var d := placed[a].value;
    assert CreateKey(d) in m'.houses && m'.houses[CreateKey(d)] == NewHouse(a);
    DistinctPlayerNames(a, |placed|);
    FarFromOtherHouse(m', c, PlayerName(|placed|), d);
  }

  lemma PlaceKeepsFrame(m: MapState, m': MapState, placed: seq<Option<Cell>>, c: Cell)
    requires FrameKept(m, m', placed)
    ensures FrameKept(m, Place(m', |placed|, c), placed + [Some(c)])
  {
    var placed' := placed + [Some(c)];
    assert placed'[..|placed|] == placed;
    assert PlacedKeys(placed') == PlacedKeys(placed) + {CreateKey(c)};
  }

  lemma PlaceKeepsHouses(m: MapState, m': MapState, placed: seq<Option<Cell>>, c: Cell)
    requires HousesKept(m, m', placed)
    requires IsValidHousePosition(m', c, PlayerName(|placed|))
    requires m'.terrain == m.terrain
    ensures HousesKept(m, Place(m', |placed|, c), placed + [Some(c)])
  {
    var placed' := placed + [Some(c)];
    var m'' := Place(m', |placed|, c);
    forall a | 0 <= a < |placed'| && placed'[a].Some?
      ensures var key := CreateKey(placed'[a].value);
              && key in m''.houses && m''.houses[key] == NewHouse(a)
              && key in m.terrain && HouseTerrainName(m.terrain[key])
    {
      if a < |placed| {
        assert placed'[a] == placed[a];
        EarlierHouseKept(m, m', placed, c, a);
      } else {
        assert placed'[a] == Some(c);
        NewHouseKept(m, m', |placed|, c);
      }
    }
  }

  lemma EarlierHouseKept(m: MapState, m': MapState, placed: seq<Option<Cell>>, c: Cell, a: nat)
    requires HousesKept(m, m', placed)
    requires IsValidHousePosition(m', c, PlayerName(|placed|))
    requires a < |placed| && placed[a].Some?
    ensures var key := CreateKey(placed[a].value);
            && key in Place(m', |placed|, c).houses && Place(m', |placed|, c).houses[key] == NewHouse(a)
            && key in m.terrain && HouseTerrainName(m.terrain[key])
  {
    ValidIsApart(m, m', placed, c, a);
  }

  lemma NewHouseKept(m: MapState, m': MapState, n: nat, c: Cell)
    requires IsValidHousePosition(m', c, PlayerName(n))
    requires m'.terrain == m.terrain
    ensures var key := CreateKey(c);
            && key in Place(m', n, c).houses && Place(m', n, c).houses[key] == NewHouse(n)
            && key in m.terrain && HouseTerrainName(m.terrain[key])
  {
  }

  lemma PlaceKeepsApart(m: MapState, m': MapState, placed: seq<Option<Cell>>, c: Cell)
    requires HousesKept(m, m', placed) && HousesApart(placed)
    requires IsValidHousePosition(m', c, PlayerName(|placed|))
    ensures HousesApart(placed + [Some(c)])
  {
    forall a | 0 <= a < |placed| && placed[a].Some? ensures SquaredDistance(placed[a].value, c) >= MinDistance * MinDistance {
      ValidIsApart(m, m', placed, c, a);
    }
  }

  lemma SkipKeeps(m: MapState, m': MapState, placed: seq<Option<Cell>>)
    requires FrameKept(m, m', placed) && HousesKept(m, m', placed) && HousesApart(placed)
    ensures FrameKept(m, m', placed + [None]) && HousesKept(m, m', placed + [None]) && HousesApart(placed + [None])
  {
    assert (placed + [None])[..|placed|] == placed;
  }

  /** Every placed cell is one of that player's drawn cells. */
  predicate DrawnFrom(placed: seq<Option<Cell>>, draws: seq<seq<Cell>>)
  {
    |placed| <= |draws| && forall i :: 0 <= i < |placed| && placed[i].Some? ==> placed[i].value in draws[i]
  }

  lemma DrawnFromExtend(placed: seq<Option<Cell>>, draws: seq<seq<Cell>>, next: Option<Cell>)
    requires DrawnFrom(placed, draws) && |placed| < |draws|
    requires next.Some? ==> next.value in draws[|placed|]
    ensures DrawnFrom(placed + [next], draws)
  {
  }

  /** The map after placing the houses in `placed`, player by player, on `m`. */
  function PlaceAll(m: MapState, placed: seq<Option<Cell>>): MapState
  {
    if |placed| == 0 then m
    else
      var before := PlaceAll(m, placed[..|placed| - 1]);
      match placed[|placed| - 1]
      case Some(c) => Place(before, |placed| - 1, c)
      case None => before
  }

  /** Each player's house went on the first of their draws valid on the map as it stood at their turn. */
  predicate EachFirstValid(m: MapState, placed: seq<Option<Cell>>, draws: seq<seq<Cell>>)
  {
    |placed| <= |draws| &&
    forall i :: 0 <= i < |placed| ==> placed[i] == FirstValid(PlaceAll(m, placed[..i]), PlayerName(i), draws[i])
  }

  lemma EachFirstValidExtend(m: MapState, placed: seq<Option<Cell>>, draws: seq<seq<Cell>>, next: Option<Cell>)
    requires EachFirstValid(m, placed, draws) && |placed| < |draws|
    requires next == FirstValid(PlaceAll(m, placed), PlayerName(|placed|), draws[|placed|])
    ensures EachFirstValid(m, placed + [next], draws)
    ensures PlaceAll(m, placed + [next]) == if next.Some? then Place(PlaceAll(m, placed), |placed|, next.value) else PlaceAll(m, placed)
  {
    var placed' := placed + [next];
    assert placed'[..|placed|] == placed;
    forall i | 0 <= i < |placed'|
      ensures placed'[i] == FirstValid(PlaceAll(m, placed'[..i]), PlayerName(i), draws[i])
    {
      if i < |placed| {
        assert placed'[..i] == placed[..i];
      }
    }
  }

  /** No placed house is too close to a house of another player that stood on the map before the call. */
  predicate ClearOfStartingHouses(m: MapState, placed: seq<Option<Cell>>)
  {
    forall i, k :: 0 <= i < |placed| && placed[i].Some? && k in m.houses && m.houses[k].playerId != PlayerName(i) ==>
      !Blocks(k, placed[i].value)
  }

  /** A key among the placed keys was made from one of the placed cells. */
  lemma {:induction false} PlacedKeyOwner(placed: seq<Option<Cell>>, k: string)
    requires k in PlacedKeys(placed)
    ensures exists a :: 0 <= a < |placed| && placed[a].Some? && CreateKey(placed[a].value) == k
  {
    var n := |placed| - 1;
    if k in PlacedKeys(placed[..n]) {
      PlacedKeyOwner(placed[..n], k);
      var a :| 0 <= a < n && placed[..n][a].Some? && CreateKey(placed[..n][a].value) == k;
      assert placed[a] == placed[..n][a];
    } else {
      assert placed[n].Some? && CreateKey(placed[n].value) == k;
    }
  }

  /**
   * A cell valid on the current map is clear of every starting house of another
   * player: such a house is either still there, or was overwritten by an
   * earlier player's house, whose owner also differs.
   */
  lemma PlaceKeepsClear(m: MapState, m': MapState, placed: seq<Option<Cell>>, c: Cell)
    requires FrameKept(m, m', placed) && HousesKept(m, m', placed) && ClearOfStartingHouses(m, placed)
    requires IsValidHousePosition(m', c, PlayerName(|placed|))
    ensures ClearOfStartingHouses(m, placed + [Some(c)])
  {
    var placed' := placed + [Some(c)];
    forall i, k | 0 <= i < |placed'| && placed'[i].Some? && k in m.houses && m.houses[k].playerId != PlayerName(i)
      ensures !Blocks(k, placed'[i].value)
    {
      if i < |placed| {
        assert placed'[i] == placed[i];
      } else {
        assert placed'[i] == Some(c);
        StartingHouseStillOther(m, m', placed, k);
        ValidNotBlocked(m', c, PlayerName(|placed|), k);
      }
    }
  }

  /** A starting house of a player other than the next one is still, under the same key, a house of another player. */
  lemma StartingHouseStillOther(m: MapState, m': MapState, placed: seq<Option<Cell>>, k: string)
    requires FrameKept(m, m', placed) && HousesKept(m, m', placed)
    requires k in m.houses && m.houses[k].playerId != PlayerName(|placed|)
    ensures k in m'.houses && m'.houses[k].playerId != PlayerName(|placed|)
  {
    if k in PlacedKeys(placed) {
      PlacedKeyOwner(placed, k);
      var a :| 0 <= a < |placed| && placed[a].Some? && CreateKey(placed[a].value) == k;
      DistinctPlayerNames(a, |placed|);
    }
  }

  lemma SkipKeepsClear(m: MapState, placed: seq<Option<Cell>>)
    requires ClearOfStartingHouses(m, placed)
    ensures ClearOfStartingHouses(m, placed + [None])
  {
    var placed' := placed + [None];
    forall i | 0 <= i < |placed| ensures placed'[i] == placed[i] { }
  }

  /**
   * `spawnHouses(numPlayers)`: for each player in turn, up to 100 drawn cells
   * of their zone are tried and the house goes on the first one valid on the map
   * as it stands at their turn (houses already on the map included), clearing
   * any object there. `draws[i]` are player `i`'s drawn cells, and
   * `placed[i]` where their house went.
   */
  method SpawnHouses(m: MapState, numPlayers: int, draws: seq<seq<Cell>>) returns (m': MapState, placed: seq<Option<Cell>>)
    requires m.rows >= 0 && m.cols >= 0
    requires |draws| >= numPlayers
    requires forall i :: 0 <= i < numPlayers ==> |draws[i]| == MaxAttempts
    ensures |placed| == if numPlayers > 0 then numPlayers else 0
    ensures DrawnFrom(placed, draws)
    ensures FrameKept(m, m', placed)
    ensures HousesKept(m, m', placed)
    ensures HousesApart(placed)
    ensures ClearOfStartingHouses(m, placed)
    ensures m' == PlaceAll(m, placed)
    ensures EachFirstValid(m, placed, draws)
  {
    m' := m;
    placed := [];
    var i := 0;
    while i < numPlayers
      invariant 0 <= i && i == |placed|
      invariant i <= if numPlayers > 0 then numPlayers else 0
      invariant FrameKept(m, m', placed) && HousesKept(m, m', placed) && HousesApart(placed)
      invariant DrawnFrom(placed, draws)
      invariant ClearOfStartingHouses(m, placed)
      invariant m' == PlaceAll(m, placed) && EachFirstValid(m, placed, draws)
    {
      var spot := FirstValid(m', PlayerName(i), draws[i]);
      EachFirstValidExtend(m, placed, draws, spot);
      match spot {
        case Some(c) =>
          PlaceKeepsClear(m, m', placed, c);
          PlaceKeepsFrame(m, m', placed, c);
          PlaceKeepsHouses(m, m', placed, c);
          PlaceKeepsApart(m, m', placed, c);
          DrawnFromExtend(placed, draws, Some(c));
          m' := Place(m', i, c);
          placed := placed + [Some(c)];
        case None =>
          SkipKeeps(m, m', placed);
          SkipKeepsClear(m, placed);
          DrawnFromExtend(placed, draws, None);
          placed := placed + [None];
      }
      i := i + 1;
    }
  }

  /** With every draw taken from the player's spawn zone, every house lands in its owner's zone. */
  lemma PlacedInOwnZone(rows: nat, cols: nat, numPlayers: int, draws: seq<seq<Cell>>, placed: seq<Option<Cell>>, i: nat)
    requires |draws| >= numPlayers && |placed| <= numPlayers
    requires forall p, a :: 0 <= p < numPlayers && 0 <= a < |draws[p]| ==> DrawnIn(GetSpawnZones(rows, cols, numPlayers)[p], draws[p][a])
    requires DrawnFrom(placed, draws)
    requires i < |placed| && placed[i].Some?
    ensures i < |GetSpawnZones(rows, cols, numPlayers)|
    ensures DrawnIn(GetSpawnZones(rows, cols, numPlayers)[i], placed[i].value)
  {
    var zones := GetSpawnZones(rows, cols, numPlayers);
    assert i < |zones|;
    var a :| 0 <= a < |draws[i]| && draws[i][a] == placed[i].value;
  }

  // ---------------------------------------------------------------------------
  // Cells
  // ---------------------------------------------------------------------------

  /** A field of an update: absent (`undefined`), `null`, or a value. */
  datatype Field<T> = Absent | Null | Given(value: T)

  /** Objects and houses are JavaScript objects, so any given one is truthy; a terrain name is truthy when non-empty. */
  datatype CellUpdate = CellUpdate(terrain: Field<string>, obj: Field<MapObject>, house: Field<House>)

  /** The rule `updateCell` applies to the object and house maps: set when given, delete on `null`, keep when absent. */
  function ApplyField<T>(entries: map<string, T>, key: string, f: Field<T>): (r: map<string, T>)
    ensures forall k :: k != key ==> (k in r <==> k in entries) && (k in r ==> r[k] == entries[k])
    ensures f.Given? ==> key in r && r[key] == f.value
    ensures f.Null? ==> key !in r
    ensures f.Absent? ==> (key in r <==> key in entries) && (key in r ==> r[key] == entries[key])
  {
    match f
    case Given(v) => entries[key := v]
    case Null => entries - {key}
    case Absent => entries
  }

  /** `updateCell(row, col, updates)`: a truthy terrain replaces the old one; objects and houses follow `ApplyField`. */
  function UpdateCell(m: MapState, c: Cell, u: CellUpdate): (m': MapState)
    ensures m'.rows == m.rows && m'.cols == m.cols
    ensures forall k :: k != CreateKey(c) ==> (k in m'.terrain <==> k in m.terrain) && (k in m'.terrain ==> m'.terrain[k] == m.terrain[k])
    ensures u.terrain.Given? && u.terrain.value != "" ==> CreateKey(c) in m'.terrain && m'.terrain[CreateKey(c)] == u.terrain.value
    ensures !(u.terrain.Given? && u.terrain.value != "") ==> m'.terrain == m.terrain
    ensures m'.objects == ApplyField(m.objects, CreateKey(c), u.obj)
    ensures m'.houses == ApplyField(m.houses, CreateKey(c), u.house)
  {
    var key := CreateKey(c);
    var terrain := if u.terrain.Given? && u.terrain.value != "" then m.terrain[key := u.terrain.value] else m.terrain;
    m.(terrain := terrain, objects := ApplyField(m.objects, key, u.obj), houses := ApplyField(m.houses, key, u.house))
  }

  datatype Tile = Tile(terrain: string, obj: Option<MapObject>, house: Option<House>)

  function Lookup<T>(entries: map<string, T>, key: string): Option<T>
  {
    if key in entries then Some(entries[key]) else None
  }

  /** `getTile(row, col)`: the stored terrain, or grass when it is missing or empty, with the object and house stored there. */
  function GetTile(m: MapState, c: Cell): (t: Tile)
    ensures t.terrain != ""
    ensures CreateKey(c) in m.terrain && m.terrain[CreateKey(c)] != "" ==> t.terrain == m.terrain[CreateKey(c)]
    ensures t.obj.Some? <==> CreateKey(c) in m.objects
    ensures t.house.Some? <==> CreateKey(c) in m.houses
  {
    var key := CreateKey(c);
    var stored := Lookup(m.terrain, key);
    Tile(if stored.Some? && stored.value != "" then stored.value else Name(Grass), Lookup(m.objects, key), Lookup(m.houses, key))
  }

  /** One cell of `getMapState`: object type and count flattened, count 0 when there is no object. */
  datatype CellView = CellView(terrain: string, obj: Option<string>, objectCount: int, house: Option<House>)

  /** A cell as `getMapState` fills it: start from grass and no object or house, then copy what is stored. */
  function CellViewAt(m: MapState, row: int, col: int): CellView
  {
    var key := CreateKey(Cell(row, col));
    var view := CellView(Name(Grass), None, 0, None);
    var view := if key in m.terrain && m.terrain[key] != "" then view.(terrain := m.terrain[key]) else view;
    var view := if key in m.objects then view.(obj := Some(m.objects[key].kind), objectCount := m.objects[key].count) else view;
    if key in m.houses then view.(house := Some(m.houses[key])) else view
  }

  /** `getMapState()`: a `ROWS × COLS` grid of cells. */
  function GetMapState(m: MapState): (grid: seq<seq<CellView>>)
    requires m.rows >= 0 && m.cols >= 0
    ensures |grid| == m.rows && forall r :: 0 <= r < m.rows ==> |grid[r]| == m.cols
  {
    seq(m.rows, r requires 0 <= r < m.rows => seq(m.cols, c requires 0 <= c < m.cols => CellViewAt(m, r, c)))
  }

  /** The whole-map view and the single-tile view agree on every cell of the map. */
  lemma MapStateAgreesWithTiles(m: MapState, r: int, c: int)
    requires m.rows >= 0 && m.cols >= 0
    requires 0 <= r < m.rows && 0 <= c < m.cols
    ensures var v := GetMapState(m)[r][c];
            var t := GetTile(m, Cell(r, c));
            && v.terrain == t.terrain
            && v.house == t.house
            && (t.obj.None? ==> v.obj.None? && v.objectCount == 0)
            && (t.obj.Some? ==> v.obj == Some(t.obj.value.kind) && v.objectCount == t.obj.value.count)
  {
  }

  /** After `updateCell`, the updated tile shows the update and every other tile is unchanged. */
  lemma UpdateCellThenGetTile(m: MapState, c: Cell, u: CellUpdate, d: Cell)
    ensures var t := GetTile(UpdateCell(m, c, u), d);
            var before := GetTile(m, d);
            if d == c then
              && t.terrain == (if u.terrain.Given? && u.terrain.value != "" then u.terrain.value else before.terrain)
              && t.obj == (match u.obj case Given(o) => Some(o) case Null => None case Absent => before.obj)
              && t.house == (match u.house case Given(h) => Some(h) case Null => None case Absent => before.house)
            else t == before
  {
    if d != c {
      DistinctCellsDistinctKeys(c, d);
    }
  }

  lemma DistinctCellsDistinctKeys(c: Cell, d: Cell)
    requires c != d
    ensures CreateKey(c) != CreateKey(d)
  {
    if CreateKey(c) == CreateKey(d) {
      CreateKeyInjective(c, d);
    }
  }
}

=== FILE: terrain_gen.dfy ===
/**
 * The terrain and object layers of the two client map generators:
 * Frontend/src/gamePages/Game.jsx (the routed page, `Routed`) and
 * Frontend/src/pages/Game.jsx (the unrouted page, `Unrouted`). They differ in
 * map height, in the terrains they draw and in their adjacency table. Every
 * random draw is a parameter.
 */
module TerrainGen {
  import opened Wrappers
  import Seqs
  import opened Terrains

  datatype Variant = Routed | Unrouted

  /** `ROWS`: 20 for two players, 5 (routed) or 10 (unrouted) more per extra player; `COLS` is 30. */
  function MapRows(v: Variant, numPlayers: int): (rows: int)
    ensures rows >= 20
    ensures numPlayers <= 2 ==> rows == 20
  {
    var extra := if numPlayers - 2 > 0 then numPlayers - 2 else 0;
    20 + extra * (if v == Routed then 5 else 10)
  }

  const MapCols: int := 30

  /** Each extra player adds 5 rows on the routed page and 10 on the unrouted one. */
  lemma MapRowsGrowth(v: Variant, n: int)
    requires n >= 2
    ensures MapRows(v, n + 1) - MapRows(v, n) == if v == Routed then 5 else 10
  {
  }

  /** The keys of `TERRAIN_WEIGHTS`, which are the only terrains `getRandomTerrain` returns. */
  function Generated(v: Variant): set<Terrain>
  {
    if v == Routed then {Grass, Land, Rock, Lake, Lava} else {Grass, Land, Rock, Lake}
  }

  /** `TERRAIN_RULES[type]`: the terrains a cell of `type` may touch. */
  function Rules(v: Variant, t: Terrain): set<Terrain>
    requires t in Generated(v)
  {
    match t
    case Lake => {Lake, Grass}
    case Rock => if v == Routed then {Rock, Mountain, Land, Lava} else {Rock, Mountain, Land}
    case Grass => {Grass, Lake, Land}
    case Land => {Land, Grass, Rock}
    case Lava => {Rock}
  }

  /** Among generated terrains, adjacency is symmetric: a may touch b exactly when b may touch a. */
  lemma RulesSymmetric(v: Variant, a: Terrain, b: Terrain)
    requires a in Generated(v) && b in Generated(v)
    ensures b in Rules(v, a) <==> a in Rules(v, b)
  {
  }

  /** Mountain is allowed next to rock but never drawn. */
  lemma MountainNeverGenerated(v: Variant)
    ensures Mountain !in Generated(v)
  {
  }

  // ---------------------------------------------------------------------------
  // isValidTerrain
  // ---------------------------------------------------------------------------

  /** A grid being filled: `None` is a cell not filled yet. */
  type Grid = seq<seq<Option<Terrain>>>

  predicate Rectangular<T>(g: seq<seq<T>>, cols: nat)
  {
    forall r :: 0 <= r < |g| ==> |g[r]| == cols
  }

  /** The terrain at `(r, c)` when it is inside the grid and filled. */
  function FilledAt(g: Grid, r: int, c: int): Option<Terrain>
  {
    if 0 <= r < |g| && |g| > 0 && 0 <= c < |g[0]| && c < |g[r]| then g[r][c] else None
  }

  /** The four neighbours in the order the source checks them: up, down, left, right. */
  function Neighbours(r: int, c: int): seq<(int, int)>
  {
    [(r - 1, c), (r + 1, c), (r, c - 1), (r, c + 1)]
  }

  /** The loop of `isValidTerrain` from neighbour `k` on: stop at the first filled neighbour the rules forbid. */
  function CheckNeighbours(v: Variant, g: Grid, t: Terrain, ns: seq<(int, int)>, k: nat): bool
    requires t in Generated(v) && k <= |ns|
    decreases |ns| - k
  {
    if k == |ns| then true
    else
      var adjacent := FilledAt(g, ns[k].0, ns[k].1);
      if adjacent.Some? && adjacent.value !in Rules(v, t) then false
      else CheckNeighbours(v, g, t, ns, k + 1)
  }

  /** `isValidTerrain(map, row, col, type)`. */
  function IsValidTerrain(v: Variant, g: Grid, r: int, c: int, t: Terrain): bool
    requires t in Generated(v)
  {
    CheckNeighbours(v, g, t, Neighbours(r, c), 0)
  }

  /** A neighbour does not object to `t` when it is outside, unfilled, or allowed. */
  predicate Accepts(v: Variant, neighbour: Option<Terrain>, t: Terrain)
    requires t in Generated(v)
  {
    neighbour.None? || neighbour.value in Rules(v, t)
  }

  lemma {:induction false} CheckNeighboursMeans(v: Variant, g: Grid, t: Terrain, ns: seq<(int, int)>, k: nat)
    requires t in Generated(v) && k <= |ns|
    ensures CheckNeighbours(v, g, t, ns, k) <==> forall j :: k <= j < |ns| ==> Accepts(v, FilledAt(g, ns[j].0, ns[j].1), t)
    decreases |ns| - k
  {
    if k < |ns| {
      CheckNeighboursMeans(v, g, t, ns, k + 1);
    }
  }

  /**
   * `isValidTerrain` holds exactly when each of the four orthogonal neighbours
   * is off the grid, not filled, or allowed next to `type` by the rules.
   */
  lemma IsValidTerrainMeans(v: Variant, g: Grid, r: int, c: int, t: Terrain)
    requires t in Generated(v)
    ensures IsValidTerrain(v, g, r, c, t) <==>
              && Accepts(v, FilledAt(g, r - 1, c), t) && Accepts(v, FilledAt(g, r + 1, c), t)
              && Accepts(v, FilledAt(g, r, c - 1), t) && Accepts(v, FilledAt(g, r, c + 1), t)
  {
    var ns := Neighbours(r, c);
    CheckNeighboursMeans(v, g, t, ns, 0);
    assert ns[0] == (r - 1, c) && ns[1] == (r + 1, c) && ns[2] == (r, c - 1) && ns[3] == (r, c + 1);
  }

  // ---------------------------------------------------------------------------
  // The terrain layer of generateMap
  // ---------------------------------------------------------------------------

  const MaxTerrainAttempts: nat := 20

  /** All draws are terrains `getRandomTerrain` can return. */
  predicate Drawable(v: Variant, draws: seq<Terrain>)
  {
    forall k :: 0 <= k < |draws| ==> draws[k] in Generated(v)
  }

  /**
   * The do-while from attempt `k` on: keep the first draw that
   * `isValidTerrain` accepts; when every draw is refused, the cell is grass.
   */
  function Settle(v: Variant, g: Grid, r: int, c: int, draws: seq<Terrain>, k: nat): (t: Terrain)
    requires Drawable(v, draws) && k <= |draws|
    ensures t in Generated(v)
    ensures t == Grass || (t in draws[k..] && IsValidTerrain(v, g, r, c, t))
    decreases |draws| - k
  {
    if k == |draws| then Grass
    else if IsValidTerrain(v, g, r, c, draws[k]) then draws[k]
    else Settle(v, g, r, c, draws, k + 1)
  }

  /** The first draw from `k` on that the cells above and to the left accept, or grass. */
  function Pick(v: Variant, draws: seq<Terrain>, up: Option<Terrain>, left: Option<Terrain>, k: nat): (t: Terrain)
    requires Drawable(v, draws) && k <= |draws|
    ensures t in Generated(v)
    decreases |draws| - k
  {
    if k == |draws| then Grass
    else if Accepts(v, up, draws[k]) && Accepts(v, left, draws[k]) then draws[k]
    else Pick(v, draws, up, left, k + 1)
  }

  function Above(g: Grid, r: int, c: int): Option<Terrain>
  {
    FilledAt(g, r - 1, c)
  }

  function LeftOf(g: Grid, r: int, c: int): Option<Terrain>
  {
    FilledAt(g, r, c - 1)
  }

  /** Cells before `(r, c)` in row-major order are filled, the others are not. */
  predicate FilledBefore(g: Grid, rows: nat, cols: nat, r: nat, c: nat)
  {
    && |g| == rows && Rectangular(g, cols)
    && forall i, j :: 0 <= i < rows && 0 <= j < cols ==> (g[i][j].Some? <==> i < r || (i == r && j < c))
  }

  lemma {:induction false} SettleAgrees(v: Variant, g: Grid, r: int, c: int, draws: seq<Terrain>, k: nat)
    requires Drawable(v, draws) && k <= |draws|
    requires forall d :: d in Generated(v) ==>
               (IsValidTerrain(v, g, r, c, d) <==> Accepts(v, Above(g, r, c), d) && Accepts(v, LeftOf(g, r, c), d))
    ensures Settle(v, g, r, c, draws, k) == Pick(v, draws, Above(g, r, c), LeftOf(g, r, c), k)
    decreases |draws| - k
  {
    if k < |draws| {
      SettleAgrees(v, g, r, c, draws, k + 1);
    }
  }

  /** While filling `(r, c)`, the cells below and to the right are still empty, so only above and left can object. */
  lemma SettleIsPick(v: Variant, g: Grid, rows: nat, cols: nat, r: nat, c: nat, draws: seq<Terrain>)
    requires r < rows && c < cols && FilledBefore(g, rows, cols, r, c)
    requires Drawable(v, draws)
    ensures Settle(v, g, r, c, draws, 0) == Pick(v, draws, Above(g, r, c), LeftOf(g, r, c), 0)
  {
    assert FilledAt(g, r + 1, c).None? by {
      if r + 1 < rows { assert g[r + 1][c].None?; }
    }
    assert FilledAt(g, r, c + 1).None? by {
      if c + 1 < cols { assert g[r][c + 1].None?; }
    }
    forall d | d in Generated(v)
      ensures IsValidTerrain(v, g, r, c, d) <==> Accepts(v, Above(g, r, c), d) && Accepts(v, LeftOf(g, r, c), d)
    {
      IsValidTerrainMeans(v, g, r, c, d);
    }
    SettleAgrees(v, g, r, c, draws, 0);
  }

  /** All draws of every cell of a `rows × cols` grid are drawable. */
  predicate DrawTable(v: Variant, draws: seq<seq<seq<Terrain>>>, rows: nat, cols: nat)
  {
    && |draws| == rows && Rectangular(draws, cols)
    && forall i, j :: 0 <= i < rows && 0 <= j < cols ==> Drawable(v, draws[i][j])
  }

  /** A filled cell `(i, j)` of the partial grid holds the pick for its draws and its upper and left neighbours. */
  predicate SettledAt(v: Variant, g: Grid, draws: seq<seq<seq<Terrain>>>, rows: nat, cols: nat, i: nat, j: nat)
    requires |g| == rows && Rectangular(g, cols) && DrawTable(v, draws, rows, cols)
    requires i < rows && j < cols
  {
    g[i][j].Some? ==> g[i][j].value == Pick(v, draws[i][j], Above(g, i, j), LeftOf(g, i, j), 0)
  }

  predicate Settled(v: Variant, g: Grid, draws: seq<seq<seq<Terrain>>>, rows: nat, cols: nat)
    requires |g| == rows && Rectangular(g, cols) && DrawTable(v, draws, rows, cols)
  {
    forall i: nat, j: nat :: i < rows && j < cols ==> SettledAt(v, g, draws, rows, cols, i, j)
  }

  /** The finished grid's cell `(i, j)` is the pick for its draws and the finished cells above and to the left. */
  predicate PickedAt(v: Variant, grid: seq<seq<Terrain>>, draws: seq<seq<seq<Terrain>>>, rows: nat, cols: nat, i: nat, j: nat)
    requires |grid| == rows && Rectangular(grid, cols) && DrawTable(v, draws, rows, cols)
    requires i < rows && j < cols
  {
    grid[i][j] == Pick(v, draws[i][j], if i > 0 then Some(grid[i - 1][j]) else None,
                                       if j > 0 then Some(grid[i][j - 1]) else None, 0)
  }

  /**
   * The terrain layer of `generateMap`, filling a `rows × cols` grid row by row:
   * cell `(r, c)` has 20 draws `draws[r][c]`; the do-while stops at the first
   * one `isValidTerrain` accepts and the cell takes it, or grass when all 20
   * are refused (draws after the accepted one are never made).
   */
  method GenerateTerrain(v: Variant, rows: nat, cols: nat, draws: seq<seq<seq<Terrain>>>) returns (grid: seq<seq<Terrain>>)
    requires DrawTable(v, draws, rows, cols)
    requires forall i, j :: 0 <= i < rows && 0 <= j < cols ==> |draws[i][j]| == MaxTerrainAttempts
    ensures |grid| == rows && Rectangular(grid, cols)
    ensures forall i: nat, j: nat :: i < rows && j < cols ==> PickedAt(v, grid, draws, rows, cols, i, j)
  {
    var g: Grid := seq(rows, _ => seq(cols, _ => None));
    var r := 0;
    while r < rows
      invariant r <= rows
      invariant FilledBefore(g, rows, cols, r, 0)
      invariant Settled(v, g, draws, rows, cols)
    {
      var c := 0;
      while c < cols
        invariant c <= cols
        invariant FilledBefore(g, rows, cols, r, c)
        invariant Settled(v, g, draws, rows, cols)
      {
        var t := Settle(v, g, r, c, draws[r][c], 0);
        SettleIsPick(v, g, rows, cols, r, c, draws[r][c]);
        FillKeepsSettled(v, g, draws, rows, cols, r, c, t);
        g := g[r := g[r][c := Some(t)]];
        c := c + 1;
      }
      RowDone(g, rows, cols, r);
      r := r + 1;
    }
    grid := Unwrap(g, rows, cols);
    UnwrapPicked(v, g, draws, rows, cols);
  }

  lemma RowDone(g: Grid, rows: nat, cols: nat, r: nat)
    requires r < rows && FilledBefore(g, rows, cols, r, cols)
    ensures FilledBefore(g, rows, cols, r + 1, 0)
  {
  }

  /** The finished grid without its `Some` wrappers. */
  function Unwrap(g: Grid, rows: nat, cols: nat): (grid: seq<seq<Terrain>>)
    requires FilledBefore(g, rows, cols, rows, 0)
    ensures |grid| == rows && Rectangular(grid, cols)
    ensures forall i, j :: 0 <= i < rows && 0 <= j < cols ==> g[i][j] == Some(grid[i][j])
  {
    seq(rows, i requires 0 <= i < rows => seq(cols, j requires 0 <= j < cols => g[i][j].value))
  }

  lemma UnwrapPicked(v: Variant, g: Grid, draws: seq<seq<seq<Terrain>>>, rows: nat, cols: nat)
    requires FilledBefore(g, rows, cols, rows, 0) && DrawTable(v, draws, rows, cols)
    requires Settled(v, g, draws, rows, cols)
    ensures forall i: nat, j: nat :: i < rows && j < cols ==> PickedAt(v, Unwrap(g, rows, cols), draws, rows, cols, i, j)
  {
    var grid := Unwrap(g, rows, cols);
    forall i: nat, j: nat | i < rows && j < cols
      ensures PickedAt(v, grid, draws, rows, cols, i, j)
    {
      assert SettledAt(v, g, draws, rows, cols, i, j);
      assert Above(g, i, j) == if i > 0 then Some(grid[i - 1][j]) else None;
      assert LeftOf(g, i, j) == if j > 0 then Some(grid[i][j - 1]) else None;
    }
  }

  /** Filling `(r, c)` with its pick keeps every filled cell settled. */
  lemma FillKeepsSettled(v: Variant, g: Grid, draws: seq<seq<seq<Terrain>>>, rows: nat, cols: nat, r: nat, c: nat, t: Terrain)
    requires r < rows && c < cols && FilledBefore(g, rows, cols, r, c)
    requires DrawTable(v, draws, rows, cols)
    requires Settled(v, g, draws, rows, cols)
    requires t == Pick(v, draws[r][c], Above(g, r, c), LeftOf(g, r, c), 0)
    ensures FilledBefore(g[r := g[r][c := Some(t)]], rows, cols, r, c + 1)
    ensures Settled(v, g[r := g[r][c := Some(t)]], draws, rows, cols)
  {
    var g': Grid := g[r := g[r][c := Some(t)]];
    forall i: nat, j: nat | i < rows && j < cols
      ensures SettledAt(v, g', draws, rows, cols, i, j)
    {
      if i == r && j == c {
        assert Above(g', i, j) == Above(g, i, j);
        assert LeftOf(g', i, j) == LeftOf(g, i, j);
      } else if g'[i][j].Some? {
        assert g'[i][j] == g[i][j];
        assert SettledAt(v, g, draws, rows, cols, i, j);
        FilledAtOutside(g, rows, cols, r, c, t, i - 1, j);
        FilledAtOutside(g, rows, cols, r, c, t, i, j - 1);
      }
    }
  }

  /** Filling one cell leaves what every other position reads unchanged. */
  lemma FilledAtOutside(g: Grid, rows: nat, cols: nat, r: nat, c: nat, t: Terrain, i: int, j: int)
    requires |g| == rows && Rectangular(g, cols) && r < rows && c < cols
    requires i != r || j != c
    ensures FilledAt(g[r := g[r][c := Some(t)]], i, j) == FilledAt(g, i, j)
  {
  }

  /**
   * Every generated cell is grass or one of its own draws, and a drawn (non-grass)
   * cell is allowed next to the cell above it and the cell to its left.
   */
  lemma {:induction false} GeneratedCellsRespectRules(v: Variant, draws: seq<Terrain>, up: Option<Terrain>, left: Option<Terrain>, k: nat)
    requires Drawable(v, draws) && k <= |draws|
    ensures var t := Pick(v, draws, up, left, k);
            t == Grass || (t in draws[k..] && Accepts(v, up, t) && Accepts(v, left, t))
    decreases |draws| - k
  {
    if k < |draws| {
      GeneratedCellsRespectRules(v, draws, up, left, k + 1);
    }
  }

  /**
   * The grass fallback is not checked against the neighbours: on the routed
   * page a cell below lava whose 20 draws are all grass becomes grass, which
   * the rules do not allow next to lava.
   */
  lemma GrassFallbackIsUnchecked()
    ensures var draws := seq(MaxTerrainAttempts, _ => Grass);
            Pick(Routed, draws, Some(Lava), None, 0) == Grass && !Accepts(Routed, Some(Lava), Grass)
  {
    var draws := seq(MaxTerrainAttempts, _ => Grass);
    NoDrawAccepted(Routed, draws, Some(Lava), None, 0);
  }

  lemma {:induction false} NoDrawAccepted(v: Variant, draws: seq<Terrain>, up: Option<Terrain>, left: Option<Terrain>, k: nat)
    requires Drawable(v, draws) && k <= |draws|
    requires forall j :: k <= j < |draws| ==> !(Accepts(v, up, draws[j]) && Accepts(v, left, draws[j]))
    ensures Pick(v, draws, up, left, k) == Grass
    decreases |draws| - k
  {
    if k < |draws| {
      NoDrawAccepted(v, draws, up, left, k + 1);
    }
  }

  // ---------------------------------------------------------------------------
  // getRandomObject
  // ---------------------------------------------------------------------------

  /**
   * The random outcomes for one candidate object: whether its spawn roll
   * succeeded, and which row of its count table the count roll fell in (3 or
   * more when it fell past the table).
   */
  datatype ObjectDraw = ObjectDraw(spawned: bool, countSlot: nat)

  /** The object kinds `OBJECT_RULES` allows on `t`, in key order. */
  function PossibleObjects(t: Terrain): (ks: seq<ObjectKind>)
    ensures forall k :: k in ks <==> k in ObjectKinds && t in ObjectTerrains(k)
  {
    Seqs.Filter(ObjectKinds, (k: ObjectKind) => t in ObjectTerrains(k))
  }

  datatype Spawned = Spawned(kind: ObjectKind, count: nat)

  /** A candidate gets an object when its spawn roll succeeds and its count roll lands in the table. */
  predicate Fires(d: ObjectDraw)
  {
    d.spawned && d.countSlot < 3
  }

  /** The loop over candidate kinds from `k` on, each consuming its own draw. */
  function ObjectFrom(kinds: seq<ObjectKind>, draws: seq<ObjectDraw>, k: nat): (r: Option<Spawned>)
    requires k <= |kinds| <= |draws|
    ensures r.Some? ==> r.value.kind in kinds[k..] && 1 <= r.value.count <= 3
    decreases |kinds| - k
  {
    if k == |kinds| then None
    else if Fires(draws[k]) then Some(Spawned(kinds[k], draws[k].countSlot + 1))
    else ObjectFrom(kinds, draws, k + 1)
  }

  /**
   * The loop returns nothing exactly when no candidate from `k` on fires, and
   * otherwise the first one that does, with the count of its table row.
   */
  lemma {:induction false} ObjectFromIsFirst(kinds: seq<ObjectKind>, draws: seq<ObjectDraw>, k: nat)
    requires k <= |kinds| <= |draws|
    ensures ObjectFrom(kinds, draws, k).None? <==> forall j :: k <= j < |kinds| ==> !Fires(draws[j])
    ensures ObjectFrom(kinds, draws, k).Some? ==>
              exists j :: k <= j < |kinds| && Fires(draws[j])
                          && ObjectFrom(kinds, draws, k).value == Spawned(kinds[j], draws[j].countSlot + 1)
                          && forall i :: k <= i < j ==> !Fires(draws[i])
    decreases |kinds| - k
  {
    if k < |kinds| {
      var r := ObjectFrom(kinds, draws, k);
      if Fires(draws[k]) {
        assert r.value == Spawned(kinds[k], draws[k].countSlot + 1);
      } else {
        ObjectFromIsFirst(kinds, draws, k + 1);
        if r.Some? {
          var j :| k + 1 <= j < |kinds| && Fires(draws[j]) && r.value == Spawned(kinds[j], draws[j].countSlot + 1)
                   && forall i :: k + 1 <= i < j ==> !Fires(draws[i]);
          assert forall i :: k <= i < j ==> !Fires(draws[i]);
        }
      }
    }
  }

  /**
   * `getRandomObject(terrain)` of both client pages: `null` when no object may
   * lie on the terrain; otherwise the first candidate whose spawn roll succeeds
   * and whose count roll lands in its table, with count 1, 2 or 3.
   */
  function GetRandomObject(t: Terrain, draws: seq<ObjectDraw>): (r: Option<Spawned>)
    requires |draws| >= |PossibleObjects(t)|
    ensures r.Some? ==> t in ObjectTerrains(r.value.kind) && 1 <= r.value.count <= 3
    ensures PossibleObjects(t) == [] ==> r.None?
    ensures r.None? <==> forall j :: 0 <= j < |PossibleObjects(t)| ==> !Fires(draws[j])
    ensures r.Some? ==> exists j :: 0 <= j < |PossibleObjects(t)| && Fires(draws[j])
                                    && r.value == Spawned(PossibleObjects(t)[j], draws[j].countSlot + 1)
                                    && forall i :: 0 <= i < j ==> !Fires(draws[i])
  {
    ObjectFromIsFirst(PossibleObjects(t), draws, 0);
    ObjectFrom(PossibleObjects(t), draws, 0)
  }

  /** Only grass (trees) and rock (stone, gold) can carry objects. */
  lemma ObjectsOnlyOnGrassAndRock(t: Terrain, draws: seq<ObjectDraw>)
    requires |draws| >= |PossibleObjects(t)|
    requires t != Grass && t != Rock
    ensures GetRandomObject(t, draws).None?
  {
  }
}

=== FILE: terrains.dfy ===
/**
 * Terrain and object kinds shared by the map server and both client map
 * generators. The sources use the strings; `Name` gives each kind its string.
 */
module Terrains {
  import opened Wrappers

  datatype Terrain = Grass | Land | Rock | Lake | Lava | Mountain

  function Name(t: Terrain): string
  {
    match t
    case Grass => "grass"
    case Land => "land"
    case Rock => "rock"
    case Lake => "lake"
    case Lava => "lava"
    case Mountain => "mountain"
  }

  /** The terrain a string names, if any. */
  function FromName(s: string): (r: Option<Terrain>)
    ensures r.Some? ==> Name(r.value) == s
  {
    if s == "grass" then Some(Grass)
    else if s == "land" then Some(Land)
    else if s == "rock" then Some(Rock)
    else if s == "lake" then Some(Lake)
    else if s == "lava" then Some(Lava)
    else if s == "mountain" then Some(Mountain)
    else None
  }

  lemma FromNameOfName(t: Terrain)
    ensures FromName(Name(t)) == Some(t)
  {
  }

  datatype ObjectKind = Tree | Stone | Gold

  function ObjectName(k: ObjectKind): string
  {
    match k
    case Tree => "tree"
    case Stone => "stone"
    case Gold => "gold"
  }

  /** `OBJECT_RULES`, in its key order: trees grow on grass, stone and gold lie on rock. */
  const ObjectKinds: seq<ObjectKind> := [Tree, Stone, Gold]

  function ObjectTerrains(k: ObjectKind): set<Terrain>
  {
    match k
    case Tree => {Grass}
    case Stone => {Rock}
    case Gold => {Rock}
  }
}

=== FILE: text.dfy ===
/**
 * The JavaScript string and number primitives the rest of the model relies on:
 * decimal rendering of integers (template literals), `parseInt` without a radix,
 * `Number` on integer literals, `split`, `startsWith` and ASCII `toUpperCase`.
 */
module Text {
  import opened Wrappers

  /** The digit value of a character in bases up to 36; 36 for a non-digit. */
  function DigitOf(c: char): nat
  {
    if '0' <= c <= '9' then (c as int) - ('0' as int)
    else if 'a' <= c <= 'z' then (c as int) - ('a' as int) + 10
    else if 'A' <= c <= 'Z' then (c as int) - ('A' as int) + 10
    else 36
  }

  predicate IsDigitIn(c: char, base: nat)
  {
    DigitOf(c) < base
  }

  predicate AllDigitsIn(s: string, base: nat)
  {
    forall i :: 0 <= i < |s| ==> IsDigitIn(s[i], base)
  }

  /** Value of a digit string in `base`, most significant digit first. */
  function ValueIn(s: string, base: nat): nat
    requires AllDigitsIn(s, base)
  {
    if |s| == 0 then 0 else ValueIn(s[..|s| - 1], base) * base + DigitOf(s[|s| - 1])
  }

  /** The decimal digit character for `d`. */
  function DecimalDigit(d: nat): (c: char)
    requires d < 10
    ensures DigitOf(c) == d && '0' <= c <= '9'
  {
    (d + '0' as int) as char
  }

  /** `${n}` for a non-negative integer: its shortest decimal form. */
  function NatToString(n: nat): (s: string)
    ensures |s| >= 1 && AllDigitsIn(s, 10)
    ensures forall i :: 0 <= i < |s| ==> '0' <= s[i] <= '9'
    ensures |s| > 1 ==> s[0] != '0'
    ensures n < 10 <==> |s| == 1
  {
    if n < 10 then [DecimalDigit(n)] else NatToString(n / 10) + [DecimalDigit(n % 10)]
  }

  /** `${i}` for any integer: a minus sign before the magnitude when negative. */
  function IntToString(i: int): (s: string)
    ensures |s| >= 1
    ensures forall k :: 0 <= k < |s| ==> s[k] == '-' || '0' <= s[k] <= '9'
  {
    if i < 0 then "-" + NatToString(-i) else NatToString(i)
  }

  /** Reading back a rendered number gives the number. */
  lemma {:induction false} NatToStringValue(n: nat)
    ensures ValueIn(NatToString(n), 10) == n
  {
    if n >= 10 {
      var s := NatToString(n);
      assert s[..|s| - 1] == NatToString(n / 10);
      NatToStringValue(n / 10);
    }
  }

  /** Distinct numbers render to distinct strings. */
  lemma NatToStringInjective(a: nat, b: nat)
    requires NatToString(a) == NatToString(b)
    ensures a == b
  {
    NatToStringValue(a);
    NatToStringValue(b);
  }

  /**
   * The white space and line terminators JavaScript's `parseInt` and `Number`
   * skip: the ASCII ones, NBSP, the BOM, the Unicode space separators and the
   * line and paragraph separators.
   */
  predicate IsJsSpace(c: char)
  {
    c == ' ' || c == '\t' || c == '\n' || c == '\r' || c == '\U{B}' || c == '\U{C}'
    || c == '\U{A0}' || c == '\U{FEFF}' || c == '\U{1680}' || ('\U{2000}' <= c <= '\U{200A}')
    || c == '\U{2028}' || c == '\U{2029}' || c == '\U{202F}' || c == '\U{205F}' || c == '\U{3000}'
  }

  /** `s` without its leading white space. */
  function TrimStart(s: string): (r: string)
    ensures |r| <= |s| && r == s[|s| - |r|..]
    ensures |r| > 0 ==> !IsJsSpace(r[0])
    ensures forall i :: 0 <= i < |s| - |r| ==> IsJsSpace(s[i])
  {
    if |s| > 0 && IsJsSpace(s[0]) then TrimStart(s[1..]) else s
  }

  /** `s` without its trailing white space. */
  function TrimEnd(s: string): (r: string)
    ensures |r| <= |s| && r == s[..|r|]
    ensures |r| > 0 ==> !IsJsSpace(r[|r| - 1])
    ensures forall i :: |r| <= i < |s| ==> IsJsSpace(s[i])
  {
    if |s| > 0 && IsJsSpace(s[|s| - 1]) then TrimEnd(s[..|s| - 1]) else s
  }

  /** The longest prefix of `s` made of digits of `base`. */
  function DigitPrefix(s: string, base: nat): (d: string)
    ensures |d| <= |s| && d == s[..|d|] && AllDigitsIn(d, base)
    ensures |d| < |s| ==> !IsDigitIn(s[|d|], base)
  {
    if |s| > 0 && IsDigitIn(s[0], base) then [s[0]] + DigitPrefix(s[1..], base) else ""
  }

  /**
   * JavaScript `parseInt(s)` with no radix: leading white space is skipped, an
   * optional sign is read, a `0x`/`0X` prefix selects base 16, and the longest
   * run of digits is converted; `None` stands for `NaN` (no digit at all).
   */
  function ParseInt(s: string): Option<int>
  {
    var t := TrimStart(s);
    var negative := |t| > 0 && t[0] == '-';
    var u := if |t| > 0 && (t[0] == '-' || t[0] == '+') then t[1..] else t;
    var hex := |u| >= 2 && u[0] == '0' && (u[1] == 'x' || u[1] == 'X');
    var base := if hex then 16 else 10;
    var w := if hex then u[2..] else u;
    var d := DigitPrefix(w, base);
    if |d| == 0 then None
    else if negative then Some(-(ValueIn(d, base) as int))
    else Some(ValueIn(d, base))
  }

  lemma {:induction false} DigitPrefixOfDigits(s: string, base: nat)
    requires AllDigitsIn(s, base)
    ensures DigitPrefix(s, base) == s
  {
    if |s| > 0 {
      DigitPrefixOfDigits(s[1..], base);
      assert [s[0]] + s[1..] == s;
    }
  }

  /** `parseInt` reads back every decimal rendering of a non-negative integer. */
  lemma ParseIntOfNatToString(n: nat)
    ensures ParseInt(NatToString(n)) == Some(n)
  {
    ParseIntOfDecimal(NatToString(n));
    NatToStringValue(n);
  }

  /** A non-empty run of decimal digits without a leading zero (unless it is just `0`) reads as its value. */
  lemma ParseIntOfDecimal(s: string)
    requires |s| >= 1 && forall i :: 0 <= i < |s| ==> '0' <= s[i] <= '9'
    requires |s| > 1 ==> s[0] != '0'
    ensures AllDigitsIn(s, 10) && ParseInt(s) == Some(ValueIn(s, 10))
  {
    assert !IsJsSpace(s[0]);
    assert TrimStart(s) == s;
    assert s[0] != '-' && s[0] != '+';
    DigitPrefixOfDigits(s, 10);
  }

  /** An optional sign followed by one or more decimal digits, read as an integer. */
  function SignedDecimal(t: string): Option<int>
  {
    var negative := |t| > 0 && t[0] == '-';
    var u := if |t| > 0 && (t[0] == '-' || t[0] == '+') then t[1..] else t;
    if |u| == 0 || !AllDigitsIn(u, 10) then None
    else if negative then Some(-(ValueIn(u, 10) as int))
    else Some(ValueIn(u, 10))
  }

  /**
   * JavaScript `Number(s)` restricted to integer literals: surrounding white space
   * is ignored, the empty string is 0, and an optional sign followed by decimal
   * digits gives their value; anything else is `NaN` (`None`).
   */
  function ToNumber(s: string): Option<int>
  {
    var t := TrimStart(TrimEnd(s));
    if |t| == 0 then Some(0) else SignedDecimal(t)
  }

  /** A rendered integer has no surrounding white space. */
  lemma TrimIntToString(i: int)
    ensures TrimStart(TrimEnd(IntToString(i))) == IntToString(i)
  {
    var s := IntToString(i);
    NoSpaceInNumber(s[|s| - 1]);
    assert TrimEnd(s) == s;
    NoSpaceInNumber(s[0]);
    assert TrimStart(s) == s;
  }

  lemma NoSpaceInNumber(c: char)
    requires c == '-' || '0' <= c <= '9'
    ensures !IsJsSpace(c)
  {
  }

  lemma SignedDecimalOfIntToString(i: int)
    ensures SignedDecimal(IntToString(i)) == Some(i)
  {
    var s := IntToString(i);
    if i < 0 {
      assert s[1..] == NatToString(-i);
      NatToStringValue(-i);
    } else {
      assert s == NatToString(i);
      assert s[0] != '-' && s[0] != '+';
      NatToStringValue(i);
    }
  }

  /** `Number` reads back every rendering of an integer. */
  lemma ToNumberOfIntToString(i: int)
    ensures ToNumber(IntToString(i)) == Some(i)
  {
    TrimIntToString(i);
    SignedDecimalOfIntToString(i);
  }

  /** The index of the first occurrence of `c` in `s`. */
  function IndexOf(s: string, c: char): (r: Option<nat>)
    ensures r.Some? ==> r.value < |s| && s[r.value] == c
    ensures r.Some? ==> forall i :: 0 <= i < r.value ==> s[i] != c
    ensures r.None? ==> forall i :: 0 <= i < |s| ==> s[i] != c
  {
    if |s| == 0 then None
    else if s[0] == c then Some(0)
    else match IndexOf(s[1..], c)
      case None => None
      case Some(k) => Some(k + 1)
  }

  /** JavaScript `s.split(sep)` for a one-character separator. */
  function Split(s: string, sep: char): (parts: seq<string>)
    ensures |parts| >= 1
    ensures IndexOf(s, sep).None? ==> parts == [s]
    ensures IndexOf(s, sep).Some? ==> parts[0] == s[..IndexOf(s, sep).value]
    decreases |s|
  {
    match IndexOf(s, sep)
    case None => [s]
    case Some(i) => [s[..i]] + Split(s[i + 1..], sep)
  }

  /** Splitting `a + [sep] + b` where neither part holds `sep` gives the two parts. */
  lemma SplitTwo(a: string, b: string, sep: char)
    requires forall i :: 0 <= i < |a| ==> a[i] != sep
    requires forall i :: 0 <= i < |b| ==> b[i] != sep
    ensures Split(a + [sep] + b, sep) == [a, b]
  {
    var s := a + [sep] + b;
    assert s[|a|] == sep;
    assert IndexOf(s, sep) == Some(|a|) by {
      var r := IndexOf(s, sep);
      assert r.Some?;
      assert forall i :: 0 <= i < |a| ==> s[i] != sep;
    }
    assert s[..|a|] == a;
    assert s[|a| + 1..] == b;
  }

  /** ASCII upper-casing of one character. */
  function ToUpperChar(c: char): char
  {
    if 'a' <= c <= 'z' then (c as int - 32) as char else c
  }

  /** `s.toUpperCase()` on ASCII text. */
  function ToUpper(s: string): (r: string)
    ensures |r| == |s|
    ensures forall i :: 0 <= i < |s| ==> r[i] == ToUpperChar(s[i])
  {
    if |s| == 0 then "" else [ToUpperChar(s[0])] + ToUpper(s[1..])
  }

  /** `s.startsWith(p)`. */
  predicate StartsWith(s: string, p: string)
  {
    |p| <= |s| && s[..|p|] == p
  }
}

=== FILE: tic_tac_toe.dfy ===
/**
 * The tic-tac-toe rules of src/models/gameModel.js: a fresh game, the winner
 * check over the eight lines, and a move. The games collection is a map from
 * game id to game; each database call is one atomic step.
 */
module TicTacToe {
  import opened Wrappers

  /** A cell is `null` or a player id. A mark counts for a line only when truthy (non-empty). */
  type Board = seq<Option<string>>

  /** A JavaScript value that may be `null`, `undefined` or a string, compared with `===`. */
  datatype JsValue = Null | Undefined | Text(s: string)

  datatype Status = Active | Finished

  datatype Move = Move(player: string, position: int)

  datatype Game = Game(status: Status, players: seq<string>, board: Board, currentPlayer: JsValue,
                       winner: Option<string>, lastMove: Option<Move>)

  datatype MoveError = GameNotFound | InvalidMove

  datatype MoveResult = MoveResult(games: map<string, Game>, winner: Option<string>)

  const BoardSize := 9

  /** The eight lines, rows then columns then diagonals, in the order they are checked. */
  const Lines: seq<(int, int, int)> :=
    [(0, 1, 2), (3, 4, 5), (6, 7, 8), (0, 3, 6), (1, 4, 7), (2, 5, 8), (0, 4, 8), (2, 4, 6)]

  /** `startNew`: an active game with no players, nine empty cells, no current player and no winner. */
  function StartNew(): (g: Game)
    ensures g.status == Active && g.players == [] && g.winner.None? && g.currentPlayer == Null
    ensures |g.board| == BoardSize && forall k :: 0 <= k < |g.board| ==> g.board[k].None?
  {
    Game(Active, [], seq(BoardSize, _ => None), Null, None, None)
  }

  /** Line `(a, b, c)` holds the same truthy mark `m` in all three cells. */
  predicate Wins(board: Board, line: (int, int, int), m: string)
  {
    m != "" && At(board, line.0) == Some(Some(m)) && At(board, line.1) == Some(Some(m)) && At(board, line.2) == Some(Some(m))
  }

  /** `board[a] && board[a] === board[b] && board[a] === board[c]`, giving the mark when it holds. */
  function LineMark(board: Board, line: (int, int, int)): (r: Option<string>)
    ensures r.Some? ==> Wins(board, line, r.value)
    ensures r.None? ==> forall m :: !Wins(board, line, m)
  {
    var first: Option<Option<string>> := At(board, line.0);
    match first
    case Some(Some(m)) =>
      if m != "" && At(board, line.1) == Some(Some(m)) && At(board, line.2) == Some(Some(m)) then Some(m) else None
    case _ => None
  }

  /** The winner check from line `k` on. */
  function WinnerFrom(board: Board, k: nat): Option<string>
    requires k <= |Lines|
    decreases |Lines| - k
  {
    if k == |Lines| then None
    else match LineMark(board, Lines[k])
      case Some(m) => Some(m)
      case None => WinnerFrom(board, k + 1)
  }

  /** The search from line `k` finds the first line from `k` on with a winning mark. */
  lemma {:induction false} WinnerFromIsFirst(board: Board, k: nat)
    requires k <= |Lines|
    ensures WinnerFrom(board, k).None? <==> forall j :: k <= j < |Lines| ==> LineMark(board, Lines[j]).None?
    ensures WinnerFrom(board, k).Some? ==>
              exists j :: k <= j < |Lines| && Wins(board, Lines[j], WinnerFrom(board, k).value) &&
                          forall i :: k <= i < j ==> LineMark(board, Lines[i]).None?
    decreases |Lines| - k
  {
    if k < |Lines| {
      var r := WinnerFrom(board, k);
      if LineMark(board, Lines[k]).Some? {
        assert Wins(board, Lines[k], r.value);
      } else {
        WinnerFromIsFirst(board, k + 1);
        if r.Some? {
          var j :| k + 1 <= j < |Lines| && Wins(board, Lines[j], r.value) &&
                   forall i :: k + 1 <= i < j ==> LineMark(board, Lines[i]).None?;
          assert forall i :: k <= i < j ==> LineMark(board, Lines[i]).None?;
        }
      }
    }
  }

  /**
   * `checkWinner`: the mark of the first line, in the listed order, with three
   * equal truthy cells; `null` when no line has one.
   */
  function CheckWinner(board: Board): (r: Option<string>)
    ensures r.None? <==> forall j, m :: 0 <= j < |Lines| ==> !Wins(board, Lines[j], m)
    ensures r.Some? ==> exists j :: 0 <= j < |Lines| && Wins(board, Lines[j], r.value) &&
                                   forall i, m :: 0 <= i < j ==> !Wins(board, Lines[i], m)
  {
    WinnerFromIsFirst(board, 0);
    WinnerFrom(board, 0)
  }

  /** A fresh game has no winner. */
  lemma NewGameHasNoWinner()
    ensures CheckWinner(StartNew().board).None?
  {
    var b := StartNew().board;
    forall j, m | 0 <= j < |Lines| ensures !Wins(b, Lines[j], m) {
      assert At(b, Lines[j].0) == Some(None);
    }
  }

  /** Who moves next: the second player after the first, the first player otherwise. */
  function NextPlayer(players: seq<string>, current: JsValue): (next: JsValue)
    ensures |players| >= 2 && current == Text(players[0]) ==> next == Text(players[1])
    ensures |players| == 1 && current == Text(players[0]) ==> next == Undefined
    ensures |players| >= 1 && current != Text(players[0]) ==> next == Text(players[0])
    ensures players == [] ==> next == Undefined
  {
    var first := if |players| >= 1 then Text(players[0]) else Undefined;
    var second := if |players| >= 2 then Text(players[1]) else Undefined;
    if current == first then second else first
  }

  /**
   * `makeMove(gameId, playerId, position)`: an unknown game or a cell that is not
   * `null` (taken, or outside the board) is refused with nothing written;
   * otherwise the cell takes the player's id and the winner is recomputed.
   */
  function MakeMove(games: map<string, Game>, gameId: string, playerId: string, position: int): (r: Result<MoveResult, MoveError>)
    ensures gameId !in games <==> r == Err(GameNotFound)
    ensures gameId in games ==>
              (r == Err(InvalidMove) <==> !(0 <= position < |games[gameId].board|) || games[gameId].board[position].Some?)
    ensures r.Ok? ==> gameId in games && gameId in r.value.games
    ensures r.Ok? ==>
              var g := games[gameId];
              var g' := r.value.games[gameId];
              && r.value.games.Keys == games.Keys
              && (forall id :: id in games && id != gameId ==> r.value.games[id] == games[id])
              && |g'.board| == |g.board|
              && g'.board[position] == Some(playerId)
              && (forall k :: 0 <= k < |g.board| && k != position ==> g'.board[k] == g.board[k])
              && (g'.status == Finished <==> CheckWinner(g'.board).Some?)
              && g'.winner == CheckWinner(g'.board) == r.value.winner
              && g'.currentPlayer == NextPlayer(g.players, g.currentPlayer)
              && g'.players == g.players
              && g'.lastMove == Some(Move(playerId, position))
  {
    if gameId !in games then Err(GameNotFound)
    else
      var g := games[gameId];
      if !(0 <= position < |g.board|) || g.board[position].Some? then Err(InvalidMove)
      else
        var board := g.board[position := Some(playerId)];
        var winner := CheckWinner(board);
        var g' := g.(board := board, currentPlayer := NextPlayer(g.players, g.currentPlayer),
                     lastMove := Some(Move(playerId, position)),
                     status := if winner.Some? then Finished else Active, winner := winner);
        Ok(MoveResult(games[gameId := g'], winner))
  }

  /** A move on a board with no winner can only produce the mover as winner. */
  lemma {:induction false} OnlyTheMoverCanWin(games: map<string, Game>, gameId: string, playerId: string, position: int)
    requires gameId in games && CheckWinner(games[gameId].board).None?
    requires MakeMove(games, gameId, playerId, position).Ok?
    ensures MakeMove(games, gameId, playerId, position).value.winner in {None, Some(playerId)}
  {
    var before := games[gameId].board;
    var r := MakeMove(games, gameId, playerId, position).value;
    if r.winner.Some? {
      var w := r.winner.value;
      var j :| 0 <= j < |Lines| && Wins(r.games[gameId].board, Lines[j], w);
      WinThroughMove(before, r.games[gameId].board, position, playerId, Lines[j], w);
    }
  }

  /** A line that wins after a move but did not before runs through the moved-on cell, so it holds the mover's mark. */
  lemma WinThroughMove(before: Board, after: Board, position: int, playerId: string, line: (int, int, int), w: string)
    requires |after| == |before| && 0 <= position < |before|
    requires after[position] == Some(playerId)
    requires forall k :: 0 <= k < |before| && k != position ==> after[k] == before[k]
    requires Wins(after, line, w) && !Wins(before, line, w)
    ensures w == playerId
  {
    assert line.0 == position || line.1 == position || line.2 == position;
  }

  /** A successful move never changes a cell that was already taken. */
  lemma MoveKeepsTakenCells(games: map<string, Game>, gameId: string, playerId: string, position: int, k: int)
    requires MakeMove(games, gameId, playerId, position).Ok?
    requires 0 <= k < |games[gameId].board| && games[gameId].board[k].Some?
    ensures MakeMove(games, gameId, playerId, position).value.games[gameId].board[k] == games[gameId].board[k]
  {
  }
}

=== FILE: wrappers.dfy ===
/** Failure-compatible wrappers shared by every module of the model. */
module Wrappers {

  /** A value that may be missing: JavaScript's `null`/`undefined` against a present value. */
  datatype Option<+T> = None | Some(value: T) {

    /** Returns the wrapped value, or `default` when there is none. */
    function GetOr(default: T): T {
      match this
      case Some(v) => v
      case None => default
    }
  }

  /** The outcome of an operation that either returns a value or throws an error. */
  datatype Result<+T, +E> = Ok(value: T) | Err(error: E) {

    predicate IsFailure() {
      Err?
    }

    function PropagateFailure<U>(): Result<U, E>
      requires Err?
    {
      Err(error)
    }

    function Extract(): T
      requires Ok?
    {
      value
    }
  }

  /** The element of `s` at position `i`, or `None` past its end (JavaScript's `a[i]` on an array). */
  function At<T>(s: seq<T>, i: int): (r: Option<T>)
    ensures r.Some? <==> 0 <= i < |s|
    ensures r.Some? ==> r.value == s[i]
  {
    if 0 <= i < |s| then Some(s[i]) else None
  }
}
